=== FILE: README.md ===
# VisaShield adjudication core in Dafny

VisaShield runs an AI "adjudicator" over immigration petitions. The FastAPI
server (`adjudicator_api.py`) streams one `AdjudicationEvent` per
`data: <json>\n\n` frame. The events are the opening stage, the agent's tool
calls and tool results, the agent's final text cut into 200-character
`reasoning` chunks, and then `complete` or `error`. The agent's tools
(`adjudicator_agent.py`) return fixed-shape verdict dictionaries. The Angular
`AdjudicatorService` reads the body chunk by chunk, splits it into lines and
decodes each `data:` line. It folds the events into its signals: the current
stage, the numbered reasoning steps, the criteria checklist, the analysis
text, the error, the confidence and the elapsed-time timer. The page
components around it are also modelled: the case list, the case detail page,
the AI adjudicator page, the documents page, the header and the sidebar.

The model is purely functional. Each signal set is one immutable state
datatype, and each handler is a function from state to state. The one loop,
the client's read loop, is a method with invariants. The modules follow the
program:

- **Wire format.**
  - `Json`: JSON values, JavaScript truthiness and `||`, and compact serialization.
  - `Events`: the event record and its JSON form.
  - `Framing`: `split('\n')`, the client's line buffer, and the server's frames.
- **Server.**
  - `ServerApi`: the criteria endpoint and the streaming generator.
  - `AgentTools`: the seven tools.
- **Client service.**
  - `Timer`: the elapsed-time interval.
  - `Reducer`: `handleEvent` and its helpers.
  - `Session`: `loadCriteria`, `analyzeCase`, `pause`/`resume`.
  - `Pipeline`: the end-to-end theorems from server to client state.
- **Pages.**
  - `Widgets`: `slice`/`substring` clamping, `Set` toggling, confidence colours.
  - `CaseList`, `CaseDetail`, `AdjudicatorPage`, `Documents`, `Header`, `Sidebar`.
- **Shared helpers.** `Wrappers`, `Text`, `Seqs`.

The headline results:

- **`Pipeline.ServerRunOutcome`.** However the response body is cut into
  chunks, the client decodes exactly the events the server generated. This
  holds when `JSON.parse` reads back what the serializer writes for every
  value a JavaScript number and object can hold exactly, and the tool
  results hold only safe integers (see "## Left out"). Its
  analysis text is the agent's final text. The run ends with processing
  stopped and the timer disarmed. It ends either completed (confidence 89,
  stage `draft_generation`, every criterion completed) or failed with the
  server's message.
- **`Framing.ReadAllIsChunkingInvariant`.** What the read loop hands the
  decoder depends only on the concatenated text, not on how it was chunked.
- **`CaseList.FilteredCases`.** The three-stage filter pipeline is one
  filter by an independently stated predicate. It therefore keeps exactly
  the matching cases, in order.

## Model

| member | source | states |
|---|---|---|
| Json.Or | frontend/src/app/services/adjudicator.service.ts:258-259 | `a \|\| b` is `a` when `a` is truthy and `b` otherwise; the result is truthy exactly when one operand is |
| Json.OrStr | frontend/src/app/services/adjudicator.service.ts:214 | `content \|\| fallback` keeps a non-empty string and otherwise gives the fallback |
| Json.Lookup | frontend/src/app/services/adjudicator.service.ts:151 | a key is absent exactly when no member of the object has it |
| Json.Display | frontend/src/app/services/adjudicator.service.ts:274-290 | a template literal shows a missing value as `undefined`, a string as itself and an integer by its decimal digits, with `-` before a negative one (safe integers only; see the `Json.Display` line under Left out) |
| Json.Stringify | visashieldai/app/adjudicator_api.py:110 | the serialized event is one line (no line feed) that starts with neither whitespace nor a capital, and an object starts with `{` |
| Events.TagRoundTrip | frontend/src/app/services/adjudicator.service.ts:24-32 | each of the six event types is read back from its wire spelling |
| Events.ToEvent | frontend/src/app/services/adjudicator.service.ts:151-152 | a parsed value becomes an event exactly when it is an object; a decoded tool result is never `null` |
| Events.DecodeEncode | visashieldai/app/adjudicator_api.py:52-64 | the client reads back exactly the event the server serialized |
| Events.ExactEventJson | visashieldai/app/adjudicator_api.py:52-64 | an event's seven keys are distinct, so its JSON is exactly representable whenever its confidence and tool result are |
| Framing.Split | frontend/src/app/services/adjudicator.service.ts:143 | `split('\n')` gives at least one piece and no piece holds a line feed |
| Framing.JoinSplit | frontend/src/app/services/adjudicator.service.ts:143 | joining the pieces with line feeds restores the text |
| Framing.Payload | frontend/src/app/services/adjudicator.service.ts:147-149 | a line yields a payload exactly when it starts with `data: ` and the rest is not blank; the line is the prefix followed by the payload |
| Framing.FeedKeepsText | frontend/src/app/services/adjudicator.service.ts:142-144 | the complete lines and the new buffer rejoin to the old buffer plus the chunk |
| Framing.ReadAllIsChunkingInvariant | frontend/src/app/services/adjudicator.service.ts:136-159 | after any run of chunks, the payloads handed on are those of the complete lines of the concatenated text, and the buffer is its unterminated last line |
| Framing.SameTextSamePayloads | frontend/src/app/services/adjudicator.service.ts:136-159 | two chunkings of the same text yield the same payloads |
| Framing.UnterminatedLineNeverDecoded | frontend/src/app/services/adjudicator.service.ts:143-144 | text without a line feed yields no payload and stays buffered |
| Framing.FramesRoundTrip | visashieldai/app/adjudicator_api.py:110-162 | the server's frames, however chunked, are read back as exactly their payloads, in order, with an empty buffer |
| ServerApi.CriteriaMap | visashieldai/app/adjudicator_api.py:323-390 | a list exactly for the three visa keys; each list has at least three criteria with ids running 1..n |
| ServerApi.GetEvaluationCriteria | visashieldai/app/adjudicator_api.py:320-400 | found exactly when the upper-cased type is one of the three keys; the reply carries that key and its list, whose ids run 1..n; otherwise a 404 naming the type as given |
| ServerApi.LookupIgnoresCase | visashieldai/app/adjudicator_api.py:392-400 | two spellings that upper-case alike get the same reply |
| ServerApi.LookupOfReturnedKey | visashieldai/app/adjudicator_api.py:397-400 | looking up the returned key gives the same reply again |
| ServerApi.ChunkText | visashieldai/app/adjudicator_api.py:148-151 | no chunks exactly for empty text; every chunk is non-empty and at most 200 long, every chunk but the last is exactly 200, and the count is the ceiling of length/200 |
| ServerApi.ChunksConcat | visashieldai/app/adjudicator_api.py:148-153 | the chunks concatenate back to the text |
| ServerApi.ResultJson | visashieldai/app/adjudicator_api.py:136-139 | a missing response and a dictionary are both sent as objects; only `None` becomes `null` |
| ServerApi.TextEvents | visashieldai/app/adjudicator_api.py:142-156 | every event of a final text is a well-formed `reasoning` event with non-empty content |
| ServerApi.Stamp | visashieldai/app/adjudicator_api.py:61-64 | every event takes its own clock reading when it is built; nothing but the timestamp changes |
| ServerApi.GenerateEvents | visashieldai/app/adjudicator_api.py:78-162 | the stream opens with the `form_validation` stage and ends with `complete` (or with `error` carrying the failure); every event between is a tool call, tool result or reasoning chunk; the `i`-th event sent carries its own clock reading `clock(i)` |
| ServerApi.GeneratedExact | visashieldai/app/adjudicator_api.py:110-162 | when every tool result holds only safe integers, every event sent is exactly representable: no repeated key and no number beyond `Number.MAX_SAFE_INTEGER` |
| ServerApi.EventText | visashieldai/app/adjudicator_api.py:110-162 | every payload can be framed: one line, not blank |
| AgentTools.AnalyzePetitionForm | visashieldai/app/adjudicator_agent.py:15-46 | the analysis echoes the case number and form type, says VALID, scores completeness in [85, 100], lists the four form findings and stamps the clock reading |
| AgentTools.FormFindings | visashieldai/app/adjudicator_agent.py:38-43 | four findings; the job classification note names the form type |
| AgentTools.PetitionFormAsClientSees | visashieldai/app/adjudicator_agent.py:33-45 | the client shows `Form validation: VALID (n% complete)` with the drawn score |
| AgentTools.PetitionFormUnscored | visashieldai/app/adjudicator_agent.py:33-45 | the form analysis has neither score key, so it gives criterion 1 no confidence |
| AgentTools.EvaluateSpecialtyOccupation | visashieldai/app/adjudicator_agent.py:49-96 | a fixed determination with score 91 and its policy reference, whatever the position |
| AgentTools.SpecialtyAsClientSees | visashieldai/app/adjudicator_agent.py:92-94 | the client shows `Specialty occupation: SPECIALTY OCCUPATION CONFIRMED (91% confidence)` and records 91 |
| AgentTools.SpecialtyReferences | visashieldai/app/adjudicator_agent.py:92-94 | the client takes the policy reference and the determination from the result |
| AgentTools.UsEquivalency | visashieldai/app/adjudicator_agent.py:120 | a bachelor's degree exactly for the three listed spellings, a master's for anything else |
| AgentTools.UsEquivalencyExamples | visashieldai/app/adjudicator_agent.py:120 | `PhD` and the unlisted spelling `Bachelors` both count as a master's |
| AgentTools.CheckBeneficiaryQualifications | visashieldai/app/adjudicator_agent.py:99-137 | the equivalency follows the degree and the certifications are echoed; the verdict QUALIFIED and score 94 are fixed |
| AgentTools.QualificationsAsClientSees | visashieldai/app/adjudicator_agent.py:133-134 | the client shows `Beneficiary qualifications: QUALIFIED (94% confidence)` and records 94 |
| AgentTools.VerifyEmployerEmployeeRelationship | visashieldai/app/adjudicator_agent.py:140-184 | a fixed determination with score 93 and its legal standard; the inputs are only echoed |
| AgentTools.EmployerAsClientSees | visashieldai/app/adjudicator_agent.py:180-181 | the client shows the relationship verdict at 93% and records 93 |
| AgentTools.EmployerPolicy | visashieldai/app/adjudicator_agent.py:182 | with no `policy_reference`, the client's policy step quotes the legal standard |
| AgentTools.WageAnalysis | visashieldai/app/adjudicator_agent.py:204-214 | compliant exactly when the offered wage reaches the prevailing wage; the margin reads `+$…` when compliant and `-$…` otherwise |
| AgentTools.Attestations | visashieldai/app/adjudicator_agent.py:215-220 | only the wage attestation can be NON-COMPLIANT, and it is exactly when the wage test fails |
| AgentTools.CheckLcaCompliance | visashieldai/app/adjudicator_agent.py:187-224 | the status is LCA COMPLIANT and the score 97 exactly when the wage test passes, otherwise LCA NON-COMPLIANT and 45 |
| AgentTools.LcaVerdictsAgree | visashieldai/app/adjudicator_agent.py:204-222 | status, score and wage analysis all agree on compliance |
| AgentTools.LcaAsClientSees | visashieldai/app/adjudicator_agent.py:221-222 | the client shows `LCA compliance: <status> (97 or 45% confidence)` and records that score |
| AgentTools.RiskFactors | visashieldai/app/adjudicator_agent.py:253 | the given risk factors, or the single default when none are given; never empty |
| AgentTools.GenerateAdjudicationDraft | visashieldai/app/adjudicator_agent.py:227-268 | confidence 89 and no human review exactly for `APPROVE`, otherwise 75 with review; the decision has the summary and non-empty risk factors |
| AgentTools.DraftReviewIffLowConfidence | visashieldai/app/adjudicator_agent.py:264-265 | a draft asks for review exactly when its confidence is 75 |
| AgentTools.DraftAsClientSees | visashieldai/app/adjudicator_agent.py:250-264 | the client shows `Draft recommendation: ` followed by the summary sentence, and records the draft's score |
| AgentTools.AnyOccursIn | visashieldai/app/adjudicator_agent.py:289 | true exactly when some known key occurs in the citation text |
| AgentTools.CheckCitationValidity | visashieldai/app/adjudicator_agent.py:271-297 | valid, the known source, LOW risk and 98 exactly when a known key occurs; otherwise Unknown, HIGH and 15 |
| AgentTools.CitationValidityMonotone | visashieldai/app/adjudicator_agent.py:289 | a valid citation stays valid with text added before or after it |
| AgentTools.CitationExamples | visashieldai/app/adjudicator_agent.py:281-296 | anything starting with the second known key (`KnownCitations[1]`) is valid with LOW risk; the empty text is HIGH risk |
| AgentTools.SummaryOfTool | frontend/src/app/services/adjudicator.service.ts:366-383 | every known tool gets its own summary line and reports on a criterion |
| Timer.Start | frontend/src/app/services/adjudicator.service.ts:420-425 | `startTimer` zeroes the count and adds one running interval |
| Timer.Stop | frontend/src/app/services/adjudicator.service.ts:427-432 | `stopTimer` clears only the held interval; leaked ones keep running |
| Timer.Tick | frontend/src/app/services/adjudicator.service.ts:422-424 | each second, every running interval (held or leaked) adds one to the count; nothing else changes |
| Timer.TickOfSoundClock | frontend/src/app/services/adjudicator.service.ts:422-424 | with nothing leaked, a second adds one while armed and nothing otherwise |
| Timer.StoppedClockFrozen | frontend/src/app/services/adjudicator.service.ts:427-432 | once stopped with nothing leaked, the count never changes |
| Timer.StartedClockCounts | frontend/src/app/services/adjudicator.service.ts:420-425 | a freshly started clock shows exactly the seconds passed |
| Timer.FormatElapsed | frontend/src/app/services/adjudicator.service.ts:90-95 | the display is the minutes in decimal, a colon, then exactly two digits |
| Timer.ParseFormat | frontend/src/app/services/adjudicator.service.ts:90-95 | the `m:ss` display reads back to the count it shows |
| Timer.FormatInjective | frontend/src/app/services/adjudicator.service.ts:90-95 | different counts are displayed differently |
| Timer.FormatExamples | frontend/src/app/services/adjudicator.service.ts:90-95 | 125 seconds show as `2:05` and 59 as `0:59` |
| Reducer.StageIndex | frontend/src/app/services/adjudicator.service.ts:85-88 | -1 exactly for an unknown stage, otherwise the stage's position among the five |
| Reducer.StepIdInjective | frontend/src/app/services/adjudicator.service.ts:330 | different step numbers give different ids |
| Reducer.AddStep | frontend/src/app/services/adjudicator.service.ts:326-331 | the counter goes up by one and the step is appended under the new number; nothing else changes |
| Reducer.IdsDistinct | frontend/src/app/services/adjudicator.service.ts:326-331 | while the counter counts the steps, no two steps share an id |
| Reducer.ToolNameRoundTrip | frontend/src/app/services/adjudicator.service.ts:335-342 | every known tool is recognized by its own name |
| Reducer.CriterionFor | frontend/src/app/services/adjudicator.service.ts:335-344 | a tool maps to a criterion exactly when it is one of the six known tools, and the criterion is one of 1, 2, 3, 4, 6 |
| Reducer.NoToolForCriterionFive | frontend/src/app/services/adjudicator.service.ts:335-342 | no tool reports on criterion 5 |
| Reducer.ScoreOf | frontend/src/app/services/adjudicator.service.ts:349-351 | no score without a result; otherwise a truthy `confidence_score`, else `confidence` |
| Reducer.UpdateCriteria | frontend/src/app/services/adjudicator.service.ts:334-358 | same length; an unmapped tool changes nothing; only the mapped criterion changes, and only its status and confidence |
| Reducer.CompleteAll | frontend/src/app/services/adjudicator.service.ts:310-312 | every criterion becomes completed and nothing else about it changes |
| Reducer.Unsnake | frontend/src/app/services/adjudicator.service.ts:362 | no underscore remains, every other character is kept, and the spaces are exactly the former spaces and underscores |
| Reducer.CapitalizeWordsKeepsLetters | frontend/src/app/services/adjudicator.service.ts:363 | the capitalization keeps every letter up to case, leaves no word starting in lower case, and changes nothing off a word start |
| Reducer.FormatToolName | frontend/src/app/services/adjudicator.service.ts:360-364 | same length, no underscore, the same letters up to case, and no word starts in lower case |
| Reducer.FormatToolNameIdempotent | frontend/src/app/services/adjudicator.service.ts:360-364 | formatting a formatted name changes nothing |
| Reducer.FormatWordThenRest | frontend/src/app/services/adjudicator.service.ts:360-364 | a snake-case name formats word by word: the first word capitalized, then a space, then the rest formatted |
| Reducer.Summary | frontend/src/app/services/adjudicator.service.ts:366-379 | a known tool's summary is non-empty and starts with a capital letter |
| Reducer.FormatToolResult | frontend/src/app/services/adjudicator.service.ts:366-383 | the raw JSON text is shown exactly for a tool with no criterion |
| Reducer.ResultDraftsCount | frontend/src/app/services/adjudicator.service.ts:256-293 | evidence first with the result and its score; a policy step exactly when a policy reference is present; an assessment with the same score exactly when a determination is present |
| Reducer.Reset | frontend/src/app/services/adjudicator.service.ts:434-449 | everything but the criteria returns to its initial value and the held interval is cleared |
| Reducer.ResetClearsLog | frontend/src/app/services/adjudicator.service.ts:434-443 | reset empties the log, zeroes the counter, keeps the checklist and restores the id invariant |
| Reducer.Handle | frontend/src/app/services/adjudicator.service.ts:196-219 | an event of an unknown type changes nothing, and no event changes the number of criteria |
| Reducer.HandleAppends | frontend/src/app/services/adjudicator.service.ts:196-219 | each event appends a number of steps read off the event alone, keeps the older steps, and keeps ids sequential |
| Reducer.ReduceAppends | frontend/src/app/services/adjudicator.service.ts:196-219 | over a run of events the log only grows and the counter counts the steps |
| Reducer.HandleKeepsClock | frontend/src/app/services/adjudicator.service.ts:196-219 | no event touches the count or the leaked intervals; only `complete` and `error` touch the timer |
| Reducer.HandleTextFields | frontend/src/app/services/adjudicator.service.ts:297-301 | only `reasoning` extends the analysis text, and only `error` sets the error |
| Reducer.StageEvent | frontend/src/app/services/adjudicator.service.ts:221-232 | a stage event without a stage changes nothing; otherwise it sets the stage and appends one `evaluating` step with the content or `Starting …` |
| Reducer.ReasoningEvent | frontend/src/app/services/adjudicator.service.ts:297-301 | only the content is appended to the analysis text |
| Reducer.ToolEventCriteria | frontend/src/app/services/adjudicator.service.ts:234-254 | a tool call marks the mapped criterion in progress and clears its score; a result completes it with the result's score; other criteria are untouched |
| Reducer.UnmappedToolKeepsCriteria | frontend/src/app/services/adjudicator.service.ts:344-345 | a tool outside the table leaves the checklist as it was |
| Reducer.ToolResultEvent | frontend/src/app/services/adjudicator.service.ts:249-295 | with a result: evidence, then policy exactly when present, then assessment exactly when present, all with the same score; without one, only the criteria change |
| Reducer.CompleteEvent | frontend/src/app/services/adjudicator.service.ts:303-320 | processing stops, the timer is disarmed, the stage is `draft_generation`, the confidence is the event's or 0, all criteria complete with scores kept, and one assessment step is added |
| Reducer.ErrorEvent | frontend/src/app/services/adjudicator.service.ts:213-217 | the error is the content or `Unknown error`, processing stops and the timer is disarmed; nothing else changes |
| Reducer.HandlersIgnoreRunStatus | frontend/src/app/services/adjudicator.service.ts:196-219 | no handler reads the error or processing flags, so events after an error are applied as before |
| Session.LoadCriteria | frontend/src/app/services/adjudicator.service.ts:385-418 | the listed criteria in order, all pending and unscored; the six-item default on any failure |
| Session.DefaultCriteriaIds | frontend/src/app/services/adjudicator.service.ts:398-405 | the fallback has six criteria with ids 1 to 6 in order |
| Session.Decode | frontend/src/app/services/adjudicator.service.ts:150-155 | a payload decodes exactly when it parses to an object; otherwise it is skipped |
| Session.ConsumeIsReduce | frontend/src/app/services/adjudicator.service.ts:146-158 | handling the payloads one by one is reducing the events they decode to |
| Session.ReadLoop | frontend/src/app/services/adjudicator.service.ts:135-159 | the loop's buffer and state are those of the whole text's complete lines, whatever the chunking |
| Session.Fail | frontend/src/app/services/adjudicator.service.ts:160-164 | the message or `Unknown error` is recorded, processing stops and the timer is disarmed; nothing else changes |
| Session.Started | frontend/src/app/services/adjudicator.service.ts:105-111 | a reset state that is processing, with a zero count, one armed interval and the loaded criteria |
| Session.AnalyzeCase | frontend/src/app/services/adjudicator.service.ts:105-165 | an HTTP error, a missing body or a thrown fetch ends in `Fail` with the source's message; a stream ends as the decoded events reduced, then failed if reading broke off |
| Session.RunResult | frontend/src/app/services/adjudicator.service.ts:105-165 | a failed request ends stopped, disarmed and with an error, no step, no analysis and the loaded checklist; a stream that breaks off ends stopped with the reader's message |
| Session.FailedRequestKeepsChecklist | frontend/src/app/services/adjudicator.service.ts:160-164 | a run failing before the stream keeps the loaded checklist and logs no step |
| Session.UnfinishedStreamKeepsProcessing | frontend/src/app/services/adjudicator.service.ts:196-219 | a stream without `complete` or `error` leaves the service processing with the timer armed |
| Session.Pause | frontend/src/app/services/adjudicator.service.ts:452-455 | `pause` disarms the timer and keeps the count; nothing else changes |
| Session.ResumeAsWritten | frontend/src/app/services/adjudicator.service.ts:457-461 | as written, `resume` during a run arms a new interval over the held one and zeroes the count |
| Session.ResumeAsWrittenLeaks | frontend/src/app/services/adjudicator.service.ts:452-461 | after `resume` and then `pause` in a run, the timer reads disarmed yet the count still advances each second |
| Session.Resume | frontend/src/app/services/adjudicator.service.ts:457-461 | corrected `resume` clears the held interval first; no interval leaks |
| Session.ResumeThenPauseFreezes | frontend/src/app/services/adjudicator.service.ts:452-461 | with the corrected `resume`, a paused count stays frozen |
| Session.StepsKeepClockSound | frontend/src/app/services/adjudicator.service.ts:420-461 | with the corrected `resume`, no input sequence ever has more than one interval running |
| Session.CriteriaNotFoundFallsBack | frontend/src/app/services/adjudicator.service.ts:396-405 | a 404 from the criteria endpoint gives the six pending defaults |
| Session.QualificationsScenario | frontend/src/app/services/adjudicator.service.ts:221-295 | a stage, a qualifications tool call and its result log four steps (evaluating, tool call, evidence, assessment) and complete criterion 2 with score 89 |
| Session.RateLimitedScenario | frontend/src/app/services/adjudicator.service.ts:213-217 | an `error` event reading `rate limited` ends the run with that message |
| Pipeline.DecodeEventTexts | frontend/src/app/services/adjudicator.service.ts:150-152 | the server's payloads decode to the events they were written from, when `JSON.parse` inverts the serializer on exactly representable values (safe integers, no repeated key) and each event's parts are such values |
| Pipeline.StreamDelivered | frontend/src/app/services/adjudicator.service.ts:136-159 | however the body is chunked, the decoder gets exactly the server's payloads and decodes the generated events |
| Pipeline.ReduceAnalysis | frontend/src/app/services/adjudicator.service.ts:297-301 | the analysis text grows by exactly the text of the reasoning events handled |
| Pipeline.NarrativeOfStream | visashieldai/app/adjudicator_api.py:141-156 | the generated stream's reasoning text is exactly the agent's final text |
| Pipeline.StreamOutcome | frontend/src/app/services/adjudicator.service.ts:303-320 | the generated events leave processing stopped, the timer disarmed and the analysis equal to the agent's text, completed or failed |
| Pipeline.ServerRunOutcome | visashieldai/app/adjudicator_api.py:78-162 | an end-to-end run over a fully delivered stream is the generated events reduced, and ends as `StreamOutcome` states |
| Widgets.SliceIndex | frontend/src/app/pages/cases/case-list/case-list.ts:108 | a `slice` index counts negatives from the end and is clamped to the length |
| Widgets.Toggled | frontend/src/app/pages/cases/case-list/case-list.ts:156-166 | the element's membership flips and every other element's stays |
| Widgets.ConfidenceColor | frontend/src/app/pages/cases/case-list/case-list.ts:200-204 | success exactly from 80, danger exactly below 60, warning between |
| Widgets.ConfidenceColorMonotone | frontend/src/app/pages/cases/case-detail/case-detail.ts:175-179 | a higher confidence never gets a more alarming colour |
| CaseList.FilteredCases | frontend/src/app/pages/cases/case-list/case-list.ts:78-102 | the three conditional filters equal one filter by the independently stated `Selected` predicate |
| CaseList.FilteredCasesSpec | frontend/src/app/pages/cases/case-list/case-list.ts:78-102 | the result is an order-preserving subsequence holding exactly the cases that match the query and both filters |
| CaseList.NoFilterListsAll | frontend/src/app/pages/cases/case-list/case-list.ts:84-99 | no query and both filters `all` list every case |
| CaseList.TotalPages | frontend/src/app/pages/cases/case-list/case-list.ts:112 | the fewest pages of the page size that hold every row: zero exactly for no rows |
| CaseList.PaginatedCases | frontend/src/app/pages/cases/case-list/case-list.ts:105-109 | from page 1 on, a page holds at most the page size, and its k-th case is the filtered case at `(page-1)*size + k` |
| CaseList.PageContents | frontend/src/app/pages/cases/case-list/case-list.ts:105-109 | a page holds at most the page size, in order from `(page-1)*size`; every page before the last is full |
| CaseList.EveryCaseOnAPage | frontend/src/app/pages/cases/case-list/case-list.ts:105-112 | every filtered case appears on a page within `[1, totalPages]` at its offset |
| CaseList.UpdateSearch | frontend/src/app/pages/cases/case-list/case-list.ts:118-122 | the query is the new one and the page is 1; both filters, the selection and the rest are kept |
| CaseList.SetStatusFilter | frontend/src/app/pages/cases/case-list/case-list.ts:124-127 | the status filter is the new one and the page is 1; the query, the visa filter and the rest are kept |
| CaseList.SetVisaTypeFilter | frontend/src/app/pages/cases/case-list/case-list.ts:129-132 | the visa filter is the new one and the page is 1; the query, the status filter and the rest are kept |
| CaseList.ClearFilters | frontend/src/app/pages/cases/case-list/case-list.ts:134-139 | no query, both filters `all`, page 1; the selection and the rest are kept |
| CaseList.ToggleFilters | frontend/src/app/pages/cases/case-list/case-list.ts:141-143 | the filter panel flag flips and nothing else changes |
| CaseList.FilterChangeShowsFirstPage | frontend/src/app/pages/cases/case-list/case-list.ts:118-139 | a new query, status or visa filter, or clearing them, returns to page 1, which then shows the first page-size cases of the new result, each matching the new filters |
| CaseList.GoToPage | frontend/src/app/pages/cases/case-list/case-list.ts:172-176 | the page changes exactly when the target is within `[1, totalPages]`; otherwise nothing changes |
| CaseList.ToggleCaseSelection | frontend/src/app/pages/cases/case-list/case-list.ts:156-170 | the case's selection flips, every other case's stays, and nothing else changes |
| CaseList.ToggleCaseSelectionTwice | frontend/src/app/pages/cases/case-list/case-list.ts:156-170 | toggling flips only that case's selection, and twice restores the state |
| CaseList.ToggleSelectAll | frontend/src/app/pages/cases/case-list/case-list.ts:145-154 | always flips `selectAll`; clears the selection when it was set, else selects exactly the ids on the current page |
| CaseList.VisaTypeClass | frontend/src/app/pages/cases/case-list/case-list.ts:178-187 | each class is given exactly for its visa types; H-1B's class also covers I-140 and unknown types |
| CaseList.StatusClass | frontend/src/app/pages/cases/case-list/case-list.ts:189-198 | each badge exactly for its status; the processing badge for Processing and any unknown status |
| CaseList.PriorityClass | frontend/src/app/pages/cases/case-list/case-list.ts:206-208 | `priority-` followed by the priority, so distinct priorities get distinct classes |
| CaseList.RunKeepsPageInRange | frontend/src/app/pages/cases/case-list/case-list.ts:54-176 | from the opening state, any sequence of actions keeps the page size 10 and the current page within `[1, max(1, totalPages)]` |
| AdjudicatorPage.ToggleProcessing | frontend/src/app/pages/ai-adjudicator/ai-adjudicator.ts:91-93 | the processing flag flips and nothing else changes |
| AdjudicatorPage.SkipToSummary | frontend/src/app/pages/ai-adjudicator/ai-adjudicator.ts:95-97 | the stage becomes 4 and nothing else changes |
| AdjudicatorPage.StageStatusOf | frontend/src/app/pages/ai-adjudicator/ai-adjudicator.ts:99-103 | completed exactly below the current stage, in progress exactly at it, pending exactly above it |
| AdjudicatorPage.StageStatusMonotone | frontend/src/app/pages/ai-adjudicator/ai-adjudicator.ts:99-103 | advancing the current stage never moves a stage backwards |
| AdjudicatorPage.SkipCompletesEarlierStages | frontend/src/app/pages/ai-adjudicator/ai-adjudicator.ts:95-103 | after skipping, stages 0-3 are completed and stage 4 is in progress |
| AdjudicatorPage.ReasoningTypeLabel | frontend/src/app/pages/ai-adjudicator/ai-adjudicator.ts:121-129 | the mapped label for the four known types, otherwise the type upper-cased |
| AdjudicatorPage.ReasoningLabelIsCapitals | frontend/src/app/pages/ai-adjudicator/ai-adjudicator.ts:121-129 | every label has no lower-case letter and is unchanged by upper-casing |
| AdjudicatorPage.PrevPage | frontend/src/app/pages/ai-adjudicator/ai-adjudicator.ts:131-135 | back exactly one page when past the first, otherwise no change |
| AdjudicatorPage.NextPage | frontend/src/app/pages/ai-adjudicator/ai-adjudicator.ts:137-141 | forward exactly one page when before the last, otherwise no change |
| AdjudicatorPage.NextThenPrev | frontend/src/app/pages/ai-adjudicator/ai-adjudicator.ts:131-141 | next then previous returns to the same view when there is a next page |
| AdjudicatorPage.ZoomIn | frontend/src/app/pages/ai-adjudicator/ai-adjudicator.ts:143-147 | up 25 below 200, otherwise no change |
| AdjudicatorPage.ZoomOut | frontend/src/app/pages/ai-adjudicator/ai-adjudicator.ts:149-153 | down 25 above 50, otherwise no change |
| AdjudicatorPage.ZoomInThenOut | frontend/src/app/pages/ai-adjudicator/ai-adjudicator.ts:143-153 | zooming in then out restores the view below the maximum |
| AdjudicatorPage.RunKeepsViewerValid | frontend/src/app/pages/ai-adjudicator/ai-adjudicator.ts:87-153 | from page 1 of 12 at 100%, no action sequence leaves the pages or the 25% grid within [50, 200] |
| CaseDetail.ToggleSensitiveData | frontend/src/app/pages/cases/case-detail/case-detail.ts:134-136 | the flag flips and the tab stays |
| CaseDetail.ToggleSensitiveDataTwice | frontend/src/app/pages/cases/case-detail/case-detail.ts:134-136 | toggling twice is no change, once is a change |
| CaseDetail.SetActiveTab | frontend/src/app/pages/cases/case-detail/case-detail.ts:130-132 | the tab changes and the masking flag stays |
| CaseDetail.MaskAsWritten | frontend/src/app/pages/cases/case-detail/case-detail.ts:138-141 | shown values pass through; a masked value fails exactly when shorter than `showFirst`, else has length `showFirst + 3·hidden` |
| CaseDetail.MaskAsWrittenGrows | frontend/src/app/pages/cases/case-detail/case-detail.ts:140 | as written, masking at least one character makes the text longer than the value |
| CaseDetail.MaskAsWrittenExample | frontend/src/app/pages/cases/case-detail/case-detail.ts:138-141 | an 11-character SSN masks to 27 characters |
| CaseDetail.Mask | frontend/src/app/pages/cases/case-detail/case-detail.ts:138-141 | shown values pass through; a masked value fails exactly when shorter than `showFirst`, else keeps its length and prefix with a bullet at every other position |
| CaseDetail.MaskHidesTheRest | frontend/src/app/pages/cases/case-detail/case-detail.ts:138-141 | two values of the same length agreeing on the shown prefix mask identically |
| CaseDetail.StatusClass | frontend/src/app/pages/cases/case-detail/case-detail.ts:147-155 | each badge exactly for its status; the processing badge for Processing and any unknown status |
| CaseDetail.DocStatusClass | frontend/src/app/pages/cases/case-detail/case-detail.ts:166-173 | each class exactly for its document status; the empty class for any other |
| Documents.FilteredDocuments | frontend/src/app/pages/documents/documents.ts:84-97 | every listed document matches the lower-cased query and the category filter |
| Documents.FilteredDocumentsSpec | frontend/src/app/pages/documents/documents.ts:84-97 | an order-preserving subsequence holding exactly the matching documents |
| Documents.EmptySearchListsAll | frontend/src/app/pages/documents/documents.ts:85-95 | an empty query with filter `all` lists every document |
| Documents.FilterIgnoresCase | frontend/src/app/pages/documents/documents.ts:93 | category filters differing only in case select the same documents (neither being `all`) |
| Documents.SearchIgnoresCase | frontend/src/app/pages/documents/documents.ts:85-91 | queries differing only in case find the same documents |
| Documents.UpperAllIsACategory | frontend/src/app/pages/documents/documents.ts:93 | only the literal `all` disables the filter; `ALL` keeps the documents whose category is `all` in some case |
| Header.ToggleUserMenu | frontend/src/app/layout/header/header.ts:54-59 | the user menu flips; opening it closes the notifications; query and count unchanged |
| Header.ToggleNotifications | frontend/src/app/layout/header/header.ts:61-66 | the notifications flip; opening them closes the user menu; query and count unchanged |
| Header.OnSearch | frontend/src/app/layout/header/header.ts:68-71 | only the query changes |
| Header.OpeningClosesTheOther | frontend/src/app/layout/header/header.ts:54-66 | opening either panel leaves the other closed, even from a state with both open |
| Header.RunKeepsOnePanel | frontend/src/app/layout/header/header.ts:28-71 | from both panels closed, no sequence of toggles and searches opens both |
| Sidebar.ToggleCollapse | frontend/src/app/layout/sidebar/sidebar.ts:74-77 | the collapsed flag flips, the emitted value is the new flag, and the menus stay |
| Sidebar.ToggleCollapseTwice | frontend/src/app/layout/sidebar/sidebar.ts:74-77 | collapsing twice restores the sidebar and the two emitted values differ |
| Sidebar.ToggleMenu | frontend/src/app/layout/sidebar/sidebar.ts:79-93 | the menu's expansion flips, every other menu's stays, and the collapsed flag stays |
| Sidebar.ToggleMenuTwice | frontend/src/app/layout/sidebar/sidebar.ts:79-89 | toggling a menu twice restores the sidebar |
| Sidebar.ExpandedIffClickedOddly | frontend/src/app/layout/sidebar/sidebar.ts:79-93 | from the opening sidebar, `isMenuExpanded` holds after any clicks exactly when the menu was clicked an odd number of times, and the sidebar stays uncollapsed |
| Sidebar.ToggleMenuCommutes | frontend/src/app/layout/sidebar/sidebar.ts:79-89 | toggling two menus in either order gives the same sidebar |

## Left out

- Events.ToEvent: a field of the wrong JSON type (a numeric `content`, a numeric `stage`, a string `confidence`) is read as absent. The client instead uses such a value as it is: `${}` appends it, a numeric stage is stored, and `formatToolName` throws on a non-string tool name. The server's typed event model never sends such fields.
- CaseDetail.MaskAsWritten and CaseDetail.Mask count the length of a value in code points. JavaScript's `length` and `substring` count UTF-16 code units, so the two differ on characters outside the Basic Multilingual Plane (an emoji, say).
- The WebSocket endpoint (`adjudicator_api.py:180-265`) and the client's `connectWebSocket` (`adjudicator.service.ts:171-190`): a second transport for the same events; the streaming path is modelled instead.
- The synchronous `/analyze` endpoint and `/health` (`adjudicator_api.py:273-406`): they return summaries the client never reads.
- The agent itself (model, instruction, ADK runner): the run is an input, a sequence of `AgentEvent`s (calls, function responses, final texts). ADK event shapes are flattened to those three lists.
- The prompt text built for the agent, `uuid` session ids, and `Date.now()` in the request body: these are the LLM's input and carry no logic.
- Clock readings: each `datetime.now().isoformat()` is a parameter. The agent tools take it as `now`. Each event of the stream takes its own reading, `clock(i)` for the `i`-th event sent; the 0.05-second pause between reasoning chunks is not modelled, so the readings are arbitrary strings rather than increasing times. `random.randint` is the parameter `randint`, assumed to draw in range.
- `AgentTools.WageAnalysis`: wages are `real`. The `:,.2f` formatting of amounts is the parameter `amount`; only the sign character and the `$` are stated.
- JSON numbers are integers; fractional confidences are not modelled.
- Json.Display: `JNum` is an unbounded integer, while a JavaScript number is a double. Beyond `Number.MAX_SAFE_INTEGER` (2^53 − 1) `JSON.parse` rounds the value, and from 10^21 on `${n}` prints exponent form (`1e+21`). Neither is modelled, so the decimal-digits clause is faithful only for safe integers; the numbers the server sends are scores of at most 100 and the agent's years of experience and wage level.
- Pipeline.ServerRunOutcome: it and `Pipeline.StreamDelivered`, `Pipeline.RunIsReduce` and `Pipeline.DecodeEventTexts` assume that `JSON.parse` inverts the serializer on exactly representable values (`Json.Exact`: safe integers, no object repeating a key), and require the tool results to be such values (`ServerApi.ExactResponses`). A Python dict never repeats a key, so the requirement asks only that tool results hold no integer beyond 2^53 − 1. A run whose tool result holds a larger integer is outside the theorems, because the client would read back a rounded number.
- Lower- and upper-casing convert ASCII letters only. JavaScript's full Unicode case mapping is not modelled.
- Lookups in a JavaScript `Record` return `undefined` for a missing key. Inherited prototype keys such as `constructor` are not modelled.
- The criteria ids disagree between server and client. The server lists H-1B criterion 4 as Prevailing Wage Compliance and 5 as LCA Compliance (`adjudicator_api.py:340-349`). The client's fallback and tool table use 4 for LCA Compliance and 5 for Prevailing Wage (`adjudicator.service.ts:340,402-403`). The model keeps both as written.
- The draft's own legal basis and precedents are not checked against `check_citation_validity`. Not all of them contain a known key.
- `Session.Resume`: continuing the count without restarting it is not modelled. The code restarts the count at zero on `resume`, and the model follows the code.
- `CaseList`: the page size is the constant 10; nothing in the page changes it.
- Icons (`getStageIcon`, `getCriterionIcon`, `getDocStatusIcon`), `copyToClipboard`, `uploadDocument`, routing, breadcrumbs and the mock data arrays: presentation only.

## Findings

| source | as written | input that shows it | evidently intended | confidence | as-written member | corrected member |
|---|---|---|---|---|---|---|
| frontend/src/app/services/adjudicator.service.ts:457-461 | `resume` calls `startTimer` while an interval may still be held. The held handle is overwritten and that interval keeps firing. | `resume()` during a run, then `pause()`: the timer is reported stopped but the count still rises every second | clear the held interval before arming a new one | not executed | Session.ResumeAsWrittenLeaks | Session.ResumeThenPauseFreezes |
| frontend/src/app/pages/cases/case-detail/case-detail.ts:140 | the mask string is the three characters `â€¢`, the UTF-8 bytes of `•` read as Windows-1252 | `maskValue("123-45-6789")` gives 27 characters: `123` then eight copies of `â€¢` | one `•` per hidden character, keeping the value's length | not executed | CaseDetail.MaskAsWrittenExample | CaseDetail.Mask |

=== FILE: adjudicator_page.dfy ===
/**
 * The AI adjudicator page: the processing stage tracker, the labels of the
 * reasoning log, and the document viewer's paging and zoom.
 */
module AdjudicatorPage {
  import opened Text
  import opened Seqs

  datatype View = View(
    processing: bool,
    stage: int,
    page: int,
    totalPages: int,
    zoom: int)

  /** The page opens processing at stage 2, on page 1 of 12, at 100% zoom. */
  const Initial: View := View(true, 2, 1, 12, 100)

  /** `toggleProcessing` */
  function ToggleProcessing(v: View): (r: View)
    ensures r.processing == !v.processing
    ensures r.(processing := v.processing) == v
  {
    v.(processing := !v.processing)
  }

  /** The last stage, the summary. */
  const SummaryStage: int := 4

  /** `skipToSummary` */
  function SkipToSummary(v: View): (r: View)
    ensures r.stage == SummaryStage
    ensures r.(stage := v.stage) == v
  {
    v.(stage := SummaryStage)
  }

  // ---------------------------------------------------------------------------
  // Stages
  // ---------------------------------------------------------------------------

  datatype StageStatus = Completed | InProgress | Pending

  /** `getStageStatus`: stages before the current one are completed, the current one is in progress. */
  function StageStatusOf(stageId: int, current: int): (r: StageStatus)
    ensures r == Completed <==> stageId < current
    ensures r == InProgress <==> stageId == current
    ensures r == Pending <==> stageId > current
  {
    if stageId < current then Completed
    else if stageId == current then InProgress
    else Pending
  }

  /** How far a stage has come: 0 pending, 1 in progress, 2 completed. */
  function Progress(s: StageStatus): nat {
    match s
    case Pending => 0
    case InProgress => 1
    case Completed => 2
  }

  /** Advancing the current stage never moves a stage backwards. */
  lemma StageStatusMonotone(stageId: int, a: int, b: int)
    requires a <= b
    ensures Progress(StageStatusOf(stageId, a)) <= Progress(StageStatusOf(stageId, b))
  {
  }

  /** After skipping to the summary every earlier stage is completed and the summary is in progress. */
  lemma SkipCompletesEarlierStages(v: View, stageId: int)
    requires 0 <= stageId <= SummaryStage
    ensures var r := StageStatusOf(stageId, SkipToSummary(v).stage);
            r == if stageId < SummaryStage then Completed else InProgress
  {
  }

  // ---------------------------------------------------------------------------
  // Reasoning labels
  // ---------------------------------------------------------------------------

  /** No ASCII lower-case letter occurs. */
  predicate NoLowerCase(s: string) {
    forall i :: 0 <= i < |s| ==> !('a' <= s[i] <= 'z')
  }

  /** `getReasoningTypeLabel`: the label of a known type, otherwise the type upper-cased. */
  function ReasoningTypeLabel(reasoningType: string): (r: string)
    ensures reasoningType == "evaluating" ==> r == "EVALUATING"
    ensures reasoningType == "evidence" ==> r == "EVIDENCE FOUND"
    ensures reasoningType == "policy" ==> r == "POLICY REFERENCE"
    ensures reasoningType == "assessment" ==> r == "ASSESSMENT"
    ensures reasoningType !in ["evaluating", "evidence", "policy", "assessment"] ==> r == Upper(reasoningType)
  {
    if reasoningType == "evaluating" then "EVALUATING"
    else if reasoningType == "evidence" then "EVIDENCE FOUND"
    else if reasoningType == "policy" then "POLICY REFERENCE"
    else if reasoningType == "assessment" then "ASSESSMENT"
    else Upper(reasoningType)
  }

  /** Upper-casing leaves no lower-case letter. */
  lemma UpperHasNoLowerCase(s: string)
    ensures NoLowerCase(Upper(s))
  {
    forall i | 0 <= i < |s|
      ensures !('a' <= Upper(s)[i] <= 'z')
    {
      assert Upper(s)[i] == UpperChar(s[i]);
    }
  }

  /** Every reasoning label is shown in capitals, whatever the type. */
  lemma ReasoningLabelIsCapitals(reasoningType: string)
    ensures NoLowerCase(ReasoningTypeLabel(reasoningType))
    ensures Upper(ReasoningTypeLabel(reasoningType)) == ReasoningTypeLabel(reasoningType)
  {
    var r := ReasoningTypeLabel(reasoningType);
    if reasoningType in ["evaluating", "evidence", "policy", "assessment"] {
      assert r in ["EVALUATING", "EVIDENCE FOUND", "POLICY REFERENCE", "ASSESSMENT"];
      assert Upper(r) == r;
    } else {
      UpperHasNoLowerCase(reasoningType);
      UpperIdempotent(reasoningType);
    }
  }

  // ---------------------------------------------------------------------------
  // The document viewer
  // ---------------------------------------------------------------------------

  const MinZoom: int := 50
  const MaxZoom: int := 200
  const ZoomStep: int := 25

  /** `prevPage`: back one page unless on the first. */
  function PrevPage(v: View): (r: View)
    ensures v.page > 1 ==> r == v.(page := v.page - 1)
    ensures v.page <= 1 ==> r == v
  {
    if v.page > 1 then v.(page := v.page - 1) else v
  }

  /** `nextPage`: forward one page unless on the last. */
  function NextPage(v: View): (r: View)
    ensures v.page < v.totalPages ==> r == v.(page := v.page + 1)
    ensures v.page >= v.totalPages ==> r == v
  {
    if v.page < v.totalPages then v.(page := v.page + 1) else v
  }

  /** `zoomIn`: up one step while below the maximum. */
  function ZoomIn(v: View): (r: View)
    ensures v.zoom < MaxZoom ==> r == v.(zoom := v.zoom + ZoomStep)
    ensures v.zoom >= MaxZoom ==> r == v
  {
    if v.zoom < MaxZoom then v.(zoom := v.zoom + ZoomStep) else v
  }

  /** `zoomOut`: down one step while above the minimum. */
  function ZoomOut(v: View): (r: View)
    ensures v.zoom > MinZoom ==> r == v.(zoom := v.zoom - ZoomStep)
    ensures v.zoom <= MinZoom ==> r == v
  {
    if v.zoom > MinZoom then v.(zoom := v.zoom - ZoomStep) else v
  }

  /** Moving forward then back returns to the same page, when there is a next page. */
  lemma NextThenPrev(v: View)
    requires 1 <= v.page < v.totalPages
    ensures PrevPage(NextPage(v)) == v
  {
  }

  /** Zooming in then out restores the zoom, when it was below the maximum. */
  lemma ZoomInThenOut(v: View)
    requires MinZoom <= v.zoom < MaxZoom
    ensures ZoomOut(ZoomIn(v)) == v
  {
  }

  /** The viewer shows a page within the document and a zoom on the 25% grid between 50% and 200%. */
  predicate ViewerValid(v: View) {
    && 1 <= v.page <= v.totalPages
    && MinZoom <= v.zoom <= MaxZoom
    && v.zoom % ZoomStep == 0
  }

  datatype Action = Toggle | Skip | Prev | Next | In | Out

  function Apply(v: View, a: Action): View {
    match a
    case Toggle => ToggleProcessing(v)
    case Skip => SkipToSummary(v)
    case Prev => PrevPage(v)
    case Next => NextPage(v)
    case In => ZoomIn(v)
    case Out => ZoomOut(v)
  }

  /** Every action keeps the viewer valid and the page count fixed. */
  lemma ApplyKeepsViewerValid(v: View, a: Action)
    requires ViewerValid(v)
    ensures ViewerValid(Apply(v, a)) && Apply(v, a).totalPages == v.totalPages
  {
  }

  /** The view after a sequence of actions from the opening view. */
  function Run(actions: seq<Action>): View {
    if |actions| == 0 then Initial else Apply(Run(Init(actions)), Last(actions))
  }

  /** From the opening view, no sequence of actions leaves the 12 pages or the zoom grid. */
  lemma {:induction false} RunKeepsViewerValid(actions: seq<Action>)
    ensures ViewerValid(Run(actions)) && Run(actions).totalPages == 12
  {
    if |actions| > 0 {
      RunKeepsViewerValid(Init(actions));
      ApplyKeepsViewerValid(Run(Init(actions)), Last(actions));
    }
  }
}

=== FILE: agent_tools.dfy ===
/**
 * The deterministic decision rules of the agent's tools: the petition-form
 * completeness score, the beneficiary's degree equivalency, the LCA wage
 * test, the draft decision's confidence and review flag, and the citation
 * check. Each tool returns the JSON object the client later receives as a
 * `tool_result`, so the client's reading of it can be stated here too.
 */
module AgentTools {
  import opened Wrappers
  import opened Text
  import opened Json
  import opened Reducer

  /** The specialty-occupation determination. */
  const SpecialtyVerdict: string := "SPECIALTY OCCUPATION CONFIRMED"

  /** The policy reference of the specialty-occupation evaluation. */
  const SpecialtyPolicy: string := "USCIS Policy Manual Vol. 2, Part H, Chapter 2"

  /** The employer-employee determination. */
  const RelationshipVerdict: string := "VALID EMPLOYER-EMPLOYEE RELATIONSHIP"

  /** The legal standard of the employer-employee analysis. */
  const RelationshipStandard: string := "Matter of Defensor, 25 I&N Dec. 749 (AAO 2012)"

  /** The closing note of the qualification check. */
  const QualificationNotes: string := "Beneficiary meets or exceeds minimum requirements for H-1B classification"

  /** The relevance of the experience. */
  const ExperienceRelevance: string := "Directly related to specialty occupation"

  /** The relevance of the certifications. */
  const CertificationRelevance: string := "Supports specialized knowledge claim"

  /** The risk factor listed when none is given. */
  const NoRiskFactors: string := "No significant risk factors identified"

  /** The source named for a recognized citation. */
  const KnownSource: string := "USCIS Policy Manual / AAO Decisions Database"

  /** A list of strings as a JSON array. */
  function Strs(xs: seq<string>): (r: Json)
    ensures r.JArr? && |r.items| == |xs|
    ensures forall i :: 0 <= i < |xs| ==> r.items[i] == JStr(xs[i])
  {
    JArr(seq(|xs|, i requires 0 <= i < |xs| => JStr(xs[i])))
  }

  /** The client's summary line for a known tool is that tool's own line, and the tool reports on a criterion. */
  lemma SummaryOfTool(k: KnownTool, r: Json)
    ensures FormatToolResult(ToolName(k), r) == Summary(k, r)
    ensures CriterionFor(ToolName(k)).Some?
  {
    ToolNameRoundTrip(k);
  }

  /** The line `<title><verdict> (<score>% confidence)`. */
  function VerdictLine(title: string, verdict: string, score: int): string {
    title + verdict + " (" + IntToString(score) + "% confidence)"
  }

  /** A non-zero `confidence_score` is the score the client records; a zero one would fall through to `confidence`. */
  lemma ScoreRecorded(r: Json, score: int)
    requires Get(r, "confidence_score") == Some(JNum(score)) && score != 0
    ensures ScoreOf(Some(r)) == Some(JNum(score))
  {
  }

  // ---------------------------------------------------------------------------
  // analyze_petition_form
  // ---------------------------------------------------------------------------

  /** `random.randint(a, b)` draws a value in `[a, b]`. */
  ghost predicate DrawsInRange(randint: (int, int) -> int) {
    forall a, b :: a <= b ==> a <= randint(a, b) <= b
  }

  function Finding(field: string, notes: string): Json {
    JObj([Field("field", JStr(field)), Field("status", JStr("complete")), Field("notes", JStr(notes))])
  }

  /** The four per-section findings; only the job classification note depends on the input. */
  function FormFindings(formType: string): (r: Json)
    ensures r.JArr? && |r.items| == 4
    ensures Get(r.items[2], "notes") == Some(JStr("SOC Code verified for " + formType))
  {
    var job := Finding("Job Classification", "SOC Code verified for " + formType);
    LookupAt(job.fields, 2, "notes");
    JArr([
      Finding("Petitioner Information", "All required fields present"),
      Finding("Beneficiary Information", "Valid passport and biographical data"),
      job,
      Finding("Wage Information", "Meets prevailing wage requirements")])
  }

  /**
   * `analyze_petition_form`: the form is always found valid, with a
   * completeness score drawn from `[85, 100]`; `randint` is the random source
   * and `now` the clock reading.
   */
  function AnalyzePetitionForm(caseNumber: string, formType: string, petitioner: string, beneficiary: string,
                               randint: (int, int) -> int, now: string): (r: Json)
    requires DrawsInRange(randint)
    ensures r.JObj? && |r.fields| == 6
    ensures r.fields[0] == Field("case_number", JStr(caseNumber))
    ensures r.fields[1] == Field("form_type", JStr(formType))
    ensures r.fields[2] == Field("validation_status", JStr("VALID"))
    ensures r.fields[3].key == "completeness_score" && r.fields[3].value.JNum?
    ensures 85 <= r.fields[3].value.n <= 100
    ensures r.fields[4] == Field("findings", FormFindings(formType))
    ensures r.fields[5] == Field("timestamp", JStr(now))
  {
    JObj([
      Field("case_number", JStr(caseNumber)),
      Field("form_type", JStr(formType)),
      Field("validation_status", JStr("VALID")),
      Field("completeness_score", JNum(randint(85, 100))),
      Field("findings", FormFindings(formType)),
      Field("timestamp", JStr(now))])
  }

  /**
   * The client summarizes the form analysis as `Form validation: VALID (n% complete)`
   * with the drawn score `n`.
   */
  lemma PetitionFormAsClientSees(caseNumber: string, formType: string, petitioner: string, beneficiary: string,
                                 randint: (int, int) -> int, now: string)
    requires DrawsInRange(randint)
    ensures var r := AnalyzePetitionForm(caseNumber, formType, petitioner, beneficiary, randint, now);
            var n := randint(85, 100);
            && 85 <= n <= 100
            && FormatToolResult("analyze_petition_form", r)
               == "Form validation: VALID (" + IntToString(n) + "% complete)"
  {
    var r := AnalyzePetitionForm(caseNumber, formType, petitioner, beneficiary, randint, now);
    LookupAt(r.fields, 2, "validation_status");
    LookupAt(r.fields, 3, "completeness_score");
    FormLine(r, randint(85, 100));
  }

  /** The form analysis has neither `confidence_score` nor `confidence`, so criterion '1' gets no score from it. */
  lemma PetitionFormUnscored(caseNumber: string, formType: string, petitioner: string, beneficiary: string,
                             randint: (int, int) -> int, now: string)
    requires DrawsInRange(randint)
    ensures ScoreOf(Some(AnalyzePetitionForm(caseNumber, formType, petitioner, beneficiary, randint, now))).None?
  {
    var r := AnalyzePetitionForm(caseNumber, formType, petitioner, beneficiary, randint, now);
    assert Get(r, "confidence_score").None? && Get(r, "confidence").None?;
  }

  /** A form analysis is shown by its validation status and completeness score. */
  lemma FormLine(r: Json, n: int)
    requires Get(r, "validation_status") == Some(JStr("VALID")) && Get(r, "completeness_score") == Some(JNum(n))
    ensures FormatToolResult("analyze_petition_form", r) == "Form validation: VALID (" + IntToString(n) + "% complete)"
  {
    SummaryOfTool(PetitionForm, r);
  }

  // ---------------------------------------------------------------------------
  // evaluate_specialty_occupation
  // ---------------------------------------------------------------------------

  function Factor(confidence: int, reasoning: string): Json {
    JObj([Field("met", JBool(true)), Field("confidence", JNum(confidence)), Field("reasoning", JStr(reasoning))])
  }

  /** The reasoning behind each of the four specialty-occupation factors. */
  const SpecialtyReasons: seq<string> := [
    "Position requires application of specialized knowledge in software engineering",
    "Industry standard requires minimum bachelor's degree in Computer Science or related field",
    "Employer's job posting and past hiring patterns confirm degree requirement",
    "Duties are sufficiently complex and specialized to require degree-level knowledge"]

  /** The four specialty-occupation factors, each met. */
  function SpecialtyFactors(reasons: seq<string>): Json
    requires |reasons| == 4
  {
    JObj([
      Field("theoretical_practical_application", Factor(92, reasons[0])),
      Field("degree_requirement_common", Factor(88, reasons[1])),
      Field("employer_normally_requires", Factor(95, reasons[2])),
      Field("nature_of_duties", Factor(90, reasons[3]))])
  }

  /** `evaluate_specialty_occupation`: a fixed determination whatever the position. */
  function EvaluateSpecialtyOccupation(jobTitle: string, jobDuties: string, degreeRequirement: string,
                                       socCode: string): (r: Json)
    ensures r.JObj? && |r.fields| == 6
    ensures r.fields[3] == Field("overall_determination", JStr(SpecialtyVerdict))
    ensures r.fields[4] == Field("confidence_score", JNum(91))
    ensures r.fields[5] == Field("policy_reference", JStr(SpecialtyPolicy))
  {
    JObj([
      Field("job_title", JStr(jobTitle)),
      Field("soc_code", JStr(socCode)),
      Field("evaluation", SpecialtyFactors(SpecialtyReasons)),
      Field("overall_determination", JStr(SpecialtyVerdict)),
      Field("confidence_score", JNum(91)),
      Field("policy_reference", JStr(SpecialtyPolicy))])
  }

  /**
   * The client shows `Specialty occupation: SPECIALTY OCCUPATION CONFIRMED (91% confidence)`
   * and records 91 on criterion '1'.
   */
  lemma SpecialtyAsClientSees(jobTitle: string, jobDuties: string, degreeRequirement: string, socCode: string)
    ensures var r := EvaluateSpecialtyOccupation(jobTitle, jobDuties, degreeRequirement, socCode);
            && FormatToolResult("evaluate_specialty_occupation", r)
               == VerdictLine("Specialty occupation: ", SpecialtyVerdict, 91)
            && ScoreOf(Some(r)) == Some(JNum(91))
  {
    var r := EvaluateSpecialtyOccupation(jobTitle, jobDuties, degreeRequirement, socCode);
    LookupAt(r.fields, 3, "overall_determination");
    LookupAt(r.fields, 4, "confidence_score");
    SpecialtyLine(r);
    ScoreRecorded(r, 91);
  }

  lemma SpecialtyLine(r: Json)
    requires Get(r, "overall_determination") == Some(JStr(SpecialtyVerdict))
    requires Get(r, "confidence_score") == Some(JNum(91))
    ensures FormatToolResult("evaluate_specialty_occupation", r)
            == VerdictLine("Specialty occupation: ", SpecialtyVerdict, 91)
  {
    SummaryOfTool(SpecialtyOccupation, r);
  }

  /** The result carries a policy reference and a determination, so the client adds a policy and an assessment step. */
  lemma SpecialtyReferences(jobTitle: string, jobDuties: string, degreeRequirement: string, socCode: string)
    ensures var r := EvaluateSpecialtyOccupation(jobTitle, jobDuties, degreeRequirement, socCode);
            && PolicyOf(r) == Some(JStr(SpecialtyPolicy))
            && DeterminationOf(r) == Some(JStr(SpecialtyVerdict))
  {
    var r := EvaluateSpecialtyOccupation(jobTitle, jobDuties, degreeRequirement, socCode);
    LookupAt(r.fields, 3, "overall_determination");
    LookupAt(r.fields, 5, "policy_reference");
  }

  // ---------------------------------------------------------------------------
  // check_beneficiary_qualifications
  // ---------------------------------------------------------------------------

  /** The three spellings of a bachelor's degree the tool recognizes. */
  const BachelorSpellings: seq<string> := ["Bachelor's", "B.S.", "B.A."]

  /** The `us_equivalency` of a degree: a bachelor's for the three spellings, a master's for anything else. */
  function UsEquivalency(degreeType: string): (r: string)
    ensures r == "Bachelor's Degree" || r == "Master's Degree"
    ensures r == "Bachelor's Degree" <==> degreeType in BachelorSpellings
  {
    if degreeType in BachelorSpellings then "Bachelor's Degree" else "Master's Degree"
  }

  /** A PhD, or any spelling other than the three, counts as a master's. */
  lemma UsEquivalencyExamples()
    ensures UsEquivalency("B.S.") == "Bachelor's Degree"
    ensures UsEquivalency("PhD") == "Master's Degree"
    ensures UsEquivalency("Bachelors") == "Master's Degree"
  {
    assert "PhD" != BachelorSpellings[0] && "PhD" != BachelorSpellings[1] && "PhD" != BachelorSpellings[2];
    assert "Bachelors"[8] != BachelorSpellings[0][8];
  }

  function DegreeEvaluation(degreeType: string, degreeField: string): (r: Json)
    ensures Get(r, "us_equivalency") == Some(JStr(UsEquivalency(degreeType)))
  {
    var fields := [
      Field("type", JStr(degreeType)),
      Field("field", JStr(degreeField)),
      Field("us_equivalency", JStr(UsEquivalency(degreeType))),
      Field("status", JStr("VERIFIED"))];
    LookupAt(fields, 2, "us_equivalency");
    JObj(fields)
  }

  function CertificationsEvaluation(certifications: seq<string>): (r: Json)
    ensures Get(r, "provided") == Some(Strs(certifications))
  {
    var fields := [
      Field("provided", Strs(certifications)),
      Field("relevance", JStr(CertificationRelevance)),
      Field("status", JStr("VERIFIED"))];
    LookupAt(fields, 0, "provided");
    JObj(fields)
  }

  /** `check_beneficiary_qualifications`: only the degree equivalency depends on the input; the verdict is fixed. */
  function CheckBeneficiaryQualifications(degreeType: string, degreeField: string, yearsExperience: int,
                                          certifications: seq<string>): (r: Json)
    ensures r.JObj? && |r.fields| == 6
    ensures r.fields[0].key == "degree_evaluation"
            && Get(r.fields[0].value, "us_equivalency") == Some(JStr(UsEquivalency(degreeType)))
    ensures r.fields[2].key == "certifications"
            && Get(r.fields[2].value, "provided") == Some(Strs(certifications))
    ensures r.fields[3] == Field("overall_qualification", JStr("QUALIFIED"))
    ensures r.fields[4] == Field("confidence_score", JNum(94))
  {
    JObj([
      Field("degree_evaluation", DegreeEvaluation(degreeType, degreeField)),
      Field("experience_evaluation", JObj([
        Field("years", JNum(yearsExperience)),
        Field("relevance", JStr(ExperienceRelevance)),
        Field("status", JStr("SUFFICIENT"))])),
      Field("certifications", CertificationsEvaluation(certifications)),
      Field("overall_qualification", JStr("QUALIFIED")),
      Field("confidence_score", JNum(94)),
      Field("notes", JStr(QualificationNotes))])
  }

  /** The verdict and the score as the client looks them up. */
  lemma QualificationsLookups(degreeType: string, degreeField: string, yearsExperience: int,
                              certifications: seq<string>)
    ensures var r := CheckBeneficiaryQualifications(degreeType, degreeField, yearsExperience, certifications);
            Get(r, "overall_qualification") == Some(JStr("QUALIFIED")) && Get(r, "confidence_score") == Some(JNum(94))
  {
    var r := CheckBeneficiaryQualifications(degreeType, degreeField, yearsExperience, certifications);
    LookupAt(r.fields, 3, "overall_qualification");
    LookupAt(r.fields, 4, "confidence_score");
  }

  lemma QualificationsLine(r: Json)
    requires Get(r, "overall_qualification") == Some(JStr("QUALIFIED")) && Get(r, "confidence_score") == Some(JNum(94))
    ensures FormatToolResult("check_beneficiary_qualifications", r)
            == VerdictLine("Beneficiary qualifications: ", "QUALIFIED", 94)
  {
    SummaryOfTool(BeneficiaryQualifications, r);
  }

  /** The client shows `Beneficiary qualifications: QUALIFIED (94% confidence)` and records 94 on criterion '2'. */
  lemma QualificationsAsClientSees(degreeType: string, degreeField: string, yearsExperience: int,
                                   certifications: seq<string>)
    ensures var r := CheckBeneficiaryQualifications(degreeType, degreeField, yearsExperience, certifications);
            && FormatToolResult("check_beneficiary_qualifications", r)
               == VerdictLine("Beneficiary qualifications: ", "QUALIFIED", 94)
            && ScoreOf(Some(r)) == Some(JNum(94))
  {
    var r := CheckBeneficiaryQualifications(degreeType, degreeField, yearsExperience, certifications);
    QualificationsLookups(degreeType, degreeField, yearsExperience, certifications);
    QualificationsLine(r);
    ScoreRecorded(r, 94);
  }

  // ---------------------------------------------------------------------------
  // verify_employer_employee_relationship
  // ---------------------------------------------------------------------------

  function Evidence(factor: string, evidence: string, status: string, confidence: int): Json {
    JObj([Field("factor", JStr(factor)), Field("evidence", JStr(evidence)),
          Field("status", JStr(status)), Field("confidence", JNum(confidence))])
  }

  /** The three relationship factors, each established or verified. */
  function RelationshipFactors(workLocation: string, supervision: string, rightToControl: string): Json {
    JObj([
      Field("right_to_control",
            Evidence("Employer controls manner and means of work", rightToControl, "ESTABLISHED", 93)),
      Field("supervision",
            Evidence("Direct supervision by employer personnel", supervision, "ESTABLISHED", 91)),
      Field("work_location",
            Evidence("Work performed at employer premises", "Primary location: " + workLocation, "VERIFIED", 95))])
  }

  /** `verify_employer_employee_relationship`: a fixed determination; the inputs are only echoed. */
  function VerifyEmployerEmployeeRelationship(employer: string, workLocation: string, supervision: string,
                                              rightToControl: string): (r: Json)
    ensures r.JObj? && |r.fields| == 6
    ensures r.fields[3] == Field("determination", JStr(RelationshipVerdict))
    ensures r.fields[4] == Field("confidence_score", JNum(93))
    ensures r.fields[5] == Field("legal_standard", JStr(RelationshipStandard))
  {
    JObj([
      Field("employer", JStr(employer)),
      Field("work_site", JStr(workLocation)),
      Field("analysis", RelationshipFactors(workLocation, supervision, rightToControl)),
      Field("determination", JStr(RelationshipVerdict)),
      Field("confidence_score", JNum(93)),
      Field("legal_standard", JStr(RelationshipStandard))])
  }

  /**
   * The client shows `Employer-employee relationship: VALID EMPLOYER-EMPLOYEE RELATIONSHIP (93% confidence)`
   * and records 93 on criterion '3'.
   */
  lemma EmployerAsClientSees(employer: string, workLocation: string, supervision: string, rightToControl: string)
    ensures var r := VerifyEmployerEmployeeRelationship(employer, workLocation, supervision, rightToControl);
            && FormatToolResult("verify_employer_employee_relationship", r)
               == VerdictLine("Employer-employee relationship: ", RelationshipVerdict, 93)
            && ScoreOf(Some(r)) == Some(JNum(93))
  {
    var r := VerifyEmployerEmployeeRelationship(employer, workLocation, supervision, rightToControl);
    LookupAt(r.fields, 3, "determination");
    LookupAt(r.fields, 4, "confidence_score");
    EmployerLine(r);
    ScoreRecorded(r, 93);
  }

  lemma EmployerLine(r: Json)
    requires Get(r, "determination") == Some(JStr(RelationshipVerdict)) && Get(r, "confidence_score") == Some(JNum(93))
    ensures FormatToolResult("verify_employer_employee_relationship", r)
            == VerdictLine("Employer-employee relationship: ", RelationshipVerdict, 93)
  {
    SummaryOfTool(EmployerEmployee, r);
  }

  /** With no `policy_reference`, the client takes the legal standard as the policy reference. */
  lemma EmployerPolicy(employer: string, workLocation: string, supervision: string, rightToControl: string)
    ensures PolicyOf(VerifyEmployerEmployeeRelationship(employer, workLocation, supervision, rightToControl))
            == Some(JStr(RelationshipStandard))
  {
    var r := VerifyEmployerEmployeeRelationship(employer, workLocation, supervision, rightToControl);
    LookupAt(r.fields, 5, "legal_standard");
    assert Get(r, "policy_reference").None?;
  }

  // ---------------------------------------------------------------------------
  // check_lca_compliance
  // ---------------------------------------------------------------------------

  /**
   * The wage analysis: compliant exactly when the offered wage reaches the
   * prevailing one, and the margin is `+$…` then and `-$…` otherwise.
   * `amount` renders a money amount (`:,.2f`).
   */
  function WageAnalysis(wageLevel: int, prevailingWage: real, offeredWage: real, amount: real -> string): (r: Json)
    ensures Get(r, "compliant") == Some(JBool(offeredWage >= prevailingWage))
    ensures var m := Display(Get(r, "margin"));
            |m| >= 2 && m[1] == '$' && (m[0] == '+' <==> offeredWage >= prevailingWage)
            && (m[0] == '-' <==> offeredWage < prevailingWage)
  {
    var compliant := offeredWage >= prevailingWage;
    var margin := if compliant then "+$" + amount(offeredWage - prevailingWage)
                  else "-$" + amount(prevailingWage - offeredWage);
    var fields := [
      Field("wage_level", JNum(wageLevel)),
      Field("prevailing_wage", JStr("$" + amount(prevailingWage))),
      Field("offered_wage", JStr("$" + amount(offeredWage))),
      Field("compliant", JBool(compliant)),
      Field("margin", JStr(margin))];
    LookupAt(fields, 3, "compliant");
    LookupAt(fields, 4, "margin");
    JObj(fields)
  }

  /** The four attestations: only the wage attestation can fail. */
  function Attestations(compliant: bool): (r: Json)
    ensures Get(r, "wages") == Some(JStr(if compliant then "COMPLIANT" else "NON-COMPLIANT"))
    ensures r.JObj? && forall i :: 1 <= i < |r.fields| ==> r.fields[i].value == JStr("COMPLIANT")
  {
    var fields := [
      Field("wages", JStr(if compliant then "COMPLIANT" else "NON-COMPLIANT")),
      Field("working_conditions", JStr("COMPLIANT")),
      Field("no_strike_lockout", JStr("COMPLIANT")),
      Field("notice_requirements", JStr("COMPLIANT"))];
    LookupAt(fields, 0, "wages");
    JObj(fields)
  }

  function LcaStatus(compliant: bool): string {
    if compliant then "LCA COMPLIANT" else "LCA NON-COMPLIANT"
  }

  /** `check_lca_compliance`: the wage test decides every verdict. */
  function CheckLcaCompliance(lcaNumber: string, wageLevel: int, prevailingWage: real, offeredWage: real,
                              amount: real -> string): (r: Json)
    ensures r.JObj? && |r.fields| == 5
    ensures r.fields[1].key == "wage_analysis"
            && Get(r.fields[1].value, "compliant") == Some(JBool(offeredWage >= prevailingWage))
    ensures r.fields[2].key == "attestations"
            && Get(r.fields[2].value, "wages")
               == Some(JStr(if offeredWage >= prevailingWage then "COMPLIANT" else "NON-COMPLIANT"))
    ensures r.fields[3] == Field("overall_status", JStr(LcaStatus(offeredWage >= prevailingWage)))
    ensures r.fields[4] == Field("confidence_score", JNum(if offeredWage >= prevailingWage then 97 else 45))
  {
    var compliant := offeredWage >= prevailingWage;
    JObj([
      Field("lca_number", JStr(lcaNumber)),
      Field("wage_analysis", WageAnalysis(wageLevel, prevailingWage, offeredWage, amount)),
      Field("attestations", Attestations(compliant)),
      Field("overall_status", JStr(LcaStatus(compliant))),
      Field("confidence_score", JNum(if compliant then 97 else 45))])
  }

  /** The verdict fields as the client looks them up: status and score follow the wage test. */
  lemma LcaLookups(lcaNumber: string, wageLevel: int, prevailingWage: real, offeredWage: real,
                   amount: real -> string)
    ensures var r := CheckLcaCompliance(lcaNumber, wageLevel, prevailingWage, offeredWage, amount);
            var ok := offeredWage >= prevailingWage;
            && Get(r, "overall_status") == Some(JStr(LcaStatus(ok)))
            && Get(r, "confidence_score") == Some(JNum(if ok then 97 else 45))
  {
    var r := CheckLcaCompliance(lcaNumber, wageLevel, prevailingWage, offeredWage, amount);
    LookupAt(r.fields, 3, "overall_status");
    LookupAt(r.fields, 4, "confidence_score");
  }

  /** The verdict fields agree: the status and the score say compliant exactly when the wage analysis does. */
  lemma LcaVerdictsAgree(lcaNumber: string, wageLevel: int, prevailingWage: real, offeredWage: real,
                         amount: real -> string)
    ensures var r := CheckLcaCompliance(lcaNumber, wageLevel, prevailingWage, offeredWage, amount);
            var compliant := Get(r.fields[1].value, "compliant") == Some(JBool(true));
            && (Get(r, "overall_status") == Some(JStr("LCA COMPLIANT")) <==> compliant)
            && (Get(r, "confidence_score") == Some(JNum(97)) <==> compliant)
            && (Get(r, "confidence_score") == Some(JNum(45)) <==> !compliant)
  {
    LcaLookups(lcaNumber, wageLevel, prevailingWage, offeredWage, amount);
  }

  lemma LcaLine(r: Json, status: string, score: int)
    requires Get(r, "overall_status") == Some(JStr(status)) && Get(r, "confidence_score") == Some(JNum(score))
    ensures FormatToolResult("check_lca_compliance", r) == VerdictLine("LCA compliance: ", status, score)
  {
    SummaryOfTool(LcaCompliance, r);
  }

  /**
   * The client shows `LCA compliance: LCA COMPLIANT (97% confidence)` or
   * `LCA compliance: LCA NON-COMPLIANT (45% confidence)`, and records that
   * score on criterion '4'.
   */
  lemma LcaAsClientSees(lcaNumber: string, wageLevel: int, prevailingWage: real, offeredWage: real,
                        amount: real -> string)
    ensures var r := CheckLcaCompliance(lcaNumber, wageLevel, prevailingWage, offeredWage, amount);
            var ok := offeredWage >= prevailingWage;
            && FormatToolResult("check_lca_compliance", r)
               == VerdictLine("LCA compliance: ", LcaStatus(ok), if ok then 97 else 45)
            && ScoreOf(Some(r)) == Some(JNum(if ok then 97 else 45))
  {
    var r := CheckLcaCompliance(lcaNumber, wageLevel, prevailingWage, offeredWage, amount);
    var ok := offeredWage >= prevailingWage;
    LcaLookups(lcaNumber, wageLevel, prevailingWage, offeredWage, amount);
    var score := if ok then 97 else 45;
    LcaLine(r, LcaStatus(ok), score);
    ScoreRecorded(r, score);
  }

  // ---------------------------------------------------------------------------
  // generate_adjudication_draft
  // ---------------------------------------------------------------------------

  /** The risk factors the draft lists: the given ones, or the one-item default when none are given. */
  function RiskFactors(given: seq<string>): (r: seq<string>)
    ensures |r| > 0
    ensures |given| > 0 ==> r == given
    ensures |given| == 0 ==> r == [NoRiskFactors]
  {
    if |given| > 0 then given else [NoRiskFactors]
  }

  const LegalBasis: seq<string> :=
    ["INA \U{00A7} 101(a)(15)(H)(i)(b)", "8 CFR \U{00A7} 214.2(h)", "USCIS Policy Manual Vol. 2, Part H"]

  const Precedents: seq<string> := [
    "Matter of Simeio Solutions, LLC, 26 I&N Dec. 542 (AAO 2015)",
    "Defensor v. Meissner, 201 F.3d 384 (5th Cir. 2000)"]

  function DraftSummary(visaType: string, recommendation: string): (r: string)
    ensures |r| > 0
  {
    "Based on the totality of evidence submitted, the petition for " + visaType
    + " classification is recommended for " + recommendation + "."
  }

  /** The body of the draft decision: the summary first, the risk factors never empty. */
  function DraftDecision(visaType: string, recommendation: string, keyFindings: seq<string>,
                         riskFactors: seq<string>): (r: Json)
    ensures Get(r, "summary") == Some(JStr(DraftSummary(visaType, recommendation)))
    ensures Get(r, "risk_factors") == Some(Strs(RiskFactors(riskFactors)))
  {
    var fields := [
      Field("summary", JStr(DraftSummary(visaType, recommendation))),
      Field("key_findings", Strs(keyFindings)),
      Field("risk_factors", Strs(RiskFactors(riskFactors))),
      Field("legal_basis", Strs(LegalBasis)),
      Field("precedent_decisions", Strs(Precedents))];
    LookupAt(fields, 0, "summary");
    LookupAt(fields, 2, "risk_factors");
    JObj(fields)
  }

  /**
   * `generate_adjudication_draft`: only an approval is confident (89) and
   * free of human review; `now` is the clock reading.
   */
  function GenerateAdjudicationDraft(caseNumber: string, visaType: string, recommendation: string,
                                     keyFindings: seq<string>, riskFactors: seq<string>, now: string): (r: Json)
    ensures r.JObj? && |r.fields| == 7
    ensures r.fields[3].key == "draft_decision"
            && Get(r.fields[3].value, "summary") == Some(JStr(DraftSummary(visaType, recommendation)))
            && Get(r.fields[3].value, "risk_factors") == Some(Strs(RiskFactors(riskFactors)))
    ensures r.fields[4] == Field("confidence_score", JNum(if recommendation == "APPROVE" then 89 else 75))
    ensures r.fields[5] == Field("requires_human_review", JBool(recommendation != "APPROVE"))
  {
    JObj([
      Field("case_number", JStr(caseNumber)),
      Field("visa_classification", JStr(visaType)),
      Field("recommendation", JStr(recommendation)),
      Field("draft_decision", DraftDecision(visaType, recommendation, keyFindings, riskFactors)),
      Field("confidence_score", JNum(if recommendation == "APPROVE" then 89 else 75)),
      Field("requires_human_review", JBool(recommendation != "APPROVE")),
      Field("generated_at", JStr(now))])
  }

  /** A draft asks for human review exactly when its confidence is 75, and is at 89 exactly when it approves. */
  lemma DraftReviewIffLowConfidence(caseNumber: string, visaType: string, recommendation: string,
                                    keyFindings: seq<string>, riskFactors: seq<string>, now: string)
    ensures var r := GenerateAdjudicationDraft(caseNumber, visaType, recommendation, keyFindings, riskFactors, now);
            && (Get(r, "requires_human_review") == Some(JBool(true)) <==> Get(r, "confidence_score") == Some(JNum(75)))
            && (Get(r, "confidence_score") == Some(JNum(89)) <==> recommendation == "APPROVE")
  {
    var r := GenerateAdjudicationDraft(caseNumber, visaType, recommendation, keyFindings, riskFactors, now);
    LookupAt(r.fields, 4, "confidence_score");
    LookupAt(r.fields, 5, "requires_human_review");
  }

  /**
   * The client shows `Draft recommendation: ` followed by the draft's summary
   * sentence, and records its score on criterion '6'.
   */
  lemma DraftAsClientSees(caseNumber: string, visaType: string, recommendation: string,
                          keyFindings: seq<string>, riskFactors: seq<string>, now: string)
    ensures var r := GenerateAdjudicationDraft(caseNumber, visaType, recommendation, keyFindings, riskFactors, now);
            && FormatToolResult("generate_adjudication_draft", r)
               == "Draft recommendation: " + DraftSummary(visaType, recommendation)
            && ScoreOf(Some(r)) == Some(JNum(if recommendation == "APPROVE" then 89 else 75))
  {
    var r := GenerateAdjudicationDraft(caseNumber, visaType, recommendation, keyFindings, riskFactors, now);
    DraftLookups(caseNumber, visaType, recommendation, keyFindings, riskFactors, now);
    DraftLine(r, DraftSummary(visaType, recommendation));
    ScoreRecorded(r, if recommendation == "APPROVE" then 89 else 75);
  }

  /** The summary and the score as the client looks them up. */
  lemma DraftLookups(caseNumber: string, visaType: string, recommendation: string,
                     keyFindings: seq<string>, riskFactors: seq<string>, now: string)
    ensures var r := GenerateAdjudicationDraft(caseNumber, visaType, recommendation, keyFindings, riskFactors, now);
            && GetOpt(Get(r, "draft_decision"), "summary") == Some(JStr(DraftSummary(visaType, recommendation)))
            && Get(r, "confidence_score") == Some(JNum(if recommendation == "APPROVE" then 89 else 75))
  {
    var r := GenerateAdjudicationDraft(caseNumber, visaType, recommendation, keyFindings, riskFactors, now);
    LookupAt(r.fields, 3, "draft_decision");
    LookupAt(r.fields, 4, "confidence_score");
  }

  /** A draft whose decision carries a summary is shown by that summary. */
  lemma DraftLine(r: Json, summary: string)
    requires GetOpt(Get(r, "draft_decision"), "summary") == Some(JStr(summary)) && |summary| > 0
    ensures FormatToolResult("generate_adjudication_draft", r) == "Draft recommendation: " + summary
  {
    SummaryOfTool(AdjudicationDraft, r);
  }

  // ---------------------------------------------------------------------------
  // check_citation_validity
  // ---------------------------------------------------------------------------

  /** The keys of `known_citations`. */
  const KnownCitations: seq<string> :=
    ["INA \U{00A7} 101", "8 CFR \U{00A7} 214", "Matter of Simeio", "Matter of Defensor", "Kazarian v. USCIS"]

  /** Some key occurs in the text. */
  ghost predicate NamesKnown(keys: seq<string>, citation: string) {
    exists i :: 0 <= i < |keys| && IsSubstring(keys[i], citation)
  }

  /** `any(known in citation for known in keys)` */
  function AnyOccursIn(keys: seq<string>, citation: string): (r: bool)
    ensures r <==> NamesKnown(keys, citation)
  {
    if |keys| == 0 then false
    else
      var rest := AnyOccursIn(keys[1..], citation);
      assert rest <==> exists i :: 1 <= i < |keys| && IsSubstring(keys[i], citation) by {
        if rest {
          var i :| 0 <= i < |keys[1..]| && IsSubstring(keys[1..][i], citation);
          assert IsSubstring(keys[i + 1], citation);
        }
        if exists i :: 1 <= i < |keys| && IsSubstring(keys[i], citation) {
          var i :| 1 <= i < |keys| && IsSubstring(keys[i], citation);
          assert keys[1..][i - 1] == keys[i];
        }
      }
      Includes(citation, keys[0]) || rest
  }

  /** `check_citation_validity`: every verdict follows from whether a known citation occurs in the text. */
  function CheckCitationValidity(citation: string): (r: Json)
    ensures r.JObj? && |r.fields| == 5
    ensures var valid := NamesKnown(KnownCitations, citation);
            && r.fields[1] == Field("valid", JBool(valid))
            && r.fields[2] == Field("source",
                                    JStr(if valid then KnownSource else "Unknown"))
            && r.fields[3] == Field("hallucination_risk", JStr(if valid then "LOW" else "HIGH"))
            && r.fields[4] == Field("confidence", JNum(if valid then 98 else 15))
  {
    var valid := AnyOccursIn(KnownCitations, citation);
    JObj([
      Field("citation", JStr(citation)),
      Field("valid", JBool(valid)),
      Field("source", JStr(if valid then KnownSource else "Unknown")),
      Field("hallucination_risk", JStr(if valid then "LOW" else "HIGH")),
      Field("confidence", JNum(if valid then 98 else 15))])
  }

  /** A citation stays valid when text is added around it. */
  lemma CitationValidityMonotone(citation: string, before: string, after: string)
    requires NamesKnown(KnownCitations, citation)
    ensures NamesKnown(KnownCitations, before + citation + after)
    ensures CheckCitationValidity(before + citation + after).fields[1].value == JBool(true)
  {
    var i :| 0 <= i < |KnownCitations| && IsSubstring(KnownCitations[i], citation);
    var k := KnownCitations[i];
    var p :| OccursAt(citation, k, p);
    var t := before + citation + after;
    assert t[|before| + p..|before| + p + |k|] == citation[p..p + |k|];
    assert OccursAt(t, k, |before| + p);
  }

  /**
   * Any text starting with the second known key (`KnownCitations[1]`) is
   * accepted with low risk; the empty text is not.
   */
  lemma CitationExamples(rest: string)
    ensures CheckCitationValidity("8 CFR \U{00A7} 214" + rest).fields[3].value == JStr("LOW")
    ensures CheckCitationValidity("").fields[3].value == JStr("HIGH")
  {
    var k := KnownCitations[1];
    assert OccursAt(k + rest, k, 0);
    forall i | 0 <= i < |KnownCitations|
      ensures !IsSubstring(KnownCitations[i], "")
    {
      assert |KnownCitations[i]| > 0;
    }
  }
}

=== FILE: case_detail.dfy ===
/**
 * The case detail page: the tab bar, the masking of sensitive values
 * (passport and receipt numbers and the like), and the status badges.
 */
module CaseDetail {
  import opened Wrappers
  import opened Text
  import opened Widgets

  datatype Tab = Overview | Documents | AiAnalysis | Timeline | Notes

  datatype Detail = Detail(activeTab: Tab, showSensitiveData: bool)

  /** The page opens on the overview with sensitive values masked. */
  const Initial: Detail := Detail(Overview, false)

  /** `setActiveTab` */
  function SetActiveTab(d: Detail, tab: Tab): (r: Detail)
    ensures r.activeTab == tab && r.showSensitiveData == d.showSensitiveData
  {
    d.(activeTab := tab)
  }

  /** `toggleSensitiveData` */
  function ToggleSensitiveData(d: Detail): (r: Detail)
    ensures r.showSensitiveData == !d.showSensitiveData
    ensures r.activeTab == d.activeTab
  {
    d.(showSensitiveData := !d.showSensitiveData)
  }

  /** Showing and hiding the sensitive values twice is no change. */
  lemma ToggleSensitiveDataTwice(d: Detail)
    ensures ToggleSensitiveData(ToggleSensitiveData(d)) == d
    ensures ToggleSensitiveData(d) != d
  {
  }

  // ---------------------------------------------------------------------------
  // Masking
  // ---------------------------------------------------------------------------

  /** The characters shown unmasked when the caller gives no count. */
  const DefaultShowFirst: int := 3

  /**
   * The mask string as the page's source file spells it: the three
   * characters the UTF-8 bytes of a bullet read as in Windows-1252.
   */
  const MisencodedBullet: string := "\U{00E2}\U{20AC}\U{00A2}"

  /** The bullet `•` the mask evidently means. */
  const Bullet: char := '\U{2022}'

  /**
   * `maskValue` as written: the first `showFirst` characters, then the
   * three-character misencoded mask once per hidden character; `None` where
   * `repeat` throws on a negative count.
   */
  function MaskAsWritten(showSensitive: bool, value: string, showFirst: int): (r: Option<string>)
    ensures showSensitive ==> r == Some(value)
    ensures !showSensitive ==> (r.None? <==> |value| < showFirst)
    ensures !showSensitive && r.Some? && showFirst >= 0 ==> |r.value| == showFirst + 3 * (|value| - showFirst)
  {
    if showSensitive then Some(value)
    else if |value| - showFirst < 0 then None
    else Some(Prefix(value, showFirst) + Repeat(MisencodedBullet, |value| - showFirst))
  }

  /** A masked value comes out longer than the value whenever one character is hidden. */
  lemma MaskAsWrittenGrows(value: string, showFirst: int)
    requires 0 <= showFirst < |value|
    ensures MaskAsWritten(false, value, showFirst).Some?
    ensures |MaskAsWritten(false, value, showFirst).value| == |value| + 2 * (|value| - showFirst) > |value|
  {
  }

  /** A Social Security number masked with the default count: 27 characters instead of 11. */
  lemma MaskAsWrittenExample()
    ensures MaskAsWritten(false, "123-45-6789", DefaultShowFirst).Some?
    ensures |MaskAsWritten(false, "123-45-6789", DefaultShowFirst).value| == 27
  {
    MaskAsWrittenGrows("123-45-6789", DefaultShowFirst);
  }

  /**
   * `maskValue` with the bullet it evidently means: shown values pass
   * through; a masked value keeps its first `showFirst` characters and shows
   * a bullet for each other one; `None` where `repeat` throws.
   */
  function Mask(showSensitive: bool, value: string, showFirst: int): (r: Option<string>)
    ensures showSensitive ==> r == Some(value)
    ensures !showSensitive ==> (r.None? <==> |value| < showFirst)
    ensures !showSensitive && r.Some? && showFirst >= 0 ==>
              && |r.value| == |value|
              && r.value[..showFirst] == value[..showFirst]
              && forall i :: showFirst <= i < |value| ==> r.value[i] == Bullet
  {
    if showSensitive then Some(value)
    else if |value| - showFirst < 0 then None
    else
      var shown := Prefix(value, showFirst);
      var hidden := Repeat([Bullet], |value| - showFirst);
      RepeatOne(Bullet, |value| - showFirst);
      assert forall i :: showFirst <= i < |value| && showFirst >= 0 ==> (shown + hidden)[i] == hidden[i - showFirst];
      Some(shown + hidden)
  }

  /**
   * The mask reveals nothing beyond the shown prefix and the length: two
   * values of the same length that agree on the first `showFirst`
   * characters mask to the same text.
   */
  lemma MaskHidesTheRest(a: string, b: string, showFirst: int)
    requires 0 <= showFirst <= |a| == |b|
    requires a[..showFirst] == b[..showFirst]
    ensures Mask(false, a, showFirst) == Mask(false, b, showFirst)
  {
    var ra, rb := Mask(false, a, showFirst).value, Mask(false, b, showFirst).value;
    assert |ra| == |rb|;
    forall i | 0 <= i < |ra|
      ensures ra[i] == rb[i]
    {
      if i < showFirst {
        assert ra[i] == ra[..showFirst][i] == rb[..showFirst][i] == rb[i];
      }
    }
  }

  /** The corrected mask of a Social Security number has its 11 characters. */
  lemma MaskExample()
    ensures Mask(false, "123-45-6789", DefaultShowFirst).Some?
    ensures |Mask(false, "123-45-6789", DefaultShowFirst).value| == 11
  {
  }

  // ---------------------------------------------------------------------------
  // Badges
  // ---------------------------------------------------------------------------

  /** `getStatusClass`: four known statuses, the processing badge otherwise. */
  function StatusClass(status: string): (r: string)
    ensures r == "badge-pending" <==> status == "Pending Review"
    ensures r == "badge-approved" <==> status == "Approved"
    ensures r == "badge-denied" <==> status == "Denied"
    ensures r == "badge-processing" <==> status != "Pending Review" && status != "Approved" && status != "Denied"
  {
    if status == "Pending Review" then "badge-pending"
    else if status == "Approved" then "badge-approved"
    else if status == "Denied" then "badge-denied"
    else "badge-processing"
  }

  /** `getDocStatusClass`: three known document statuses, no class otherwise. */
  function DocStatusClass(status: string): (r: string)
    ensures r == "status-verified" <==> status == "Verified"
    ensures r == "status-pending" <==> status == "Pending Review"
    ensures r == "status-missing" <==> status == "Missing"
    ensures r == "" <==> status != "Verified" && status != "Pending Review" && status != "Missing"
  {
    if status == "Verified" then "status-verified"
    else if status == "Pending Review" then "status-pending"
    else if status == "Missing" then "status-missing"
    else ""
  }
}

=== FILE: case_list.dfy ===
/**
 * The case list page: the search and filter pipeline over all cases, the
 * pagination of its result, the page navigation, and the selection of
 * cases. The component's signals are one immutable `ListState`; each
 * handler returns the next state.
 */
module CaseList {
  import opened Text
  import opened Seqs
  import opened Widgets

  /** A row of the list. Status and visa type are compared as plain strings, as the filters do. */
  datatype Case = Case(
    id: string,
    caseNumber: string,
    applicant: string,
    visaType: string,
    status: string,
    confidence: int,
    attorney: string,
    filedDate: string,
    lastUpdated: string,
    priority: string)

  /** The option that disables a status or visa type filter. */
  const All: string := "all"

  datatype Filters = Filters(query: string, status: string, visaType: string)

  datatype ListState = ListState(
    filters: Filters,
    showFilters: bool,
    page: int,
    pageSize: nat,
    selected: set<string>,
    selectAll: bool)

  /** The state the page opens with: no filter, page 1 of 10 rows, nothing selected. */
  const Initial: ListState := ListState(Filters("", All, All), false, 1, 10, {}, false)

  // ---------------------------------------------------------------------------
  // Filtering
  // ---------------------------------------------------------------------------

  /** The lower-cased query occurs in the case number, the applicant or the attorney, each lower-cased. */
  predicate MatchesQuery(query: string, c: Case) {
    || Includes(Lower(c.caseNumber), query)
    || Includes(Lower(c.applicant), query)
    || Includes(Lower(c.attorney), query)
  }

  /** The search test for an already lower-cased query. */
  function QueryTest(query: string): Case -> bool {
    c => MatchesQuery(query, c)
  }

  function StatusTest(status: string): Case -> bool {
    (c: Case) => c.status == status
  }

  function VisaTypeTest(visaType: string): Case -> bool {
    (c: Case) => c.visaType == visaType
  }

  /** A filter step that runs only when it is enabled. */
  function Stage(s: seq<Case>, enabled: bool, p: Case -> bool): seq<Case> {
    if enabled then Filter(s, p) else s
  }

  /**
   * `filteredCases`: the search filter (skipped for an empty query), then the
   * status filter, then the visa type filter. The three steps together are
   * one filter by `Selected`.
   */
  function FilteredCases(all: seq<Case>, f: Filters): (r: seq<Case>)
    ensures r == Filter(all, SelectedBy(f))
  {
    var query := Lower(f.query);
    var bySearch := Stage(all, query != "", QueryTest(query));
    var byStatus := Stage(bySearch, f.status != All, StatusTest(f.status));
    StagesAreOneFilter(all, f);
    Stage(byStatus, f.visaType != All, VisaTypeTest(f.visaType))
  }

  /** What a case must satisfy to be listed, stated independently of the pipeline. */
  predicate Selected(f: Filters, c: Case) {
    && (Lower(f.query) == "" || MatchesQuery(Lower(f.query), c))
    && (f.status == All || c.status == f.status)
    && (f.visaType == All || c.visaType == f.visaType)
  }

  function SelectedBy(f: Filters): Case -> bool {
    c => Selected(f, c)
  }

  /** A step that may be skipped, as one test. */
  function When(enabled: bool, p: Case -> bool): Case -> bool {
    c => !enabled || p(c)
  }

  /** A skipped step is a filter that keeps everything. */
  lemma StageIsFilter(s: seq<Case>, enabled: bool, p: Case -> bool)
    ensures Stage(s, enabled, p) == Filter(s, When(enabled, p))
  {
    if enabled {
      FilterSame(s, p, When(enabled, p));
    } else {
      FilterAll(s, When(enabled, p));
    }
  }

  /** The three steps, each skipped when disabled. */
  function Steps(f: Filters): (Case -> bool, Case -> bool, Case -> bool) {
    var query := Lower(f.query);
    (When(query != "", QueryTest(query)), When(f.status != All, StatusTest(f.status)),
     When(f.visaType != All, VisaTypeTest(f.visaType)))
  }

  /** A case passes all three steps exactly when it is `Selected`. */
  lemma StepsAreSelected(f: Filters, c: Case)
    ensures var (q1, q2, q3) := Steps(f);
            Both(Both(q1, q2), q3)(c) == SelectedBy(f)(c)
  {
  }

  /** The three filter steps, each skipped when disabled, are one filter by `Selected`. */
  lemma StagesAreOneFilter(all: seq<Case>, f: Filters)
    ensures var query := Lower(f.query);
            var s1 := Stage(all, query != "", QueryTest(query));
            var s2 := Stage(s1, f.status != All, StatusTest(f.status));
            Stage(s2, f.visaType != All, VisaTypeTest(f.visaType)) == Filter(all, SelectedBy(f))
  {
    var query := Lower(f.query);
    var (q1, q2, q3) := Steps(f);
    var s1 := Stage(all, query != "", QueryTest(query));
    var s2 := Stage(s1, f.status != All, StatusTest(f.status));
    StageIsFilter(all, query != "", QueryTest(query));
    StageIsFilter(s1, f.status != All, StatusTest(f.status));
    StageIsFilter(s2, f.visaType != All, VisaTypeTest(f.visaType));
    FilterFilter(all, q1, q2);
    FilterFilter(all, Both(q1, q2), q3);
    forall k | 0 <= k < |all|
      ensures Both(Both(q1, q2), q3)(all[k]) == SelectedBy(f)(all[k])
    {
      StepsAreSelected(f, all[k]);
    }
    FilterSame(all, Both(Both(q1, q2), q3), SelectedBy(f));
  }

  /**
   * `filteredCases` keeps, in their original order, exactly the cases that
   * match the query and both filters: every listed case matches, and every
   * matching case is listed.
   */
  lemma FilteredCasesSpec(all: seq<Case>, f: Filters)
    ensures IsFilterOf(FilteredCases(all, f), all, SelectedBy(f))
    ensures IsSubsequence(FilteredCases(all, f), all)
  {
    FilterIsFilterOf(all, SelectedBy(f));
    FilterOfIsSubsequence(FilteredCases(all, f), all, SelectedBy(f));
  }

  /** With no query and both filters at `all`, every case is listed. */
  lemma NoFilterListsAll(all: seq<Case>)
    ensures FilteredCases(all, Filters("", All, All)) == all
  {
    assert Lower("") == "";
  }

  // ---------------------------------------------------------------------------
  // Pagination
  // ---------------------------------------------------------------------------

  /** `paginatedCases`: the slice `[(page - 1) * size, page * size)` of the filtered cases. */
  function PaginatedCases(filtered: seq<Case>, page: int, size: nat): (r: seq<Case>)
    ensures page >= 1 ==> |r| <= size
    ensures page >= 1 ==> forall k :: 0 <= k < |r| ==>
              PageStart(page, size) + k < |filtered| && r[k] == filtered[PageStart(page, size) + k]
  {
    var start := PageStart(page, size);
    if page >= 1 then
      SliceWindow(filtered, start, start + size);
      Slice(filtered, start, start + size)
    else
      Slice(filtered, start, start + size)
  }

  /** The position of the first case of a page: `(page - 1) * size`. */
  function PageStart(page: int, size: nat): (r: int)
    ensures page >= 1 ==> r >= 0
  {
    if page >= 1 then
      MulMonotone(0, page - 1, size);
      (page - 1) * size
    else
      (page - 1) * size
  }

  lemma MulMonotone(a: int, b: int, c: nat)
    requires a <= b
    ensures a * c <= b * c
  {
    assert b * c - a * c == (b - a) * c;
  }

  lemma MulCancel(a: int, b: int, c: nat)
    requires c > 0 && a * c < b * c
    ensures a < b
  {
    if b <= a {
      MulMonotone(b, a, c);
    }
  }

  /** `Math.ceil(n / d)` computed on integers as `(n + d - 1) / d`. */
  lemma CeilDiv(n: nat, d: nat)
    requires d > 0
    ensures var q := (n + d - 1) / d;
            && q >= 0
            && n <= q * d
            && (n > 0 ==> (q - 1) * d < n)
            && (q == 0 <==> n == 0)
  {
    var q, rem := (n + d - 1) / d, (n + d - 1) % d;
    assert q * d + rem == n + d - 1 && 0 <= rem < d;
    assert (q - 1) * d == q * d - d;
    if n > 0 {
      MulCancel(0, q, d);
    }
  }

  /** `totalPages`: `Math.ceil(n / size)`, the fewest pages of `size` rows that hold `n` rows. */
  function TotalPages(n: nat, size: nat): (r: nat)
    requires size > 0
    ensures n <= r * size
    ensures n > 0 ==> (r - 1) * size < n
    ensures r == 0 <==> n == 0
  {
    CeilDiv(n, size);
    (n + size - 1) / size
  }

  /**
   * A page from 1 on holds at most `size` cases, in order from position
   * `(page - 1) * size`; every page but the last is full.
   */
  lemma PageContents(filtered: seq<Case>, page: int, size: nat)
    requires page >= 1 && size > 0
    ensures var r := PaginatedCases(filtered, page, size);
            var start := (page - 1) * size;
            && |r| <= size
            && (forall k :: 0 <= k < |r| ==> start + k < |filtered| && r[k] == filtered[start + k])
            && (page < TotalPages(|filtered|, size) ==> |r| == size)
  {
    var start := (page - 1) * size;
    MulMonotone(0, page - 1, size);
    SliceWindow(filtered, start, start + size);
    var total := TotalPages(|filtered|, size);
    if page < total {
      MulMonotone(page, total - 1, size);
      assert start + size == page * size;
    }
  }

  /** Every filtered case appears on some page within `[1, totalPages]`, at its position within that page. */
  lemma EveryCaseOnAPage(filtered: seq<Case>, i: nat, size: nat)
    requires i < |filtered| && size > 0
    ensures var page := i / size + 1;
            && 1 <= page <= TotalPages(|filtered|, size)
            && i % size < |PaginatedCases(filtered, page, size)|
            && PaginatedCases(filtered, page, size)[i % size] == filtered[i]
  {
    var q, rem := i / size, i % size;
    DivMod(i, size);
    var total := TotalPages(|filtered|, size);
    MulCancel(q, total, size);
    PageContents(filtered, q + 1, size);
    var start := q * size;
    SliceWindow(filtered, start, start + size);
  }

  lemma DivMod(i: nat, d: nat)
    requires d > 0
    ensures i == (i / d) * d + i % d && 0 <= i % d < d && i / d >= 0
  {
  }

  // ---------------------------------------------------------------------------
  // Handlers
  // ---------------------------------------------------------------------------

  /** The cases shown on the current page. */
  function PageCases(st: ListState, all: seq<Case>): seq<Case> {
    PaginatedCases(FilteredCases(all, st.filters), st.page, st.pageSize)
  }

  /** The page count of the current filter. */
  function PageCount(st: ListState, all: seq<Case>): nat
    requires st.pageSize > 0
  {
    TotalPages(|FilteredCases(all, st.filters)|, st.pageSize)
  }

  /** `updateSearch`: the new query, back to page 1. */
  function UpdateSearch(st: ListState, query: string): (r: ListState)
    ensures r.filters.query == query && r.page == 1
    ensures r.filters.status == st.filters.status && r.filters.visaType == st.filters.visaType
    ensures r.(filters := st.filters, page := st.page) == st
  {
    st.(filters := st.filters.(query := query), page := 1)
  }

  /** `setStatusFilter`: the new status filter, back to page 1. */
  function SetStatusFilter(st: ListState, status: string): (r: ListState)
    ensures r.filters.status == status && r.page == 1
    ensures r.filters.query == st.filters.query && r.filters.visaType == st.filters.visaType
    ensures r.(filters := st.filters, page := st.page) == st
  {
    st.(filters := st.filters.(status := status), page := 1)
  }

  /** `setVisaTypeFilter`: the new visa type filter, back to page 1. */
  function SetVisaTypeFilter(st: ListState, visaType: string): (r: ListState)
    ensures r.filters.visaType == visaType && r.page == 1
    ensures r.filters.query == st.filters.query && r.filters.status == st.filters.status
    ensures r.(filters := st.filters, page := st.page) == st
  {
    st.(filters := st.filters.(visaType := visaType), page := 1)
  }

  /** `clearFilters`: no query, both filters `all`, back to page 1. */
  function ClearFilters(st: ListState): (r: ListState)
    ensures r.filters.query == "" && r.filters.status == All && r.filters.visaType == All && r.page == 1
    ensures r.(filters := st.filters, page := st.page) == st
  {
    st.(filters := Filters("", All, All), page := 1)
  }

  /** `toggleFilters` */
  function ToggleFilters(st: ListState): (r: ListState)
    ensures r.showFilters == !st.showFilters
    ensures r.(showFilters := st.showFilters) == st
  {
    st.(showFilters := !st.showFilters)
  }

  /** `goToPage`: the page changes only to one within `[1, totalPages]`. */
  function GoToPage(st: ListState, all: seq<Case>, page: int): (r: ListState)
    requires st.pageSize > 0
    ensures 1 <= page <= PageCount(st, all) ==> r == st.(page := page)
    ensures !(1 <= page <= PageCount(st, all)) ==> r == st
  {
    if 1 <= page <= PageCount(st, all) then st.(page := page) else st
  }

  /** `toggleCaseSelection` */
  function ToggleCaseSelection(st: ListState, id: string): (r: ListState)
    ensures IsCaseSelected(r, id) == !IsCaseSelected(st, id)
    ensures forall other :: other != id ==> IsCaseSelected(r, other) == IsCaseSelected(st, other)
    ensures r.(selected := st.selected) == st
  {
    st.(selected := Toggled(st.selected, id))
  }

  /** Selecting a case twice restores the selection; no other case changes. */
  lemma ToggleCaseSelectionTwice(st: ListState, id: string, other: string)
    requires other != id
    ensures ToggleCaseSelection(ToggleCaseSelection(st, id), id) == st
    ensures IsCaseSelected(ToggleCaseSelection(st, id), other) == IsCaseSelected(st, other)
    ensures IsCaseSelected(ToggleCaseSelection(st, id), id) == !IsCaseSelected(st, id)
  {
    ToggledTwice(st.selected, id);
  }

  /** `isCaseSelected` */
  predicate IsCaseSelected(st: ListState, id: string) {
    id in st.selected
  }

  /** The ids of a list of cases. */
  function Ids(cases: seq<Case>): set<string> {
    set c | c in cases :: c.id
  }

  /** `toggleSelectAll`: clear the selection when all were selected, otherwise select exactly the current page. */
  function ToggleSelectAll(st: ListState, all: seq<Case>): (r: ListState)
    ensures r.selectAll == !st.selectAll
    ensures st.selectAll ==> r.selected == {}
    ensures !st.selectAll ==>
              forall id :: id in r.selected <==>
                exists k :: 0 <= k < |PageCases(st, all)| && PageCases(st, all)[k].id == id
    ensures r.(selected := st.selected, selectAll := st.selectAll) == st
  {
    if st.selectAll then st.(selected := {}, selectAll := false)
    else
      var page := PageCases(st, all);
      assert forall id :: id in Ids(page) <==> exists k :: 0 <= k < |page| && page[k].id == id by {
        forall id | id in Ids(page)
          ensures exists k :: 0 <= k < |page| && page[k].id == id
        {
          var c :| c in page && c.id == id;
          var k :| 0 <= k < |page| && page[k] == c;
        }
      }
      st.(selected := Ids(page), selectAll := true)
  }

  // ---------------------------------------------------------------------------
  // Badges
  // ---------------------------------------------------------------------------

  /** `getVisaTypeClass`: a class per visa type, with H-1B's class for I-140 and for any unknown type. */
  function VisaTypeClass(visaType: string): (r: string)
    ensures r == "badge-o1" <==> visaType == "O-1"
    ensures r == "badge-eb2" <==> visaType == "EB-2"
    ensures r == "badge-processing" <==> visaType == "I-129"
    ensures r == "badge-h1b" <==> visaType != "O-1" && visaType != "EB-2" && visaType != "I-129"
  {
    if visaType == "O-1" then "badge-o1"
    else if visaType == "EB-2" then "badge-eb2"
    else if visaType == "I-129" then "badge-processing"
    else "badge-h1b"
  }

  /** `getStatusClass`: a class per status, with the processing class for any unknown status. */
  function StatusClass(status: string): (r: string)
    ensures r == "badge-pending" <==> status == "Pending Review"
    ensures r == "badge-approved" <==> status == "Approved"
    ensures r == "badge-denied" <==> status == "Denied"
    ensures r == "badge-rfe" <==> status == "RFE Issued"
    ensures r == "badge-processing" <==>
              status != "Pending Review" && status != "Approved" && status != "Denied" && status != "RFE Issued"
  {
    if status == "Pending Review" then "badge-pending"
    else if status == "Approved" then "badge-approved"
    else if status == "Denied" then "badge-denied"
    else if status == "RFE Issued" then "badge-rfe"
    else "badge-processing"
  }

  /** `getPriorityClass`: the priority prefixed with `priority-`. */
  function PriorityClass(priority: string): (r: string)
    ensures StartsWith(r, "priority-") && r[|"priority-"|..] == priority
  {
    "priority-" + priority
  }

  /** Distinct priorities get distinct classes. */
  lemma PriorityClassInjective(a: string, b: string)
    requires PriorityClass(a) == PriorityClass(b)
    ensures a == b
  {
    assert a == PriorityClass(a)[|"priority-"|..];
  }

  // ---------------------------------------------------------------------------
  // The page stays in range
  // ---------------------------------------------------------------------------

  /**
   * Changing the search or a filter shows the first page of the new result:
   * the first `pageSize` listed cases, each of them selected by the new
   * filters.
   */
  lemma FilterChangeShowsFirstPage(st: ListState, all: seq<Case>, a: Action)
    requires st.pageSize > 0 && (a.Search? || a.StatusFilter? || a.VisaFilter? || a.Clear?)
    ensures var r := Apply(st, all, a);
            var listed := FilteredCases(all, r.filters);
            && r.page == 1
            && PageInRange(r, all)
            && PageCases(r, all) == listed[..if |listed| < st.pageSize then |listed| else st.pageSize]
            && forall k :: 0 <= k < |PageCases(r, all)| ==> Selected(r.filters, PageCases(r, all)[k])
  {
    var r := Apply(st, all, a);
    assert r == st.(filters := r.filters, page := 1);
    FirstPageShowsFirstMatches(r, all);
  }

  /** Page 1 shows the first `pageSize` listed cases, each selected by the filters. */
  lemma FirstPageShowsFirstMatches(r: ListState, all: seq<Case>)
    requires r.pageSize > 0 && r.page == 1
    ensures var listed := FilteredCases(all, r.filters);
            && PageCases(r, all) == listed[..if |listed| < r.pageSize then |listed| else r.pageSize]
            && forall k :: 0 <= k < |PageCases(r, all)| ==> Selected(r.filters, PageCases(r, all)[k])
  {
    var listed := FilteredCases(all, r.filters);
    assert PageStart(1, r.pageSize) == 0;
    assert PageCases(r, all) == Slice(listed, 0, r.pageSize);
    var shown := PageCases(r, all);
    forall k | 0 <= k < |shown|
      ensures Selected(r.filters, shown[k])
    {
      assert shown[k] == listed[k];
      assert SelectedBy(r.filters)(listed[k]);
    }
  }

  /** The current page is at least 1 and within the page count, or 1 when there are no pages. */
  predicate PageInRange(st: ListState, all: seq<Case>)
    requires st.pageSize > 0
  {
    1 <= st.page <= if PageCount(st, all) == 0 then 1 else PageCount(st, all)
  }

  /** The user actions on the list page. */
  datatype Action =
    | Search(query: string)
    | StatusFilter(status: string)
    | VisaFilter(visaType: string)
    | Clear
    | ShowHideFilters
    | SelectAll
    | SelectCase(id: string)
    | GoTo(page: int)

  function Apply(st: ListState, all: seq<Case>, a: Action): ListState
    requires st.pageSize > 0
  {
    match a
    case Search(q) => UpdateSearch(st, q)
    case StatusFilter(s) => SetStatusFilter(st, s)
    case VisaFilter(v) => SetVisaTypeFilter(st, v)
    case Clear => ClearFilters(st)
    case ShowHideFilters => ToggleFilters(st)
    case SelectAll => ToggleSelectAll(st, all)
    case SelectCase(id) => ToggleCaseSelection(st, id)
    case GoTo(p) => GoToPage(st, all, p)
  }

  /** Every action keeps the page size and keeps the current page in range. */
  lemma ApplyKeepsPageInRange(st: ListState, all: seq<Case>, a: Action)
    requires st.pageSize > 0 && PageInRange(st, all)
    ensures Apply(st, all, a).pageSize == st.pageSize
    ensures PageInRange(Apply(st, all, a), all)
  {
  }

  /** From the opening state, any sequence of actions keeps the page in range; the page size stays 10. */
  lemma {:induction false} RunKeepsPageInRange(all: seq<Case>, actions: seq<Action>)
    ensures var st := Run(all, actions);
            st.pageSize == 10 && PageInRange(st, all)
  {
    if |actions| > 0 {
      RunKeepsPageInRange(all, Init(actions));
      ApplyKeepsPageInRange(Run(all, Init(actions)), all, Last(actions));
    }
  }

  /** The state after a sequence of actions from the opening state. */
  function Run(all: seq<Case>, actions: seq<Action>): (st: ListState)
    ensures st.pageSize == 10
  {
    if |actions| == 0 then Initial
    else Apply(Run(all, Init(actions)), all, Last(actions))
  }
}

=== FILE: documents.dfy ===
/**
 * The documents page: one search box and one category filter over the
 * uploaded documents.
 */
module Documents {
  import opened Text
  import opened Seqs

  datatype Document = Document(
    id: int,
    name: string,
    docType: string,
    category: string,
    size: string,
    uploadDate: string,
    uploadedBy: string,
    caseId: string)

  /** The filter value that shows every category. */
  const All: string := "all"

  /** The lower-cased query occurs in the name, the case id or the uploader, each lower-cased. */
  predicate MatchesSearch(query: string, d: Document) {
    || Includes(Lower(d.name), query)
    || Includes(Lower(d.caseId), query)
    || Includes(Lower(d.uploadedBy), query)
  }

  /** `filter === 'all'` is compared as written; a category is compared ignoring case. */
  predicate MatchesFilter(filter: string, d: Document) {
    filter == All || Lower(d.category) == Lower(filter)
  }

  /** The test `filteredDocuments` applies to each document. */
  function Keep(searchQuery: string, filter: string): Document -> bool {
    d => MatchesSearch(Lower(searchQuery), d) && MatchesFilter(filter, d)
  }

  /** `filteredDocuments` */
  function FilteredDocuments(docs: seq<Document>, searchQuery: string, filter: string): (r: seq<Document>)
    ensures forall k :: 0 <= k < |r| ==> MatchesSearch(Lower(searchQuery), r[k]) && MatchesFilter(filter, r[k])
  {
    Filter(docs, Keep(searchQuery, filter))
  }

  /**
   * The result keeps, in their original order, exactly the documents that
   * match both the search and the category filter.
   */
  lemma FilteredDocumentsSpec(docs: seq<Document>, searchQuery: string, filter: string)
    ensures IsFilterOf(FilteredDocuments(docs, searchQuery, filter), docs, Keep(searchQuery, filter))
    ensures IsSubsequence(FilteredDocuments(docs, searchQuery, filter), docs)
  {
    FilterIsFilterOf(docs, Keep(searchQuery, filter));
    FilterOfIsSubsequence(FilteredDocuments(docs, searchQuery, filter), docs, Keep(searchQuery, filter));
  }

  /** With an empty search and the `all` filter every document is listed. */
  lemma EmptySearchListsAll(docs: seq<Document>)
    ensures FilteredDocuments(docs, "", All) == docs
  {
    assert Lower("") == "";
    forall k | 0 <= k < |docs|
      ensures Keep("", All)(docs[k])
    {
      EmptyIsSubstring(Lower(docs[k].name));
    }
    FilterAll(docs, Keep("", All));
  }

  /**
   * Category filters that differ only in letter case select the same
   * documents, provided neither is the literal `all`.
   */
  lemma FilterIgnoresCase(docs: seq<Document>, searchQuery: string, f1: string, f2: string)
    requires Lower(f1) == Lower(f2) && f1 != All && f2 != All
    ensures FilteredDocuments(docs, searchQuery, f1) == FilteredDocuments(docs, searchQuery, f2)
  {
    FilterSame(docs, Keep(searchQuery, f1), Keep(searchQuery, f2));
  }

  /** Search queries that differ only in letter case find the same documents. */
  lemma SearchIgnoresCase(docs: seq<Document>, q1: string, q2: string, filter: string)
    requires Lower(q1) == Lower(q2)
    ensures FilteredDocuments(docs, q1, filter) == FilteredDocuments(docs, q2, filter)
  {
    FilterSame(docs, Keep(q1, filter), Keep(q2, filter));
  }

  /**
   * Only the literal `all` disables the filter: `ALL` is a category name
   * like any other and keeps only documents whose category reads `all` in
   * some letter case.
   */
  lemma UpperAllIsACategory(d: Document)
    ensures MatchesFilter("ALL", d) <==> Lower(d.category) == All
  {
    assert Lower("ALL") == All;
  }
}

=== FILE: events.dfy ===
/**
 * The adjudication event exchanged between the server's stream and the
 * client: one record whose `event_type` tag selects how the other, optional,
 * fields are read (the TypeScript `AdjudicationEvent` interface and the
 * pydantic `AdjudicationEvent` model describe the same wire object).
 */
module Events {
  import opened Wrappers
  import opened Json

  /** The `event_type` tag. Tags the client does not know are kept, and ignored. */
  datatype EventType =
    | Stage
    | Reasoning
    | ToolCall
    | ToolResult
    | Error
    | Complete
    | Unrecognized(tag: string)

  /** The wire spelling of a tag. */
  function Tag(t: EventType): string {
    match t
    case Stage => "stage"
    case Reasoning => "reasoning"
    case ToolCall => "tool_call"
    case ToolResult => "tool_result"
    case Error => "error"
    case Complete => "complete"
    case Unrecognized(tag) => tag
  }

  /** The tag a wire string denotes. */
  function TypeOfTag(s: string): (t: EventType)
    ensures t.Unrecognized? ==> t.tag == s
  {
    if s == "stage" then Stage
    else if s == "reasoning" then Reasoning
    else if s == "tool_call" then ToolCall
    else if s == "tool_result" then ToolResult
    else if s == "error" then Error
    else if s == "complete" then Complete
    else Unrecognized(s)
  }

  /** An unrecognized tag does not spell one of the six known ones. */
  predicate ValidType(t: EventType) {
    t.Unrecognized? ==> TypeOfTag(t.tag).Unrecognized?
  }

  /** Reading a tag back from its spelling gives the tag. */
  lemma TagRoundTrip(t: EventType)
    requires ValidType(t)
    ensures TypeOfTag(Tag(t)) == t
  {
  }

  /** A decoded event; `None` fields are absent or `null` on the wire. */
  datatype Event = Event(
    eventType: EventType,
    stage: Option<string>,
    content: Option<string>,
    toolName: Option<string>,
    toolResult: Option<Json>,
    confidence: Option<int>,
    timestamp: string)

  /** An event the server can emit: a valid tag, and a `tool_result` that is not `null`. */
  predicate WellFormed(e: Event) {
    ValidType(e.eventType) && e.toolResult != Some(JNull)
  }

  function StrField(j: Json, key: string): (r: Option<string>)
    ensures r.Some? <==> Get(j, key).Some? && Get(j, key).value.JStr?
  {
    match Get(j, key)
    case Some(JStr(s)) => Some(s)
    case _ => None
  }

  function NumField(j: Json, key: string): (r: Option<int>)
    ensures r.Some? <==> Get(j, key).Some? && Get(j, key).value.JNum?
  {
    match Get(j, key)
    case Some(JNum(n)) => Some(n)
    case _ => None
  }

  /**
   * The event a parsed payload denotes. A payload that is not an object
   * yields `None`: for `null` the handler throws and the frame is skipped,
   * for any other value no `event_type` matches; either way nothing changes.
   */
  function ToEvent(j: Json): (r: Option<Event>)
    ensures r.Some? <==> j.JObj?
    ensures r.Some? ==> r.value.toolResult != Some(JNull) && ValidType(r.value.eventType)
  {
    if !j.JObj? then None
    else
      var tag := StrField(j, "event_type").GetOr("");
      var result := Get(j, "tool_result");
      Some(Event(
        TypeOfTag(tag),
        StrField(j, "stage"),
        StrField(j, "content"),
        StrField(j, "tool_name"),
        if result == Some(JNull) then None else result,
        NumField(j, "confidence"),
        StrField(j, "timestamp").GetOr("")))
  }

  function OptStr(s: Option<string>): Json {
    if s.Some? then JStr(s.value) else JNull
  }

  /** The object pydantic serializes for an event: every field, in declaration order. */
  function EventJson(e: Event): (j: Json)
    ensures j.JObj?
  {
    JObj([
      Field("event_type", JStr(Tag(e.eventType))),
      Field("stage", OptStr(e.stage)),
      Field("content", OptStr(e.content)),
      Field("tool_name", OptStr(e.toolName)),
      Field("tool_result", e.toolResult.GetOr(JNull)),
      Field("confidence", if e.confidence.Some? then JNum(e.confidence.value) else JNull),
      Field("timestamp", JStr(e.timestamp))])
  }

  /** An event whose serialized form `JSON.parse` gives back exactly. */
  predicate ExactParts(e: Event) {
    && (e.confidence.Some? ==> -MaxSafe <= e.confidence.value <= MaxSafe)
    && (e.toolResult.Some? ==> Exact(e.toolResult.value))
  }

  /** The seven keys of an event are distinct, so only its parts can spoil an exact read-back. */
  lemma ExactEventJson(e: Event)
    requires ExactParts(e)
    ensures Exact(EventJson(e))
  {
    var fields := EventJson(e).fields;
    assert DistinctKeys(fields);
    assert forall i :: 0 <= i < |fields| ==> ExactField(fields[i]);
  }

  /** The client reads back exactly the event the server serialized. */
  lemma DecodeEncode(e: Event)
    requires WellFormed(e)
    ensures ToEvent(EventJson(e)) == Some(e)
  {
    TagRoundTrip(e.eventType);
    var j := EventJson(e);
    TextFieldsReadBack(e);
    OtherFieldsReadBack(e);
    assert StrField(j, "event_type") == Some(Tag(e.eventType));
  }

  lemma TextFieldsReadBack(e: Event)
    ensures var j := EventJson(e);
            && Get(j, "event_type") == Some(JStr(Tag(e.eventType)))
            && StrField(j, "stage") == e.stage
            && StrField(j, "content") == e.content
            && StrField(j, "tool_name") == e.toolName
  {
    TagAndStageReadBack(e);
    var fields := EventJson(e).fields;
    LookupAt(fields, 2, "content");
    LookupAt(fields, 3, "tool_name");
  }

  lemma TagAndStageReadBack(e: Event)
    ensures var j := EventJson(e);
            && Get(j, "event_type") == Some(JStr(Tag(e.eventType)))
            && StrField(j, "stage") == e.stage
  {
    var fields := EventJson(e).fields;
    LookupAt(fields, 0, "event_type");
    LookupAt(fields, 1, "stage");
  }

  lemma OtherFieldsReadBack(e: Event)
    ensures var j := EventJson(e);
            && Get(j, "tool_result") == Some(e.toolResult.GetOr(JNull))
            && NumField(j, "confidence") == e.confidence
            && StrField(j, "timestamp") == Some(e.timestamp)
  {
    var fields := EventJson(e).fields;
    LookupAt(fields, 4, "tool_result");
    LookupAt(fields, 5, "confidence");
    LookupAt(fields, 6, "timestamp");
  }
}

=== FILE: framing.dfy ===
/**
 * The line-oriented `data: ` framing of the analysis stream: the server
 * writes each event as `data: <json>\n\n`; the client appends every chunk it
 * reads to a buffer, splits the buffer on line feeds, keeps the unterminated
 * tail for the next read, and hands the remainder of every complete
 * `data: ` line that is not blank to the JSON decoder.
 */
module Framing {
  import opened Wrappers
  import opened Text
  import opened Seqs

  /** `s.split('\n')`: the maximal line-feed-free pieces of `s`, always at least one. */
  function Split(s: string): (r: seq<string>)
    ensures |r| >= 1
    ensures forall i :: 0 <= i < |r| ==> '\n' !in r[i]
  {
    if |s| == 0 then [""] else Cons(s[0], Split(s[1..]))
  }

  /** The pieces of `[c] + s` from the pieces `r` of `s`. */
  function Cons(c: char, r: seq<string>): (r': seq<string>)
    requires |r| >= 1
    ensures |r'| >= 1
    ensures (forall i :: 0 <= i < |r| ==> '\n' !in r[i]) ==> forall i :: 0 <= i < |r'| ==> '\n' !in r'[i]
  {
    if c == '\n' then [""] + r else [[c] + r[0]] + r[1..]
  }

  lemma ConsFuse(c: char, x: seq<string>, y: seq<string>)
    requires |x| >= 1 && |y| >= 1
    ensures Cons(c, Init(x) + [Last(x) + y[0]] + y[1..])
            == Init(Cons(c, x)) + [Last(Cons(c, x)) + y[0]] + y[1..]
  {
    if c == '\n' {
      ConsFuseNewline(x, y);
    } else if |x| == 1 {
      ConsFuseSingle(c, x[0], y);
    } else {
      ConsFuseLong(c, x, y);
    }
  }

  lemma ConsFuseNewline(x: seq<string>, y: seq<string>)
    requires |x| >= 1 && |y| >= 1
    ensures Cons('\n', Init(x) + [Last(x) + y[0]] + y[1..])
            == Init(Cons('\n', x)) + [Last(Cons('\n', x)) + y[0]] + y[1..]
  {
    var cx := [""] + x;
    assert Cons('\n', x) == cx;
    assert Init(cx) == [""] + Init(x);
    assert Last(cx) == Last(x);
  }

  lemma ConsFuseSingle(c: char, x0: string, y: seq<string>)
    requires c != '\n' && |y| >= 1
    ensures Cons(c, Init([x0]) + [Last([x0]) + y[0]] + y[1..])
            == Init(Cons(c, [x0])) + [Last(Cons(c, [x0])) + y[0]] + y[1..]
  {
    var z := [x0 + y[0]] + y[1..];
    assert Init([x0]) + [Last([x0]) + y[0]] + y[1..] == z;
    assert Cons(c, z) == [[c] + (x0 + y[0])] + y[1..];
    assert Cons(c, [x0]) == [[c] + x0];
    assert [c] + (x0 + y[0]) == ([c] + x0) + y[0];
  }

  lemma ConsFuseLong(c: char, x: seq<string>, y: seq<string>)
    requires c != '\n' && |x| >= 2 && |y| >= 1
    ensures Cons(c, Init(x) + [Last(x) + y[0]] + y[1..])
            == Init(Cons(c, x)) + [Last(Cons(c, x)) + y[0]] + y[1..]
  {
    var z := Init(x) + [Last(x) + y[0]] + y[1..];
    var cx := [[c] + x[0]] + x[1..];
    assert Cons(c, x) == cx;
    assert z[0] == x[0];
    assert z[1..] == Init(x)[1..] + [Last(x) + y[0]] + y[1..];
    assert Cons(c, z) == [[c] + x[0]] + z[1..];
    assert Init(cx) == [[c] + x[0]] + Init(x)[1..];
    assert Last(cx) == Last(x);
  }

  /** `parts.join('\n')` */
  function JoinLines(parts: seq<string>): string
    requires |parts| >= 1
  {
    if |parts| == 1 then parts[0] else parts[0] + "\n" + JoinLines(parts[1..])
  }

  /** Splitting loses nothing: joining the pieces with line feeds restores the text. */
  lemma {:induction false} JoinSplit(s: string)
    ensures JoinLines(Split(s)) == s
  {
    if |s| > 0 {
      JoinSplit(s[1..]);
      var rest := Split(s[1..]);
      var r := Split(s);
      if s[0] == '\n' {
        assert r[1..] == rest;
      } else if |rest| > 1 {
        assert r[1..] == rest[1..];
        assert JoinLines(rest) == rest[0] + "\n" + JoinLines(rest[1..]);
      }
      assert s == [s[0]] + s[1..];
    }
  }

  /** Text without a line feed is a single piece. */
  lemma {:induction false} SplitNoNewline(s: string)
    requires '\n' !in s
    ensures Split(s) == [s]
  {
    if |s| > 0 {
      assert '\n' !in s[1..];
      SplitNoNewline(s[1..]);
      assert s == [s[0]] + s[1..];
    }
  }

  /**
   * Splitting a concatenation: the last piece of `a` fuses with the first
   * piece of `b`, every other piece is kept.
   */
  lemma {:induction false} SplitAppend(a: string, b: string)
    ensures Split(a + b) == Init(Split(a)) + [Last(Split(a)) + Split(b)[0]] + Split(b)[1..]
  {
    var sb := Split(b);
    if |a| == 0 {
      assert a + b == b;
      assert Split(a) == [""];
      assert "" + sb[0] == sb[0];
      assert sb == [] + [sb[0]] + sb[1..];
    } else {
      var a' := a[1..];
      assert (a + b)[0] == a[0] && (a + b)[1..] == a' + b;
      SplitAppend(a', b);
      ConsFuse(a[0], Split(a'), sb);
    }
  }

  // ---------------------------------------------------------------------------
  // Client side: the read loop
  // ---------------------------------------------------------------------------

  /** The client's stream prefix. */
  const DataPrefix: string := "data: "

  /** What the decoder receives for one complete line: the text after `data: `, unless blank. */
  function Payload(line: string): (r: Option<string>)
    ensures r.Some? <==> StartsWith(line, DataPrefix) && !IsBlank(line[|DataPrefix|..])
    ensures r.Some? ==> line == DataPrefix + r.value
  {
    if StartsWith(line, DataPrefix) then
      var json := line[|DataPrefix|..];
      TrimEmptyIffBlank(json);
      if Trim(json) != "" then Some(json) else None
    else None
  }

  /** The payloads of a run of complete lines, in order. */
  function Payloads(lines: seq<string>): seq<string> {
    if |lines| == 0 then []
    else
      var init := Payloads(Init(lines));
      match Payload(Last(lines))
      case Some(p) => init + [p]
      case None => init
  }

  lemma {:induction false} PayloadsAppend(a: seq<string>, b: seq<string>)
    ensures Payloads(a + b) == Payloads(a) + Payloads(b)
    decreases |b|
  {
    if |b| == 0 {
      assert a + b == a;
    } else {
      assert Init(a + b) == a + Init(b);
      PayloadsAppend(a, Init(b));
    }
  }

  /**
   * One iteration of the read loop: append the chunk to the buffer, split on
   * line feeds, keep the last (unterminated) piece as the new buffer and
   * return the complete lines.
   */
  function Feed(buffer: string, chunk: string): (r: (seq<string>, string))
    ensures '\n' !in r.1
  {
    var parts := Split(buffer + chunk);
    (Init(parts), Last(parts))
  }

  /** Feeding loses nothing: the lines and the new buffer rejoin to the old buffer and the chunk. */
  lemma FeedKeepsText(buffer: string, chunk: string)
    ensures JoinLines(Feed(buffer, chunk).0 + [Feed(buffer, chunk).1]) == buffer + chunk
  {
    var parts := Split(buffer + chunk);
    JoinSplit(buffer + chunk);
    assert parts == Init(parts) + [Last(parts)];
  }

  /**
   * The whole read loop over the chunks the transport delivered: the
   * payloads handed to the decoder, in order, and the buffer left when the
   * stream ended (which is never decoded).
   */
  function ReadAll(chunks: seq<string>): (seq<string>, string) {
    if |chunks| == 0 then ([], "")
    else
      var before := ReadAll(Init(chunks));
      var fed := Feed(before.1, Last(chunks));
      (before.0 + Payloads(fed.0), fed.1)
  }

  /** Appending to a text re-splits only its unterminated last piece. */
  lemma SplitAppendTail(text: string, c: string)
    ensures Split(text + c) == Init(Split(text)) + Split(Last(Split(text)) + c)
  {
    var st, sc := Split(text), Split(c);
    var buffer := Last(st);
    var fused := [buffer + sc[0]] + sc[1..];
    SplitAppend(text, c);
    assert Split(text + c) == Init(st) + fused;
    SplitNoNewline(buffer);
    SplitAppend(buffer, c);
    assert Init([buffer]) == [] && Last([buffer]) == buffer;
    assert Split(buffer + c) == fused;
  }

  /** The pieces of `a + b`, when `b` is not empty, end as those of `b` do. */
  lemma InitLastAppend(a: seq<string>, b: seq<string>)
    requires |b| >= 1
    ensures Init(a + b) == a + Init(b) && Last(a + b) == Last(b)
  {
  }

  /**
   * However the byte stream is cut into chunks, the decoder receives exactly
   * the payloads of the complete lines of the whole text, in order, and the
   * unterminated tail is left in the buffer.
   */
  lemma {:induction false} ReadAllIsChunkingInvariant(chunks: seq<string>)
    ensures ReadAll(chunks) == (Payloads(Init(Split(Concat(chunks)))), Last(Split(Concat(chunks))))
  {
    if |chunks| > 0 {
      var cs, c := Init(chunks), Last(chunks);
      ReadAllIsChunkingInvariant(cs);
      var text := Concat(cs);
      var st := Split(text);
      var tail := Split(Last(st) + c);
      SplitAppendTail(text, c);
      assert Concat(chunks) == text + c;
      InitLastAppend(Init(st), tail);
      PayloadsAppend(Init(st), Init(tail));
    }
  }

  /** Two cuttings of the same text hand the decoder the same payloads. */
  lemma SameTextSamePayloads(chunks1: seq<string>, chunks2: seq<string>)
    requires Concat(chunks1) == Concat(chunks2)
    ensures ReadAll(chunks1).0 == ReadAll(chunks2).0
  {
    ReadAllIsChunkingInvariant(chunks1);
    ReadAllIsChunkingInvariant(chunks2);
  }

  /** A stream that never completes a line decodes nothing. */
  lemma UnterminatedLineNeverDecoded(chunks: seq<string>)
    requires '\n' !in Concat(chunks)
    ensures ReadAll(chunks) == ([], Concat(chunks))
  {
    ReadAllIsChunkingInvariant(chunks);
    SplitNoNewline(Concat(chunks));
  }

  // ---------------------------------------------------------------------------
  // Server side: frames
  // ---------------------------------------------------------------------------

  /** A payload the client can recover: one line, not blank. */
  predicate Framable(json: string) {
    '\n' !in json && !IsBlank(json)
  }

  /** `f"data: {json}\n\n"` */
  function Frame(json: string): string {
    DataPrefix + json + "\n\n"
  }

  /** The text of a run of frames. */
  function FrameText(payloads: seq<string>): string {
    if |payloads| == 0 then "" else FrameText(Init(payloads)) + Frame(Last(payloads))
  }

  lemma SplitTwo()
    ensures Split("\n\n") == ["", "", ""]
  {
    assert "\n"[1..] == "" && "\n\n"[1..] == "\n";
    assert Split("") == [""];
    assert Split("\n") == ["", ""];
  }

  /** One frame is the line `data: json` followed by two line feeds. */
  lemma SplitFrame(json: string)
    requires Framable(json)
    ensures Split(Frame(json)) == [DataPrefix + json, "", ""]
  {
    var line := DataPrefix + json;
    assert '\n' !in DataPrefix;
    assert '\n' !in line;
    SplitNoNewline(line);
    SplitTwo();
    SplitAppend(line, "\n\n");
    assert Init([line]) == [] && Last([line]) == line;
    assert line + "" == line;
    assert Split(line + "\n\n") == [line] + ["", ""];
    assert Frame(json) == line + "\n\n";
  }

  /** Appending a frame to text that ends a line adds the frame's line and a blank line. */
  lemma SplitAppendFrame(text: string, p: string)
    requires Framable(p)
    requires Last(Split(text)) == ""
    ensures Split(text + Frame(p)) == Init(Split(text)) + [DataPrefix + p, "", ""]
  {
    var st, sf := Split(text), Split(Frame(p));
    SplitFrame(p);
    SplitAppend(text, Frame(p));
    assert Last(st) + sf[0] == DataPrefix + p;
    assert sf[1..] == ["", ""];
  }

  lemma PayloadOfFrameLine(p: string)
    requires Framable(p)
    ensures Payload(DataPrefix + p) == Some(p)
  {
    var line := DataPrefix + p;
    assert line[..|DataPrefix|] == DataPrefix;
    assert line[|DataPrefix|..] == p;
  }

  lemma PayloadsOfFrameLines(prefix: seq<string>, p: string)
    requires Framable(p)
    ensures Payloads(prefix + [DataPrefix + p, ""]) == Payloads(prefix) + [p]
  {
    var line := DataPrefix + p;
    PayloadsAppend(prefix, [line, ""]);
    PayloadOfFrameLine(p);
    assert Payload("") == None;
    var two := [line, ""];
    assert Init(two) == [line];
    assert Last(two) == "";
    assert Payloads(two) == Payloads([line]);
    assert Init([line]) == [];
    assert Payloads([line]) == [p];
  }

  /** The frames of `payloads` split into the lines `data: p`, each followed by a blank line. */
  lemma {:induction false} SplitFrameText(payloads: seq<string>)
    requires forall i :: 0 <= i < |payloads| ==> Framable(payloads[i])
    ensures Last(Split(FrameText(payloads))) == ""
    ensures Payloads(Init(Split(FrameText(payloads)))) == payloads
  {
    if |payloads| > 0 {
      var ps, p := Init(payloads), Last(payloads);
      SplitFrameText(ps);
      var text := FrameText(ps);
      var st := Split(text);
      SplitAppendFrame(text, p);
      var whole := Split(text + Frame(p));
      assert Init(whole) == Init(st) + [DataPrefix + p, ""];
      PayloadsOfFrameLines(Init(st), p);
      assert FrameText(payloads) == text + Frame(p);
      assert payloads == ps + [p];
    } else {
      assert Split("") == [""];
    }
  }

  /**
   * The server's frames survive the client's read loop: however the
   * transport cuts their text into chunks, the decoder receives exactly the
   * server's payloads, in order, and the buffer ends empty.
   */
  lemma FramesRoundTrip(payloads: seq<string>, chunks: seq<string>)
    requires forall i :: 0 <= i < |payloads| ==> Framable(payloads[i])
    requires Concat(chunks) == FrameText(payloads)
    ensures ReadAll(chunks) == (payloads, "")
  {
    ReadAllIsChunkingInvariant(chunks);
    SplitFrameText(payloads);
  }
}

=== FILE: header.dfy ===
/**
 * The header bar: the global search box and the two drop-down panels, the
 * user menu and the notifications, of which at most one is open.
 */
module Header {
  import opened Seqs

  datatype HeaderState = HeaderState(
    searchQuery: string,
    notificationCount: int,
    showUserMenu: bool,
    showNotifications: bool)

  /** The header opens with an empty search, three notifications and both panels closed. */
  const Initial: HeaderState := HeaderState("", 3, false, false)

  /** `toggleUserMenu`: flip the user menu; opening it closes the notifications. */
  function ToggleUserMenu(h: HeaderState): (r: HeaderState)
    ensures r.showUserMenu == !h.showUserMenu
    ensures r.showNotifications == (h.showNotifications && !r.showUserMenu)
    ensures r.searchQuery == h.searchQuery && r.notificationCount == h.notificationCount
  {
    var flipped := h.(showUserMenu := !h.showUserMenu);
    if flipped.showUserMenu then flipped.(showNotifications := false) else flipped
  }

  /** `toggleNotifications`: flip the notifications; opening them closes the user menu. */
  function ToggleNotifications(h: HeaderState): (r: HeaderState)
    ensures r.showNotifications == !h.showNotifications
    ensures r.showUserMenu == (h.showUserMenu && !r.showNotifications)
    ensures r.searchQuery == h.searchQuery && r.notificationCount == h.notificationCount
  {
    var flipped := h.(showNotifications := !h.showNotifications);
    if flipped.showNotifications then flipped.(showUserMenu := false) else flipped
  }

  /** `onSearch`: the typed text becomes the query and nothing else changes. */
  function OnSearch(h: HeaderState, value: string): (r: HeaderState)
    ensures r.searchQuery == value
    ensures r.(searchQuery := h.searchQuery) == h
  {
    h.(searchQuery := value)
  }

  /** At most one panel is open. */
  predicate OnePanel(h: HeaderState) {
    !(h.showUserMenu && h.showNotifications)
  }

  datatype Action = UserMenu | Notifications | Search(value: string)

  function Apply(h: HeaderState, a: Action): HeaderState {
    match a
    case UserMenu => ToggleUserMenu(h)
    case Notifications => ToggleNotifications(h)
    case Search(v) => OnSearch(h, v)
  }

  /** Each action keeps at most one panel open. */
  lemma ApplyKeepsOnePanel(h: HeaderState, a: Action)
    requires OnePanel(h)
    ensures OnePanel(Apply(h, a))
  {
  }

  /** Opening either panel always leaves the other closed, even from a state with both open. */
  lemma OpeningClosesTheOther(h: HeaderState)
    ensures ToggleUserMenu(h).showUserMenu ==> OnePanel(ToggleUserMenu(h))
    ensures ToggleNotifications(h).showNotifications ==> OnePanel(ToggleNotifications(h))
  {
  }

  /** The header after a sequence of actions from the opening state. */
  function Run(actions: seq<Action>): HeaderState {
    if |actions| == 0 then Initial else Apply(Run(Init(actions)), Last(actions))
  }

  /** From the opening state no sequence of clicks and searches opens both panels at once. */
  lemma {:induction false} RunKeepsOnePanel(actions: seq<Action>)
    ensures OnePanel(Run(actions))
    ensures Run(actions).notificationCount == 3
  {
    if |actions| > 0 {
      RunKeepsOnePanel(Init(actions));
      ApplyKeepsOnePanel(Run(Init(actions)), Last(actions));
    }
  }
}

=== FILE: json.dfy ===
/**
 * JSON values as the client and the server exchange them, with the three
 * JavaScript behaviours the event handlers rely on: property lookup on a
 * loosely typed object, truthiness (and therefore `a || b`), and the text a
 * template literal `${v}` produces. `Stringify` renders a value as compact
 * JSON text (what `JSON.stringify` and pydantic's `model_dump_json` emit).
 */
module Json {
  import opened Wrappers
  import opened Text

  /** A JSON value. Numbers are integers; fractional numbers are not modelled. */
  datatype Json =
    | JNull
    | JBool(b: bool)
    | JNum(n: int)
    | JStr(s: string)
    | JArr(items: seq<Json>)
    | JObj(fields: seq<Field>)

  /** One member of a JSON object, in the order the text lists it. */
  datatype Field = Field(key: string, value: Json)

  /** `Number.MAX_SAFE_INTEGER`: larger integers do not survive a JavaScript number exactly. */
  const MaxSafe: int := 0x1F_FFFF_FFFF_FFFF

  /** No key is listed twice, as in any Python dict or JavaScript object. */
  predicate DistinctKeys(fields: seq<Field>) {
    forall i, k :: 0 <= i < k < |fields| ==> fields[i].key != fields[k].key
  }

  /**
   * A value `JSON.parse` can give back exactly: every number is a safe
   * integer (a larger one is rounded to a double) and no object repeats a
   * key (`JSON.parse` keeps only the last binding).
   */
  predicate Exact(j: Json)
    decreases j
  {
    match j
    case JNum(n) => -MaxSafe <= n <= MaxSafe
    case JArr(items) => forall i :: 0 <= i < |items| ==> Exact(items[i])
    case JObj(fields) => DistinctKeys(fields) && forall i :: 0 <= i < |fields| ==> ExactField(fields[i])
    case _ => true
  }

  predicate ExactField(f: Field)
    decreases f
  {
    Exact(f.value)
  }

  /** The value bound to `key`; like `JSON.parse`, a repeated key keeps its last value. */
  function Lookup(fields: seq<Field>, key: string): (r: Option<Json>)
    ensures r.None? <==> forall i :: 0 <= i < |fields| ==> fields[i].key != key
  {
    if |fields| == 0 then None
    else if fields[|fields| - 1].key == key then Some(fields[|fields| - 1].value)
    else Lookup(fields[..|fields| - 1], key)
  }

  /** A key bound at position `i` and never again is looked up to that binding. */
  lemma {:induction false} LookupAt(fields: seq<Field>, i: int, key: string)
    requires 0 <= i < |fields| && fields[i].key == key
    requires forall j :: i < j < |fields| ==> fields[j].key != key
    ensures Lookup(fields, key) == Some(fields[i].value)
  {
    if i < |fields| - 1 {
      LookupAt(fields[..|fields| - 1], i, key);
    }
  }

  /** `v[key]`: a member of an object, `undefined` for any other value. */
  function Get(v: Json, key: string): Option<Json> {
    if v.JObj? then Lookup(v.fields, key) else None
  }

  /** `v?.[key]`: optional chaining, `undefined` when `v` is null or undefined. */
  function GetOpt(v: Option<Json>, key: string): Option<Json> {
    if v.Some? then Get(v.value, key) else None
  }

  /** JavaScript truthiness; `None` is `undefined`. */
  predicate Truthy(v: Option<Json>) {
    match v
    case None => false
    case Some(JNull) => false
    case Some(JBool(b)) => b
    case Some(JNum(n)) => n != 0
    case Some(JStr(s)) => s != ""
    case Some(JArr(_)) => true
    case Some(JObj(_)) => true
  }

  /** `a || b`: the left operand when it is truthy, otherwise the right one. */
  function Or(a: Option<Json>, b: Option<Json>): (r: Option<Json>)
    ensures Truthy(a) ==> r == a
    ensures !Truthy(a) ==> r == b
    ensures Truthy(r) <==> Truthy(a) || Truthy(b)
  {
    if Truthy(a) then a else b
  }

  /** `s || fallback` for a string that may be absent. */
  function OrStr(s: Option<string>, fallback: string): (r: string)
    ensures s.Some? && s.value != "" ==> r == s.value
    ensures s.None? || s.value == "" ==> r == fallback
  {
    if s.Some? && s.value != "" then s.value else fallback
  }

  /** The text `${v}` produces in a template literal. */
  function Display(v: Option<Json>): (r: string)
    ensures v.None? ==> r == "undefined"
    ensures v.Some? && v.value.JStr? ==> r == v.value.s
    ensures v.Some? && v.value.JNum? && v.value.n >= 0 ==> |r| >= 1 && AllDigits(r) && DigitsValue(r) == v.value.n
    ensures v.Some? && v.value.JNum? && v.value.n < 0 ==>
              |r| >= 2 && r[0] == '-' && AllDigits(r[1..]) && DigitsValue(r[1..]) == -v.value.n
  {
    match v
    case None => "undefined"
    case Some(j) => DisplayValue(j)
  }

  function DisplayValue(j: Json): string
    decreases j, 1
  {
    match j
    case JNull => "null"
    case JBool(b) => if b then "true" else "false"
    case JNum(n) => IntToString(n)
    case JStr(s) => s
    case JArr(items) => JoinDisplay(items)
    case JObj(_) => "[object Object]"
  }

  /** `Array.prototype.join(',')`: null elements show as the empty string. */
  function JoinDisplay(items: seq<Json>): string
    decreases items, 0
  {
    if |items| == 0 then ""
    else
      var head := if items[0].JNull? then "" else DisplayValue(items[0]);
      if |items| == 1 then head else head + "," + JoinDisplay(items[1..])
  }

  // ---------------------------------------------------------------------------
  // Compact JSON text
  // ---------------------------------------------------------------------------

  function HexDigit(d: nat): char
    requires d < 16
  {
    "0123456789abcdef"[d]
  }

  /** The escape sequence JSON text uses for one character of a string. */
  function EscapeChar(c: char): (r: string)
    ensures '\n' !in r
  {
    if c == '"' then "\\\""
    else if c == '\\' then "\\\\"
    else if c == '\U{0008}' then "\\b"
    else if c == '\U{000C}' then "\\f"
    else if c == '\n' then "\\n"
    else if c == '\r' then "\\r"
    else if c == '\t' then "\\t"
    else if c as int < 0x20 then "\\u00" + [HexDigit(c as int / 16), HexDigit(c as int % 16)]
    else [c]
  }

  function Escape(s: string): (r: string)
    ensures '\n' !in r
  {
    if |s| == 0 then "" else EscapeChar(s[0]) + Escape(s[1..])
  }

  /** A string literal in JSON text. */
  function Quote(s: string): (r: string)
    ensures '\n' !in r
    ensures |r| >= 2 && r[0] == '"'
  {
    "\"" + Escape(s) + "\""
  }

  /** Compact JSON text for `j`: no whitespace, members in their listed order. */
  function Stringify(j: Json): (r: string)
    ensures '\n' !in r
    ensures |r| > 0 && !IsSpace(r[0]) && !('A' <= r[0] <= 'Z')
    ensures j.JObj? ==> r[0] == '{'
    decreases j, 1
  {
    match j
    case JNull => "null"
    case JBool(b) => if b then "true" else "false"
    case JNum(n) => IntToString(n)
    case JStr(s) => Quote(s)
    case JArr(items) => "[" + StringifyItems(items) + "]"
    case JObj(fields) => "{" + StringifyFields(fields) + "}"
  }

  function StringifyItems(items: seq<Json>): (r: string)
    ensures '\n' !in r
    decreases items, 0
  {
    if |items| == 0 then ""
    else if |items| == 1 then Stringify(items[0])
    else Stringify(items[0]) + "," + StringifyItems(items[1..])
  }

  function StringifyFields(fields: seq<Field>): (r: string)
    ensures '\n' !in r
    decreases fields, 0
  {
    if |fields| == 0 then ""
    else
      var member := Quote(fields[0].key) + ":" + Stringify(fields[0].value);
      if |fields| == 1 then member else member + "," + StringifyFields(fields[1..])
  }
}

=== FILE: pipeline.dfy ===
/**
 * The server's event stream read by the client: however the response body
 * is cut into chunks, the client decodes exactly the events the server
 * generated, in order, and the run ends with processing stopped, the timer
 * disarmed and the analysis text equal to the agent's final text.
 */
module Pipeline {
  import opened Wrappers
  import opened Seqs
  import opened Json
  import opened Events
  import opened Framing
  import opened Reducer
  import opened Session
  import opened ServerApi

  /**
   * `JSON.parse` reads back what `Stringify` writes, for every value it can
   * represent exactly: safe integers and objects without a repeated key.
   */
  ghost predicate ParsesStringify(parse: string -> Option<Json>) {
    forall j :: Exact(j) ==> parse(Stringify(j)) == Some(j)
  }

  /** The client decodes each server payload to the event it was written from. */
  lemma {:induction false} DecodeEventTexts(parse: string -> Option<Json>, events: seq<Event>)
    requires ParsesStringify(parse)
    requires forall i :: 0 <= i < |events| ==> WellFormed(events[i]) && ExactParts(events[i])
    ensures DecodeAll(parse, EventTexts(events)) == events
  {
    if |events| > 0 {
      var texts := EventTexts(events);
      var e := Last(events);
      assert Init(texts) == EventTexts(Init(events));
      DecodeEventTexts(parse, Init(events));
      var j := EventJson(e);
      ExactEventJson(e);
      assert Last(texts) == Stringify(j);
      assert parse(Stringify(j)) == Some(j);
      DecodeEncode(e);
      assert Decode(parse, Last(texts)) == Some(e);
      assert DecodeAll(parse, texts) == DecodeAll(parse, Init(texts)) + [e];
      InitLast(events);
    }
  }

  /**
   * However the response body is cut into chunks, the read loop hands the
   * decoder exactly the payloads of the server's frames, nothing is left in
   * the buffer, and the decoded events are the generated ones.
   */
  lemma StreamDelivered(parse: string -> Option<Json>, agent: seq<AgentEvent>, failure: Option<string>,
                        clock: nat -> string, chunks: seq<string>)
    requires ParsesStringify(parse) && ExactResponses(agent)
    requires Concat(chunks) == StreamText(agent, failure, clock)
    ensures ReadAll(chunks) == (EventTexts(GenerateEvents(agent, failure, clock)), "")
    ensures DecodeAll(parse, ReadAll(chunks).0) == GenerateEvents(agent, failure, clock)
  {
    var events := GenerateEvents(agent, failure, clock);
    FramesRoundTrip(EventTexts(events), chunks);
    GeneratedExact(agent, failure, clock);
    DecodeEventTexts(parse, events);
  }

  // ---------------------------------------------------------------------------
  // The analysis text
  // ---------------------------------------------------------------------------

  /** The text the reasoning events of a run carry, in order. */
  function Narrative(events: seq<Event>): string {
    if |events| == 0 then ""
    else
      var e := Last(events);
      Narrative(Init(events)) + (if e.eventType == Reasoning && e.content.Some? then e.content.value else "")
  }

  /** The client's analysis text grows by exactly the narrative of the events it handles. */
  lemma {:induction false} ReduceAnalysis(s: State, events: seq<Event>)
    ensures Reduce(s, events).analysis == s.analysis + Narrative(events)
  {
    if |events| == 0 {
      assert s.analysis + "" == s.analysis;
    } else {
      ReduceAnalysis(s, Init(events));
      HandleTextFields(Reduce(s, Init(events)), Last(events));
    }
  }

  lemma {:induction false} NarrativeAppend(a: seq<Event>, b: seq<Event>)
    ensures Narrative(a + b) == Narrative(a) + Narrative(b)
    decreases |b|
  {
    if |b| == 0 {
      assert a + b == a;
    } else {
      assert Init(a + b) == a + Init(b) && Last(a + b) == Last(b);
      NarrativeAppend(a, Init(b));
    }
  }

  /** Events without reasoning carry no narrative. */
  lemma {:induction false} NarrativeNone(events: seq<Event>)
    requires forall i :: 0 <= i < |events| ==> events[i].eventType != Reasoning
    ensures Narrative(events) == ""
  {
    if |events| > 0 {
      NarrativeNone(Init(events));
    }
  }

  /** The reasoning events of a run of chunks carry the chunks, concatenated. */
  lemma {:induction false} NarrativeOfChunks(chunks: seq<string>, now: string)
    ensures Narrative(seq(|chunks|, k requires 0 <= k < |chunks| => SentReasoning(chunks[k], now))) == Concat(chunks)
  {
    var evs := seq(|chunks|, k requires 0 <= k < |chunks| => SentReasoning(chunks[k], now));
    if |chunks| > 0 {
      var init := Init(chunks);
      assert Init(evs) == seq(|init|, k requires 0 <= k < |init| => SentReasoning(init[k], now));
      NarrativeOfChunks(init, now);
    }
  }

  /** All the final texts of a run of agent events, in order. */
  function AgentText(agent: seq<AgentEvent>): string {
    if |agent| == 0 then "" else AgentText(Init(agent)) + Concat(Last(agent).finalTexts)
  }

  lemma {:induction false} NarrativeOfTexts(texts: seq<string>)
    ensures Narrative(TextEvents(texts)) == Concat(texts)
  {
    if |texts| > 0 {
      var chunks := ChunkText(Last(texts));
      var evs := seq(|chunks|, k requires 0 <= k < |chunks| => SentReasoning(chunks[k], Unread));
      NarrativeOfTexts(Init(texts));
      NarrativeAppend(TextEvents(Init(texts)), evs);
      NarrativeOfChunks(chunks, Unread);
      ChunksConcat(Last(texts));
    }
  }

  lemma NarrativeOfAgentEvent(a: AgentEvent)
    ensures Narrative(AgentEvents(a)) == Concat(a.finalTexts)
  {
    var texts := TextEvents(a.finalTexts);
    var tools := ToolEvents(a);
    assert AgentEvents(a) == tools + texts;
    NarrativeOfTools(a);
    NarrativeAppend(tools, texts);
    NarrativeOfTexts(a.finalTexts);
  }

  /** The calls and results an agent event sends, before its reasoning chunks. */
  function ToolEvents(a: AgentEvent): seq<Event> {
    seq(|a.calls|, i requires 0 <= i < |a.calls| => SentCall(a.calls[i], Unread))
    + seq(|a.responses|, i requires 0 <= i < |a.responses| => SentResult(a.responses[i], Unread))
  }

  lemma NarrativeOfTools(a: AgentEvent)
    ensures Narrative(ToolEvents(a)) == ""
  {
    var calls := seq(|a.calls|, i requires 0 <= i < |a.calls| => SentCall(a.calls[i], Unread));
    var results := seq(|a.responses|, i requires 0 <= i < |a.responses| => SentResult(a.responses[i], Unread));
    NarrativeNone(calls);
    NarrativeNone(results);
    NarrativeAppend(calls, results);
  }

  lemma {:induction false} NarrativeOfRun(agent: seq<AgentEvent>)
    ensures Narrative(RunEvents(agent)) == AgentText(agent)
  {
    if |agent| > 0 {
      NarrativeOfRun(Init(agent));
      NarrativeAppend(RunEvents(Init(agent)), AgentEvents(Last(agent)));
      NarrativeOfAgentEvent(Last(agent));
    }
  }

  /** The clock readings carry no narrative. */
  lemma {:induction false} NarrativeOfStamp(events: seq<Event>, clock: nat -> string)
    ensures Narrative(Stamp(events, clock)) == Narrative(events)
  {
    if |events| > 0 {
      assert Init(Stamp(events, clock)) == Stamp(Init(events), clock);
      NarrativeOfStamp(Init(events), clock);
    }
  }

  /** The generated stream narrates exactly the agent's final text. */
  lemma NarrativeOfStream(agent: seq<AgentEvent>, failure: Option<string>, clock: nat -> string)
    ensures Narrative(GenerateEvents(agent, failure, clock)) == AgentText(agent)
  {
    NarrativeOfUnstamped(agent, failure);
    NarrativeOfStamp(UnstampedEvents(agent, failure), clock);
  }

  lemma NarrativeOfUnstamped(agent: seq<AgentEvent>, failure: Option<string>)
    ensures Narrative(UnstampedEvents(agent, failure)) == AgentText(agent)
  {
    var last := if failure.Some? then SentError(failure.value, Unread) else SentComplete(Unread);
    var run := RunEvents(agent);
    var start := [SentStart(Unread)];
    assert UnstampedEvents(agent, failure) == start + run + [last];
    NarrativeAppend(start, run);
    NarrativeAppend(start + run, [last]);
    NarrativeNone(start);
    NarrativeNone([last]);
    NarrativeOfRun(agent);
  }

  // ---------------------------------------------------------------------------
  // The end of a run
  // ---------------------------------------------------------------------------

  /** No event of the run but the last one sets the error. */
  lemma {:induction false} ReduceKeepsError(s: State, events: seq<Event>)
    requires forall i :: 0 <= i < |events| ==> events[i].eventType != Error
    ensures Reduce(s, events).error == s.error
  {
    if |events| > 0 {
      ReduceKeepsError(s, Init(events));
      HandleTextFields(Reduce(s, Init(events)), Last(events));
    }
  }

  /**
   * A run over a fully delivered server stream: the client ends with
   * processing stopped and the timer disarmed, its analysis text is the
   * agent's final text, and either the run completed (confidence 89, stage
   * `draft_generation`, every criterion completed, no error) or it failed
   * with the server's message (or `Unknown error` for an empty one).
   */
  lemma ServerRunOutcome(parse: string -> Option<Json>, s0: State, criteria: CriteriaResponse,
                         agent: seq<AgentEvent>, failure: Option<string>, clock: nat -> string, chunks: seq<string>)
    requires ParsesStringify(parse) && ExactResponses(agent)
    requires Concat(chunks) == StreamText(agent, failure, clock)
    ensures var r := RunResult(parse, s0, criteria, Streamed(chunks, None));
            && r == Reduce(Started(s0, criteria), GenerateEvents(agent, failure, clock))
            && !r.processing && !r.clock.armed
            && r.analysis == AgentText(agent)
            && (failure.None? ==>
                  && r.error.None? && r.confidence == 89 && r.stage == "draft_generation"
                  && |r.criteria| == |LoadCriteria(criteria)|
                  && forall i :: 0 <= i < |r.criteria| ==> r.criteria[i].status == Completed)
            && (failure.Some? ==> r.error == Some(if failure.value == "" then "Unknown error" else failure.value))
  {
    RunIsReduce(parse, s0, criteria, agent, failure, clock, chunks);
    StreamOutcome(Started(s0, criteria), agent, failure, clock);
  }

  /** The state the run ends in is the generated events handled in order. */
  lemma RunIsReduce(parse: string -> Option<Json>, s0: State, criteria: CriteriaResponse,
                    agent: seq<AgentEvent>, failure: Option<string>, clock: nat -> string, chunks: seq<string>)
    requires ParsesStringify(parse) && ExactResponses(agent)
    requires Concat(chunks) == StreamText(agent, failure, clock)
    ensures RunResult(parse, s0, criteria, Streamed(chunks, None))
            == Reduce(Started(s0, criteria), GenerateEvents(agent, failure, clock))
  {
    StreamedRunIsReduce(parse, s0, criteria, chunks);
    StreamDelivered(parse, agent, failure, clock, chunks);
  }

  /** A stream that ends without a transport failure is its decoded payloads handled in order. */
  lemma StreamedRunIsReduce(parse: string -> Option<Json>, s0: State, criteria: CriteriaResponse, chunks: seq<string>)
    ensures RunResult(parse, s0, criteria, Streamed(chunks, None))
            == Reduce(Started(s0, criteria), DecodeAll(parse, ReadAll(chunks).0))
  {
  }

  /** What handling the generated events does to a freshly started state. */
  lemma StreamOutcome(s: State, agent: seq<AgentEvent>, failure: Option<string>, clock: nat -> string)
    requires s.analysis == "" && s.error.None?
    ensures var r := Reduce(s, GenerateEvents(agent, failure, clock));
            && !r.processing && !r.clock.armed
            && r.analysis == AgentText(agent)
            && (failure.None? ==>
                  && r.error.None? && r.confidence == 89 && r.stage == "draft_generation"
                  && |r.criteria| == |s.criteria|
                  && forall i :: 0 <= i < |r.criteria| ==> r.criteria[i].status == Completed)
            && (failure.Some? ==> r.error == Some(if failure.value == "" then "Unknown error" else failure.value))
  {
    var events := GenerateEvents(agent, failure, clock);
    var r := Reduce(s, events);
    ReduceAnalysis(s, events);
    NarrativeOfStream(agent, failure, clock);
    assert s.analysis + AgentText(agent) == AgentText(agent);
    var mid := Reduce(s, Init(events));
    assert r == Handle(mid, Last(events));
    ReduceKeepsError(s, Init(events));
    ReduceKeepsCriteriaCount(s, Init(events));
    if failure.None? {
      CompleteEvent(mid, Last(events));
    } else {
      ErrorEvent(mid, Last(events));
    }
  }

  /** The handlers never add or remove criteria. */
  lemma {:induction false} ReduceKeepsCriteriaCount(s: State, events: seq<Event>)
    ensures |Reduce(s, events).criteria| == |s.criteria|
  {
    if |events| > 0 {
      ReduceKeepsCriteriaCount(s, Init(events));
      HandleKeepsCriteriaCount(Reduce(s, Init(events)), Last(events));
    }
  }

  lemma HandleKeepsCriteriaCount(s: State, e: Event)
    ensures |Handle(s, e).criteria| == |s.criteria|
  {
    match e.eventType
    case ToolCall =>
      var s1 := s.(criteria := UpdateCriteria(s.criteria, ToolOf(e), InProgress, None));
      assert |s1.criteria| == |s.criteria|;
    case ToolResult =>
      var s1 := s.(criteria := UpdateCriteria(s.criteria, ToolOf(e), Completed, e.toolResult));
      assert |s1.criteria| == |s.criteria|;
    case _ =>
  }
}

=== FILE: reducer.dfy ===
/**
 * The client's adjudication state and the event handlers that update it:
 * the current stage, the criteria checklist, the append-only reasoning log
 * with its `step_N` counter, the final confidence, the streamed analysis text
 * and the error message. `Handle` is the service's `handleEvent`; the
 * handlers are pure functions from the state before an event to the state
 * after it.
 */
module Reducer {
  import opened Wrappers
  import opened Text
  import opened Seqs
  import opened Json
  import opened Events
  import opened Timer

  datatype Status = Pending | InProgress | Completed

  /** One item of the criteria checklist. */
  datatype Criterion = Criterion(
    id: string,
    name: string,
    description: Option<string>,
    status: Status,
    confidence: Option<Json>)

  datatype StepKind = Evaluating | Evidence | Policy | Assessment | ToolStep

  /** A reasoning step before the service numbers it. */
  datatype Draft = Draft(
    kind: StepKind,
    content: string,
    timestamp: string,
    toolName: Option<string>,
    toolResult: Option<Json>,
    confidence: Option<Json>)

  datatype Step = Step(id: string, draft: Draft)

  /** The service's signals, its step counter and its timer. */
  datatype State = State(
    processing: bool,
    stage: string,
    steps: seq<Step>,
    criteria: seq<Criterion>,
    error: Option<string>,
    confidence: int,
    analysis: string,
    counter: nat,
    clock: Clock)

  /** The five processing stages, in pipeline order. */
  const Stages: seq<string> :=
    ["form_validation", "evidence_review", "policy_matching", "risk_assessment", "draft_generation"]

  /** The state of a freshly constructed service. */
  const Initial: State := State(false, "form_validation", [], [], None, 0, "", 0, Idle)

  /** `currentStageIndex`: the position of the current stage, -1 for a stage the client does not know. */
  function StageIndex(stage: string): (r: int)
    ensures -1 <= r < |Stages|
    ensures r == -1 <==> stage !in Stages
    ensures r >= 0 ==> Stages[r] == stage
  {
    if stage == Stages[0] then 0
    else if stage == Stages[1] then 1
    else if stage == Stages[2] then 2
    else if stage == Stages[3] then 3
    else if stage == Stages[4] then 4
    else -1
  }

  // ---------------------------------------------------------------------------
  // The reasoning log
  // ---------------------------------------------------------------------------

  /** The id the service gives the `k`-th step since the last reset. */
  function StepId(k: nat): string {
    "step_" + NatToString(k)
  }

  lemma StepIdInjective(a: nat, b: nat)
    requires StepId(a) == StepId(b)
    ensures a == b
  {
    assert StepId(a)[5..] == NatToString(a);
    assert StepId(b)[5..] == NatToString(b);
    NatToStringInjective(a, b);
  }

  /** The counter counts the steps, and the `k`-th step is `step_k`. */
  predicate IdsInvariant(s: State) {
    && |s.steps| == s.counter
    && forall i :: 0 <= i < |s.steps| ==> s.steps[i].id == StepId(i + 1)
  }

  /** Under the invariant no two steps share an id. */
  lemma IdsDistinct(s: State, i: int, j: int)
    requires IdsInvariant(s)
    requires 0 <= i < j < |s.steps|
    ensures s.steps[i].id != s.steps[j].id
  {
    if s.steps[i].id == s.steps[j].id {
      StepIdInjective(i + 1, j + 1);
    }
  }

  /** `addReasoningStep`: the counter is incremented and the step is appended under the new number. */
  function AddStep(s: State, d: Draft): (r: State)
    ensures r.counter == s.counter + 1
    ensures |r.steps| == |s.steps| + 1 && r.steps[..|s.steps|] == s.steps
    ensures r.steps[|s.steps|] == Step(StepId(r.counter), d)
    ensures r.(steps := s.steps, counter := s.counter) == s
  {
    var k := s.counter + 1;
    s.(steps := s.steps + [Step(StepId(k), d)], counter := k)
  }

  lemma AddStepKeepsIds(s: State, d: Draft)
    requires IdsInvariant(s)
    ensures IdsInvariant(AddStep(s, d))
  {
  }

  /** The drafts `ds` numbered from `k + 1` on. */
  function Numbered(k: nat, ds: seq<Draft>): (r: seq<Step>)
    ensures |r| == |ds|
    ensures forall i :: 0 <= i < |ds| ==> r[i] == Step(StepId(k + 1 + i), ds[i])
  {
    seq(|ds|, i requires 0 <= i < |ds| => Step(StepId(k + 1 + i), ds[i]))
  }

  /** Several `addReasoningStep` calls in a row. */
  function AddSteps(s: State, ds: seq<Draft>): (r: State)
    ensures r == s.(steps := s.steps + Numbered(s.counter, ds), counter := s.counter + |ds|)
  {
    if |ds| == 0 then
      assert s.steps + Numbered(s.counter, ds) == s.steps;
      s
    else
      var mid := AddSteps(s, Init(ds));
      var r := AddStep(mid, Last(ds));
      assert r.steps == s.steps + Numbered(s.counter, ds) by {
        assert mid.steps == s.steps + Numbered(s.counter, Init(ds));
        assert forall i :: 0 <= i < |ds| - 1 ==> Init(ds)[i] == ds[i];
      }
      r
  }

  lemma AddStepsKeepsIds(s: State, ds: seq<Draft>)
    requires IdsInvariant(s)
    ensures IdsInvariant(AddSteps(s, ds))
  {
    var r := AddSteps(s, ds);
    var added := Numbered(s.counter, ds);
    assert r.steps == s.steps + added;
    forall i | 0 <= i < |r.steps|
      ensures r.steps[i].id == StepId(i + 1)
    {
      if i < |s.steps| {
        assert r.steps[i] == s.steps[i];
      } else {
        assert r.steps[i] == added[i - |s.steps|];
      }
    }
  }

  // ---------------------------------------------------------------------------
  // Criteria
  // ---------------------------------------------------------------------------

  /** The six tools the client knows by name: its criteria table and its result formatter list the same six. */
  datatype KnownTool =
    | PetitionForm
    | SpecialtyOccupation
    | BeneficiaryQualifications
    | EmployerEmployee
    | LcaCompliance
    | AdjudicationDraft

  /** The wire name of a known tool. */
  function ToolName(k: KnownTool): string {
    match k
    case PetitionForm => "analyze_petition_form"
    case SpecialtyOccupation => "evaluate_specialty_occupation"
    case BeneficiaryQualifications => "check_beneficiary_qualifications"
    case EmployerEmployee => "verify_employer_employee_relationship"
    case LcaCompliance => "check_lca_compliance"
    case AdjudicationDraft => "generate_adjudication_draft"
  }

  /** The known tool a name denotes, if any. */
  function ToolNamed(tool: string): (r: Option<KnownTool>)
    ensures r.Some? ==> ToolName(r.value) == tool
  {
    if tool == "analyze_petition_form" then Some(PetitionForm)
    else if tool == "evaluate_specialty_occupation" then Some(SpecialtyOccupation)
    else if tool == "check_beneficiary_qualifications" then Some(BeneficiaryQualifications)
    else if tool == "verify_employer_employee_relationship" then Some(EmployerEmployee)
    else if tool == "check_lca_compliance" then Some(LcaCompliance)
    else if tool == "generate_adjudication_draft" then Some(AdjudicationDraft)
    else None
  }

  /** Every known tool is recognized by its own name. */
  lemma ToolNameRoundTrip(k: KnownTool)
    ensures ToolNamed(ToolName(k)) == Some(k)
  {
  }

  /** `toolToCriteria`: the checklist item a tool reports on. */
  function CriterionFor(tool: string): (r: Option<string>)
    ensures r.Some? <==> ToolNamed(tool).Some?
    ensures r.Some? ==> r.value in ["1", "2", "3", "4", "6"]
  {
    match ToolNamed(tool)
    case None => None
    case Some(k) =>
      Some(match k
           case PetitionForm => "1"
           case SpecialtyOccupation => "1"
           case BeneficiaryQualifications => "2"
           case EmployerEmployee => "3"
           case LcaCompliance => "4"
           case AdjudicationDraft => "6")
  }

  /** No tool reports on criterion '5' (Prevailing Wage): it can only be completed by `complete`. */
  lemma NoToolForCriterionFive(tool: string)
    ensures CriterionFor(tool) != Some("5")
  {
  }

  /**
   * `result['confidence_score'] || result['confidence']` when a result is
   * present: a score of 0 (or any falsy value) falls through to the second key.
   */
  function ScoreOf(result: Option<Json>): (r: Option<Json>)
    ensures !Truthy(result) ==> r.None?
    ensures Truthy(result) && Truthy(GetOpt(result, "confidence_score")) ==> r == GetOpt(result, "confidence_score")
    ensures Truthy(result) && !Truthy(GetOpt(result, "confidence_score")) ==> r == GetOpt(result, "confidence")
  {
    if Truthy(result) then Or(GetOpt(result, "confidence_score"), GetOpt(result, "confidence")) else None
  }

  /**
   * `updateCriteriaFromTool`: the criterion the tool maps to takes the new
   * status and the result's score; every other criterion is untouched.
   */
  function UpdateCriteria(cs: seq<Criterion>, tool: string, status: Status, result: Option<Json>): (r: seq<Criterion>)
    ensures |r| == |cs|
    ensures CriterionFor(tool).None? ==> r == cs
    ensures forall i :: 0 <= i < |cs| && Some(cs[i].id) != CriterionFor(tool) ==> r[i] == cs[i]
    ensures forall i :: 0 <= i < |cs| && Some(cs[i].id) == CriterionFor(tool) ==>
              && r[i].status == status && r[i].confidence == ScoreOf(result)
              && r[i].(status := cs[i].status, confidence := cs[i].confidence) == cs[i]
  {
    match CriterionFor(tool)
    case None => cs
    case Some(id) =>
      seq(|cs|, i requires 0 <= i < |cs| =>
        if cs[i].id == id then cs[i].(status := status, confidence := ScoreOf(result)) else cs[i])
  }

  /** `criteria.map(c => ({ ...c, status: 'completed' }))` */
  function CompleteAll(cs: seq<Criterion>): (r: seq<Criterion>)
    ensures |r| == |cs|
    ensures forall i :: 0 <= i < |cs| ==> r[i].status == Completed && r[i].(status := cs[i].status) == cs[i]
  {
    seq(|cs|, i requires 0 <= i < |cs| => cs[i].(status := Completed))
  }

  // ---------------------------------------------------------------------------
  // Display of tool names and results
  // ---------------------------------------------------------------------------

  /** A character matched by the regular-expression class `\w`. */
  predicate IsWordChar(c: char) {
    ('a' <= c <= 'z') || ('A' <= c <= 'Z') || ('0' <= c <= '9') || c == '_'
  }

  /** Position `i` of `u` matches `\b\w`: a word character not preceded by one. */
  predicate StartsWord(u: string, i: int)
    requires 0 <= i < |u|
  {
    IsWordChar(u[i]) && (i == 0 || !IsWordChar(u[i - 1]))
  }

  /** `t.replace(/_/g, ' ')` */
  function Unsnake(t: string): (r: string)
    ensures |r| == |t| && '_' !in r
    ensures forall i :: 0 <= i < |t| && t[i] != '_' ==> r[i] == t[i]
    ensures forall i :: 0 <= i < |t| ==> (r[i] == ' ' <==> t[i] == ' ' || t[i] == '_')
  {
    seq(|t|, i requires 0 <= i < |t| => if t[i] == '_' then ' ' else t[i])
  }

  /** `u.replace(/\b\w/g, l => l.toUpperCase())` */
  function CapitalizeWords(u: string): (r: string)
    ensures |r| == |u|
    ensures forall i :: 0 <= i < |u| ==> r[i] == (if StartsWord(u, i) then UpperChar(u[i]) else u[i])
  {
    seq(|u|, i requires 0 <= i < |u| => if StartsWord(u, i) then UpperChar(u[i]) else u[i])
  }

  /**
   * What the capitalization does: the letters stay the same up to case, no
   * word starts in lower case, and nothing off a word start changes.
   */
  lemma CapitalizeWordsKeepsLetters(u: string)
    ensures |CapitalizeWords(u)| == |u|
    ensures forall i :: 0 <= i < |u| ==> LowerChar(CapitalizeWords(u)[i]) == LowerChar(u[i])
    ensures forall i :: 0 <= i < |u| && StartsWord(u, i) ==> !('a' <= CapitalizeWords(u)[i] <= 'z')
    ensures forall i :: 0 <= i < |u| && !StartsWord(u, i) ==> CapitalizeWords(u)[i] == u[i]
  {
  }

  /** `formatToolName`: underscores become spaces and every word starts with a capital. */
  function FormatToolName(tool: string): (r: string)
    ensures |r| == |tool| && '_' !in r
    ensures forall i :: 0 <= i < |r| ==> LowerChar(r[i]) == LowerChar(Unsnake(tool)[i])
    ensures forall i :: 0 <= i < |r| && StartsWord(r, i) ==> !('a' <= r[i] <= 'z')
  {
    var u := Unsnake(tool);
    var r := CapitalizeWords(u);
    assert forall i :: 0 <= i < |u| ==> IsWordChar(r[i]) == IsWordChar(u[i]);
    assert forall i :: 0 <= i < |u| ==> StartsWord(r, i) == StartsWord(u, i);
    r
  }

  /** Formatting a formatted name changes nothing. */
  lemma FormatToolNameIdempotent(tool: string)
    ensures FormatToolName(FormatToolName(tool)) == FormatToolName(tool)
  {
    var r := FormatToolName(tool);
    var u := Unsnake(r);
    assert u == r;
    var rr := CapitalizeWords(u);
    assert forall i :: 0 <= i < |r| ==> rr[i] == r[i];
  }

  /** A word of a snake-case tool name: lower-case letters and digits. */
  predicate IsSnakeWord(w: string) {
    |w| > 0 && forall i :: 0 <= i < |w| ==> ('a' <= w[i] <= 'z') || ('0' <= w[i] <= '9')
  }

  /** The word with its first letter in upper case. */
  function Capitalized(w: string): string
    requires |w| > 0
  {
    [UpperChar(w[0])] + w[1..]
  }

  /** A single word is capitalized. */
  lemma FormatWord(w: string)
    requires IsSnakeWord(w)
    ensures FormatToolName(w) == Capitalized(w)
  {
    var u := Unsnake(w);
    assert u == w;
    assert forall i :: 0 < i < |w| ==> !StartsWord(w, i);
  }

  /** The first word of a snake-case name is capitalized and its underscore becomes a space. */
  lemma FormatWordThenRest(w: string, rest: string)
    requires IsSnakeWord(w)
    ensures FormatToolName(w + "_" + rest) == Capitalized(w) + " " + FormatToolName(rest)
  {
    var t := w + "_" + rest;
    var n := |w| + 1;
    var u, ur := Unsnake(t), Unsnake(rest);
    assert u == w + " " + ur by {
      assert forall i :: 0 <= i < |w| ==> t[i] == w[i];
      assert forall i :: n <= i < |t| ==> t[i] == rest[i - n];
    }
    var c, cr := CapitalizeWords(u), CapitalizeWords(ur);
    assert FormatToolName(t) == c;
    assert FormatToolName(rest) == cr;
    CapitalizeWordsSplit(w, ur);
  }

  lemma CapitalizeWordsSplit(w: string, ur: string)
    requires IsSnakeWord(w)
    ensures CapitalizeWords(w + " " + ur) == Capitalized(w) + " " + CapitalizeWords(ur)
  {
    var u := w + " " + ur;
    var n := |w| + 1;
    var c, cr := CapitalizeWords(u), CapitalizeWords(ur);
    var expected := Capitalized(w) + " " + cr;
    assert |c| == |expected|;
    forall i | 0 <= i < |w|
      ensures c[i] == expected[i]
    {
      CapitalizeFirstWord(w, ur, i);
    }
    CapitalizeSeparator(w, ur);
    assert c[|w|] == expected[|w|];
    forall i | n <= i < |u|
      ensures c[i] == expected[i]
    {
      CapitalizeShifted(u, ur, n, i);
      assert expected[i] == cr[i - n];
    }
  }

  /** The space after the leading word is kept. */
  lemma CapitalizeSeparator(w: string, ur: string)
    ensures CapitalizeWords(w + " " + ur)[|w|] == ' '
  {
    var u := w + " " + ur;
    assert u[|w|] == ' ' && !StartsWord(u, |w|);
  }

  /** Inside the leading word only its first letter is raised. */
  lemma CapitalizeFirstWord(w: string, ur: string, i: int)
    requires IsSnakeWord(w) && 0 <= i < |w|
    ensures CapitalizeWords(w + " " + ur)[i] == (Capitalized(w) + " " + CapitalizeWords(ur))[i]
  {
    var u := w + " " + ur;
    var cw := Capitalized(w);
    assert (cw + " " + CapitalizeWords(ur))[i] == cw[i];
    assert u[i] == w[i] && IsWordChar(w[i]);
    if i > 0 {
      assert u[i - 1] == w[i - 1] && IsWordChar(w[i - 1]);
      assert !StartsWord(u, i);
      assert cw[i] == w[i];
    } else {
      assert StartsWord(u, 0);
      assert cw[0] == UpperChar(w[0]);
    }
  }

  /** Past a non-word character, `\b\w` matches in the suffix exactly where it matches in the whole. */
  lemma CapitalizeShifted(u: string, ur: string, n: int, i: int)
    requires 0 < n <= i < |u| && u[n..] == ur && !IsWordChar(u[n - 1])
    ensures CapitalizeWords(u)[i] == CapitalizeWords(ur)[i - n]
  {
    assert u[i] == ur[i - n];
    if i > n {
      assert u[i - 1] == ur[i - n - 1];
    }
    assert StartsWord(u, i) == StartsWord(ur, i - n);
  }

  /** One position of `CapitalizeWords`: raised at a word start, kept elsewhere. */
  lemma CapitalizeAt(u: string, i: int)
    requires 0 <= i < |u|
    ensures CapitalizeWords(u)[i] == if StartsWord(u, i) then UpperChar(u[i]) else u[i]
  {
  }

  /** `result[key]` shown in a template literal. */
  function Shown(result: Json, key: string): string {
    Display(Get(result, key))
  }

  /** The one-line summary `formatToolResult` gives for a known tool; each starts with a capital letter. */
  function Summary(k: KnownTool, result: Json): (r: string)
    ensures |r| > 0 && 'A' <= r[0] <= 'Z'
  {
    match k
    case PetitionForm =>
      "Form validation: " + Shown(result, "validation_status")
      + " (" + Shown(result, "completeness_score") + "% complete)"
    case SpecialtyOccupation =>
      "Specialty occupation: " + Shown(result, "overall_determination")
      + " (" + Shown(result, "confidence_score") + "% confidence)"
    case BeneficiaryQualifications =>
      "Beneficiary qualifications: " + Shown(result, "overall_qualification")
      + " (" + Shown(result, "confidence_score") + "% confidence)"
    case EmployerEmployee =>
      "Employer-employee relationship: " + Shown(result, "determination")
      + " (" + Shown(result, "confidence_score") + "% confidence)"
    case LcaCompliance =>
      "LCA compliance: " + Shown(result, "overall_status")
      + " (" + Shown(result, "confidence_score") + "% confidence)"
    case AdjudicationDraft =>
      "Draft recommendation: "
      + Display(Or(GetOpt(Get(result, "draft_decision"), "summary"), Get(result, "recommendation")))
  }

  /**
   * `formatToolResult`: the summary for a known tool, the JSON text of the
   * result otherwise. JSON text never starts with a capital letter, so the
   * raw JSON appears exactly for the tools that report on no criterion.
   */
  function FormatToolResult(tool: string, result: Json): (r: string)
    ensures r == Stringify(result) <==> CriterionFor(tool).None?
  {
    match ToolNamed(tool)
    case Some(k) => Summary(k, result)
    case None => Stringify(result)
  }

  // ---------------------------------------------------------------------------
  // Event handlers
  // ---------------------------------------------------------------------------

  /** The text of the step a stage change adds when the event carries none. */
  function StartingText(stage: string): string {
    "Starting " + ReplaceFirst(stage, '_', ' ') + "..."
  }

  /** `handleStageEvent` */
  function OnStage(s: State, e: Event): State {
    if e.stage.Some? && e.stage.value != "" then
      var stage := e.stage.value;
      AddStep(s.(stage := stage),
              Draft(Evaluating, OrStr(e.content, StartingText(stage)), e.timestamp, None, None, None))
    else s
  }

  /** `event.tool_name || 'unknown'` */
  function ToolOf(e: Event): string {
    OrStr(e.toolName, "unknown")
  }

  /** `handleToolCallEvent` */
  function OnToolCall(s: State, e: Event): State {
    var tool := ToolOf(e);
    var s1 := s.(criteria := UpdateCriteria(s.criteria, tool, InProgress, None));
    AddStep(s1, Draft(ToolStep, "Executing: " + FormatToolName(tool), e.timestamp, Some(tool), None, None))
  }

  /** `policy_reference || legal_standard` */
  function PolicyOf(result: Json): Option<Json> {
    Or(Get(result, "policy_reference"), Get(result, "legal_standard"))
  }

  /** The first truthy one of the four determination keys. */
  function DeterminationOf(result: Json): Option<Json> {
    Or(Or(Or(Get(result, "overall_determination"), Get(result, "determination")),
          Get(result, "overall_status")),
       Get(result, "overall_qualification"))
  }

  /** The drafts a `tool_result` with result `result` appends: evidence, policy reference, assessment. */
  function ResultDrafts(tool: string, result: Option<Json>, timestamp: string): (ds: seq<Draft>)
    requires Truthy(result)
  {
    var score := ScoreOf(result);
    var evidence := Draft(Evidence, FormatToolResult(tool, result.value), timestamp, Some(tool), result, score);
    var policy := PolicyOf(result.value);
    var determination := DeterminationOf(result.value);
    [evidence]
    + (if Truthy(policy)
       then [Draft(Policy, "Policy reference: " + Display(policy), timestamp, None, None, None)]
       else [])
    + (if Truthy(determination)
       then [Draft(Assessment, "Assessment: " + Display(determination), timestamp, None, None, score)]
       else [])
  }

  /**
   * The result's drafts, in order: evidence with the result and its score;
   * a policy reference exactly when one is present; an assessment with the
   * same score exactly when a determination is present.
   */
  lemma ResultDraftsCount(tool: string, result: Option<Json>, timestamp: string)
    requires Truthy(result)
    ensures var ds := ResultDrafts(tool, result, timestamp);
            var policy := Truthy(PolicyOf(result.value));
            var determination := Truthy(DeterminationOf(result.value));
            && |ds| == 1 + (if policy then 1 else 0) + (if determination then 1 else 0)
            && ds[0].kind == Evidence && ds[0].confidence == ScoreOf(result) && ds[0].toolResult == result
            && ds[0].content == FormatToolResult(tool, result.value)
            && (policy ==> ds[1].kind == Policy)
            && (determination ==> Last(ds).kind == Assessment && Last(ds).confidence == ScoreOf(result))
            && (policy && !determination ==> Last(ds).kind == Policy)
  {
  }

  /**
   * `handleToolResultEvent`: the mapped criterion is completed, and when a
   * result is present its evidence, policy and assessment steps are added
   * one after another.
   */
  function OnToolResult(s: State, e: Event): State {
    var tool := ToolOf(e);
    var s1 := s.(criteria := UpdateCriteria(s.criteria, tool, Completed, e.toolResult));
    if !Truthy(e.toolResult) then s1 else AddSteps(s1, ResultDrafts(tool, e.toolResult, e.timestamp))
  }

  /** `handleReasoningEvent` */
  function OnReasoning(s: State, e: Event): State {
    if e.content.Some? && e.content.value != "" then s.(analysis := s.analysis + e.content.value) else s
  }

  /** `event.confidence` as the step records it. */
  function ConfidenceJson(c: Option<int>): Option<Json> {
    if c.Some? then Some(JNum(c.value)) else None
  }

  /** `handleCompleteEvent` */
  function OnComplete(s: State, e: Event): State {
    var s1 := s.(
      processing := false,
      confidence := if e.confidence.Some? && e.confidence.value != 0 then e.confidence.value else 0,
      stage := "draft_generation",
      clock := Stop(s.clock),
      criteria := CompleteAll(s.criteria));
    AddStep(s1, Draft(Assessment, OrStr(e.content, "Analysis complete"), e.timestamp, None, None,
                      ConfidenceJson(e.confidence)))
  }

  /** The `error` case of `handleEvent`. */
  function OnError(s: State, e: Event): State {
    s.(error := Some(OrStr(e.content, "Unknown error")), processing := false, clock := Stop(s.clock))
  }

  /** `handleEvent`: dispatch on the event type; unknown types change nothing. */
  function Handle(s: State, e: Event): (r: State)
    ensures e.eventType.Unrecognized? ==> r == s
    ensures |r.criteria| == |s.criteria|
  {
    match e.eventType
    case Stage => OnStage(s, e)
    case ToolCall => OnToolCall(s, e)
    case ToolResult => OnToolResult(s, e)
    case Reasoning => OnReasoning(s, e)
    case Complete => OnComplete(s, e)
    case Error => OnError(s, e)
    case Unrecognized(_) => s
  }

  /** The events of a run handled in order. */
  function Reduce(s: State, events: seq<Event>): State {
    if |events| == 0 then s else Handle(Reduce(s, Init(events)), Last(events))
  }

  /** `reset`: everything but the criteria returns to its initial value and the timer is disarmed. */
  function Reset(s: State): (r: State)
    ensures r == Initial.(criteria := s.criteria, clock := Clock(false, s.clock.leaked, 0))
  {
    State(false, "form_validation", [], s.criteria, None, 0, "", 0, Stop(s.clock).(elapsed := 0))
  }

  // ---------------------------------------------------------------------------
  // Properties of the handlers
  // ---------------------------------------------------------------------------

  /** The number of steps an event adds, read off the event alone. */
  function StepsFor(e: Event): nat {
    match e.eventType
    case Stage => if e.stage.Some? && e.stage.value != "" then 1 else 0
    case ToolCall => 1
    case ToolResult =>
      if !Truthy(e.toolResult) then 0
      else 1 + (if Truthy(PolicyOf(e.toolResult.value)) then 1 else 0)
             + (if Truthy(DeterminationOf(e.toolResult.value)) then 1 else 0)
    case Complete => 1
    case _ => 0
  }

  /**
   * Every event appends exactly `StepsFor(e)` steps and rewrites none: the
   * log before the event is a prefix of the log after it, the counter
   * advances by the same amount and the ids stay `step_1`, `step_2`, ….
   */
  lemma HandleAppends(s: State, e: Event)
    ensures |Handle(s, e).steps| == |s.steps| + StepsFor(e)
    ensures Handle(s, e).counter == s.counter + StepsFor(e)
    ensures Handle(s, e).steps[..|s.steps|] == s.steps
    ensures IdsInvariant(s) ==> IdsInvariant(Handle(s, e))
  {
    match e.eventType
    case Stage =>
      StageAppends(s, e);
    case ToolCall =>
      ToolCallAppends(s, e);
    case ToolResult =>
      ToolResultAppends(s, e);
    case Complete =>
      CompleteAppends(s, e);
    case Reasoning =>
    case Error =>
    case Unrecognized(_) =>
  }

  lemma StageAppends(s: State, e: Event)
    ensures |OnStage(s, e).steps| == |s.steps| + (if e.stage.Some? && e.stage.value != "" then 1 else 0)
    ensures OnStage(s, e).counter == |OnStage(s, e).steps| - |s.steps| + s.counter
    ensures OnStage(s, e).steps[..|s.steps|] == s.steps
    ensures IdsInvariant(s) ==> IdsInvariant(OnStage(s, e))
  {
    if e.stage.Some? && e.stage.value != "" {
      var stage := e.stage.value;
      var d := Draft(Evaluating, OrStr(e.content, StartingText(stage)), e.timestamp, None, None, None);
      assert OnStage(s, e) == AddStep(s.(stage := stage), d);
      if IdsInvariant(s) {
        AddStepKeepsIds(s.(stage := stage), d);
      }
    }
  }

  lemma ToolCallAppends(s: State, e: Event)
    ensures |OnToolCall(s, e).steps| == |s.steps| + 1
    ensures OnToolCall(s, e).counter == s.counter + 1
    ensures OnToolCall(s, e).steps[..|s.steps|] == s.steps
    ensures IdsInvariant(s) ==> IdsInvariant(OnToolCall(s, e))
  {
    var tool := ToolOf(e);
    var s1 := s.(criteria := UpdateCriteria(s.criteria, tool, InProgress, None));
    var d := Draft(ToolStep, "Executing: " + FormatToolName(tool), e.timestamp, Some(tool), None, None);
    assert OnToolCall(s, e) == AddStep(s1, d);
    if IdsInvariant(s) {
      AddStepKeepsIds(s1, d);
    }
  }

  lemma CompleteAppends(s: State, e: Event)
    requires e.eventType == Complete
    ensures |OnComplete(s, e).steps| == |s.steps| + 1
    ensures OnComplete(s, e).counter == s.counter + 1
    ensures OnComplete(s, e).steps[..|s.steps|] == s.steps
    ensures IdsInvariant(s) ==> IdsInvariant(OnComplete(s, e))
  {
    var s1 := s.(
      processing := false,
      confidence := if e.confidence.Some? && e.confidence.value != 0 then e.confidence.value else 0,
      stage := "draft_generation",
      clock := Stop(s.clock),
      criteria := CompleteAll(s.criteria));
    var d := Draft(Assessment, OrStr(e.content, "Analysis complete"), e.timestamp, None, None,
                   ConfidenceJson(e.confidence));
    assert OnComplete(s, e) == AddStep(s1, d);
    if IdsInvariant(s) {
      AddStepKeepsIds(s1, d);
    }
  }

  lemma ToolResultAppends(s: State, e: Event)
    requires e.eventType == ToolResult
    ensures |OnToolResult(s, e).steps| == |s.steps| + StepsFor(e)
    ensures OnToolResult(s, e).counter == s.counter + StepsFor(e)
    ensures OnToolResult(s, e).steps[..|s.steps|] == s.steps
    ensures IdsInvariant(s) ==> IdsInvariant(OnToolResult(s, e))
  {
    var tool := ToolOf(e);
    var s1 := s.(criteria := UpdateCriteria(s.criteria, tool, Completed, e.toolResult));
    if Truthy(e.toolResult) {
      var ds := ResultDrafts(tool, e.toolResult, e.timestamp);
      ResultDraftsLength(tool, e.toolResult, e.timestamp);
      assert StepsFor(e) == |ds|;
      AddStepsAppends(s1, ds);
    } else {
      assert OnToolResult(s, e) == s1;
    }
  }

  lemma ResultDraftsLength(tool: string, result: Option<Json>, timestamp: string)
    requires Truthy(result)
    ensures |ResultDrafts(tool, result, timestamp)|
            == 1 + (if Truthy(PolicyOf(result.value)) then 1 else 0)
                 + (if Truthy(DeterminationOf(result.value)) then 1 else 0)
  {
  }

  /** Appending drafts keeps the log before them and advances the counter by their number. */
  lemma AddStepsAppends(s: State, ds: seq<Draft>)
    ensures var r := AddSteps(s, ds);
            && |r.steps| == |s.steps| + |ds| && r.counter == s.counter + |ds|
            && r.steps[..|s.steps|] == s.steps
            && (IdsInvariant(s) ==> IdsInvariant(r))
  {
    var r := AddSteps(s, ds);
    assert r.steps[..|s.steps|] == s.steps;
    if IdsInvariant(s) {
      AddStepsKeepsIds(s, ds);
    }
  }

  /**
   * Only `complete` and `error` touch the timer, and they only disarm it:
   * no event arms an interval or loses one.
   */
  lemma HandleKeepsClock(s: State, e: Event)
    ensures Handle(s, e).clock.leaked == s.clock.leaked
    ensures Handle(s, e).clock.elapsed == s.clock.elapsed
    ensures e.eventType != Complete && e.eventType != Error ==> Handle(s, e).clock == s.clock
  {
    match e.eventType
    case Stage =>
    case ToolCall =>
    case ToolResult =>
      var s1 := s.(criteria := UpdateCriteria(s.criteria, ToolOf(e), Completed, e.toolResult));
      assert s1.clock == s.clock;
    case Complete =>
    case Reasoning =>
    case Error =>
    case Unrecognized(_) =>
  }

  /** Only `reasoning` extends the analysis text, and only `error` sets the error. */
  lemma HandleTextFields(s: State, e: Event)
    ensures Handle(s, e).analysis
            == s.analysis + (if e.eventType == Reasoning && e.content.Some? then e.content.value else "")
    ensures e.eventType != Error ==> Handle(s, e).error == s.error
  {
    match e.eventType
    case Stage =>
    case ToolCall =>
    case ToolResult =>
      var s1 := s.(criteria := UpdateCriteria(s.criteria, ToolOf(e), Completed, e.toolResult));
      assert s1.analysis == s.analysis && s1.error == s.error;
    case Complete =>
    case Reasoning =>
      if e.content.Some? && e.content.value == "" {
        assert s.analysis + e.content.value == s.analysis;
      }
    case Error =>
    case Unrecognized(_) =>
      assert s.analysis + "" == s.analysis;
  }

  /** Over a run of events the log only grows, and the ids stay sequential. */
  lemma {:induction false} ReduceAppends(s: State, events: seq<Event>)
    ensures |Reduce(s, events).steps| >= |s.steps|
    ensures Reduce(s, events).steps[..|s.steps|] == s.steps
    ensures Reduce(s, events).counter - s.counter == |Reduce(s, events).steps| - |s.steps|
    ensures IdsInvariant(s) ==> IdsInvariant(Reduce(s, events))
  {
    if |events| > 0 {
      var mid := Reduce(s, Init(events));
      ReduceAppends(s, Init(events));
      HandleAppends(mid, Last(events));
      var r := Reduce(s, events);
      assert r.steps[..|s.steps|] == r.steps[..|mid.steps|][..|s.steps|];
    }
  }

  /** A stage event without a stage changes nothing; otherwise it sets the stage and adds one `evaluating` step. */
  lemma StageEvent(s: State, e: Event)
    requires e.eventType == Stage
    ensures e.stage.None? || e.stage.value == "" ==> Handle(s, e) == s
    ensures e.stage.Some? && e.stage.value != "" ==>
              var r := Handle(s, e);
              && r.stage == e.stage.value
              && r.steps == s.steps + [Step(StepId(s.counter + 1),
                   Draft(Evaluating, OrStr(e.content, StartingText(e.stage.value)), e.timestamp, None, None, None))]
              && r.(stage := s.stage, steps := s.steps, counter := s.counter) == s
  {
  }

  /** A reasoning event only appends its non-empty content to the analysis text. */
  lemma ReasoningEvent(s: State, e: Event)
    requires e.eventType == Reasoning
    ensures Handle(s, e).(analysis := s.analysis) == s
    ensures StartsWith(Handle(s, e).analysis, s.analysis)
    ensures Handle(s, e).analysis == s.analysis + (if e.content.Some? then e.content.value else "")
  {
  }

  /**
   * A tool event touches the criteria narrowly: only the criterion the tool
   * maps to changes, and only its status and confidence; a `tool_call`
   * marks it in progress and clears its confidence.
   */
  lemma ToolEventCriteria(s: State, e: Event, i: int)
    requires e.eventType == ToolCall || e.eventType == ToolResult
    requires 0 <= i < |s.criteria|
    ensures |Handle(s, e).criteria| == |s.criteria|
    ensures Some(s.criteria[i].id) != CriterionFor(ToolOf(e)) ==> Handle(s, e).criteria[i] == s.criteria[i]
    ensures Some(s.criteria[i].id) == CriterionFor(ToolOf(e)) ==>
              var c := Handle(s, e).criteria[i];
              && c.status == (if e.eventType == ToolCall then InProgress else Completed)
              && c.confidence == (if e.eventType == ToolCall then None else ScoreOf(e.toolResult))
              && c.(status := s.criteria[i].status, confidence := s.criteria[i].confidence) == s.criteria[i]
  {
    var tool := ToolOf(e);
    if e.eventType == ToolCall {
      assert Handle(s, e).criteria == UpdateCriteria(s.criteria, tool, InProgress, None);
    } else {
      var s1 := s.(criteria := UpdateCriteria(s.criteria, tool, Completed, e.toolResult));
      assert Handle(s, e).criteria == s1.criteria;
    }
  }

  /** A tool the table does not know leaves the whole checklist as it was. */
  lemma UnmappedToolKeepsCriteria(s: State, e: Event)
    requires e.eventType == ToolCall || e.eventType == ToolResult
    requires CriterionFor(ToolOf(e)).None?
    ensures Handle(s, e).criteria == s.criteria
  {
  }

  /**
   * A `tool_result` with a result appends an `evidence` step carrying the
   * result and the score the mapped criterion receives, then a `policy` step
   * exactly when a policy reference is present, then an `assessment` step
   * carrying the same score exactly when a determination is present. Without
   * a result nothing is appended and only the criteria change.
   */
  lemma ToolResultEvent(s: State, e: Event)
    requires e.eventType == ToolResult
    ensures !Truthy(e.toolResult) ==>
              Handle(s, e) == s.(criteria := UpdateCriteria(s.criteria, ToolOf(e), Completed, e.toolResult))
    ensures Truthy(e.toolResult) ==>
              var r := Handle(s, e);
              var n := |s.steps|;
              var policy := Truthy(PolicyOf(e.toolResult.value));
              var determination := Truthy(DeterminationOf(e.toolResult.value));
              && |r.steps| == n + 1 + (if policy then 1 else 0) + (if determination then 1 else 0)
              && r.steps[n].draft.kind == Evidence
              && r.steps[n].draft.confidence == ScoreOf(e.toolResult)
              && r.steps[n].draft.toolResult == e.toolResult
              && (policy ==> r.steps[n + 1].draft.kind == Policy)
              && (determination ==> Last(r.steps).draft.kind == Assessment
                                    && Last(r.steps).draft.confidence == ScoreOf(e.toolResult))
              && (!determination && policy ==> Last(r.steps).draft.kind == Policy)
  {
    if Truthy(e.toolResult) {
      var s1 := s.(criteria := UpdateCriteria(s.criteria, ToolOf(e), Completed, e.toolResult));
      var ds := ResultDrafts(ToolOf(e), e.toolResult, e.timestamp);
      ResultDraftsCount(ToolOf(e), e.toolResult, e.timestamp);
      var r := Handle(s, e);
      assert r == AddSteps(s1, ds);
      var added := Numbered(s.counter, ds);
      assert r.steps == s.steps + added;
      assert r.steps[|s.steps|] == added[0];
      assert Last(r.steps) == Last(added);
      if Truthy(PolicyOf(e.toolResult.value)) {
        assert r.steps[|s.steps| + 1] == added[1];
      }
    }
  }

  /**
   * `complete` stops the run: processing ends, the timer is disarmed, the
   * stage becomes `draft_generation`, the confidence is the event's (0 when
   * absent or 0), every criterion is completed with its confidence kept, and
   * one `assessment` step is appended.
   */
  lemma CompleteEvent(s: State, e: Event)
    requires e.eventType == Complete
    ensures var r := Handle(s, e);
            && !r.processing && !r.clock.armed && r.clock.elapsed == s.clock.elapsed
            && r.stage == "draft_generation" && StageIndex(r.stage) == 4
            && r.confidence == (if e.confidence.Some? then e.confidence.value else 0)
            && |r.criteria| == |s.criteria|
            && (forall i :: 0 <= i < |s.criteria| ==>
                  r.criteria[i].status == Completed && r.criteria[i].confidence == s.criteria[i].confidence
                  && r.criteria[i].id == s.criteria[i].id)
            && |r.steps| == |s.steps| + 1 && Last(r.steps).draft.kind == Assessment
            && r.error == s.error && r.analysis == s.analysis
  {
  }

  /**
   * `error` records the event's content (or `Unknown error`), ends
   * processing and disarms the timer; nothing else changes.
   */
  lemma ErrorEvent(s: State, e: Event)
    requires e.eventType == Error
    ensures var r := Handle(s, e);
            && r.error.Some? && !r.processing && !r.clock.armed && r.clock.elapsed == s.clock.elapsed
            && (e.content.Some? && e.content.value != "" ==> r.error.value == e.content.value)
            && (e.content.None? || e.content.value == "" ==> r.error.value == "Unknown error")
            && r.(error := s.error, processing := s.processing, clock := s.clock) == s
  {
  }

  /**
   * Nothing guards the handlers: no handler reads the error or processing
   * flags, so an event after an error (or after `complete`) is applied just
   * as it would have been before.
   */
  lemma HandlersIgnoreRunStatus(s: State, e: Event, err: Option<string>, processing: bool)
    ensures var t := s.(error := err, processing := processing);
            Handle(t, e) == Handle(s, e).(
              error := if e.eventType == Error then Handle(s, e).error else err,
              processing := if e.eventType == Error || e.eventType == Complete then false else processing)
  {
    var t := s.(error := err, processing := processing);
    match e.eventType
    case Stage =>
      StageIgnoresRunStatus(s, e, err, processing);
    case ToolCall =>
      ToolCallIgnoresRunStatus(s, e, err, processing);
    case ToolResult =>
      ToolResultIgnoresRunStatus(s, e, err, processing);
    case Reasoning =>
      assert Handle(t, e) == OnReasoning(t, e);
    case Complete =>
      CompleteIgnoresRunStatus(s, e, err, processing);
    case Error =>
      assert Handle(t, e) == OnError(t, e);
    case Unrecognized(_) =>
  }

  lemma StageIgnoresRunStatus(s: State, e: Event, err: Option<string>, processing: bool)
    ensures OnStage(s.(error := err, processing := processing), e)
            == OnStage(s, e).(error := err, processing := processing)
  {
  }

  lemma ToolCallIgnoresRunStatus(s: State, e: Event, err: Option<string>, processing: bool)
    ensures OnToolCall(s.(error := err, processing := processing), e)
            == OnToolCall(s, e).(error := err, processing := processing)
  {
  }

  lemma CompleteIgnoresRunStatus(s: State, e: Event, err: Option<string>, processing: bool)
    ensures OnComplete(s.(error := err, processing := processing), e) == OnComplete(s, e).(error := err)
  {
  }

  lemma ToolResultIgnoresRunStatus(s: State, e: Event, err: Option<string>, processing: bool)
    requires e.eventType == ToolResult
    ensures OnToolResult(s.(error := err, processing := processing), e)
            == OnToolResult(s, e).(error := err, processing := processing)
  {
    var t := s.(error := err, processing := processing);
    var tool := ToolOf(e);
    var cs := UpdateCriteria(s.criteria, tool, Completed, e.toolResult);
    if Truthy(e.toolResult) {
      var ds := ResultDrafts(tool, e.toolResult, e.timestamp);
      assert AddSteps(t.(criteria := cs), ds)
             == AddSteps(s.(criteria := cs), ds).(error := err, processing := processing);
    }
  }

  /** `reset` empties the log and zeroes the counter, keeps the checklist and restores the invariant. */
  lemma ResetClearsLog(s: State)
    ensures var r := Reset(s);
            && r.steps == [] && r.counter == 0 && r.criteria == s.criteria
            && r.error.None? && !r.processing && !r.clock.armed && r.clock.elapsed == 0
            && IdsInvariant(r)
  {
  }
}

=== FILE: seqs.dfy ===
/** Sequence operations shared by the filters, the line splitter and the chunker. */
module Seqs {

  /**
   * `idx` embeds `a` into `b`: it lists, in strictly increasing order, the
   * positions of `b` at which the elements of `a` are found.
   */
  ghost predicate Embedding<T>(a: seq<T>, b: seq<T>, idx: seq<int>) {
    && |idx| == |a|
    && (forall k :: 0 <= k < |idx| ==> 0 <= idx[k] < |b| && a[k] == b[idx[k]])
    && (forall k, l :: 0 <= k < l < |idx| ==> idx[k] < idx[l])
  }

  /** `a` is an order-preserving subsequence of `b`. */
  ghost predicate IsSubsequence<T>(a: seq<T>, b: seq<T>) {
    exists idx :: Embedding(a, b, idx)
  }

  /**
   * `r` is what `b.filter(p)` returns: the elements of `b` satisfying `p`,
   * every one of them, in their original order.
   */
  ghost predicate IsFilterOf<T>(r: seq<T>, b: seq<T>, p: T -> bool) {
    exists idx :: Embedding(r, b, idx)
                  && (forall j :: 0 <= j < |b| && p(b[j]) ==> j in idx)
                  && (forall k :: 0 <= k < |r| ==> p(r[k]))
  }

  /** `s.filter(p)` */
  function Filter<T>(s: seq<T>, p: T -> bool): (r: seq<T>)
    ensures |r| <= |s|
    ensures forall k :: 0 <= k < |r| ==> p(r[k])
  {
    if |s| == 0 then []
    else
      var init := Filter(s[..|s| - 1], p);
      if p(s[|s| - 1]) then init + [s[|s| - 1]] else init
  }

  /** The positions of `s` that `Filter` keeps, in increasing order. */
  ghost function KeptPositions<T>(s: seq<T>, p: T -> bool): (idx: seq<int>)
    ensures |idx| == |Filter(s, p)|
    ensures forall k :: 0 <= k < |idx| ==> 0 <= idx[k] < |s|
    ensures forall k, l :: 0 <= k < l < |idx| ==> idx[k] < idx[l]
    ensures forall j :: 0 <= j < |s| && p(s[j]) ==> j in idx
  {
    if |s| == 0 then []
    else
      var n := |s| - 1;
      var init := KeptPositions(s[..n], p);
      assert forall j :: 0 <= j < n ==> s[..n][j] == s[j];
      if p(s[n]) then init + [n] else init
  }

  /** `Filter` computes exactly the filter of its input. */
  lemma FilterIsFilterOf<T>(s: seq<T>, p: T -> bool)
    ensures IsFilterOf(Filter(s, p), s, p)
  {
    var r, idx := Filter(s, p), KeptPositions(s, p);
    FilterAt(s, p);
    assert Embedding(r, s, idx);
  }

  lemma {:induction false} FilterAt<T>(s: seq<T>, p: T -> bool)
    ensures forall k :: 0 <= k < |Filter(s, p)| ==> Filter(s, p)[k] == s[KeptPositions(s, p)[k]]
  {
    if |s| > 0 {
      var n := |s| - 1;
      FilterAt(s[..n], p);
      var r', idx' := Filter(s[..n], p), KeptPositions(s[..n], p);
      var r, idx := Filter(s, p), KeptPositions(s, p);
      forall k | 0 <= k < |r|
        ensures r[k] == s[idx[k]]
      {
        if k < |r'| {
          assert r[k] == r'[k] && idx[k] == idx'[k];
          assert s[..n][idx'[k]] == s[idx'[k]];
        } else {
          assert r[k] == s[n] && idx[k] == n;
        }
      }
    }
  }

  /** A filter of `b` is a subsequence of `b`. */
  lemma FilterOfIsSubsequence<T>(r: seq<T>, b: seq<T>, p: T -> bool)
    requires IsFilterOf(r, b, p)
    ensures IsSubsequence(r, b)
  {
  }

  /** The conjunction of two tests. */
  function Both<T>(p: T -> bool, q: T -> bool): T -> bool {
    x => p(x) && q(x)
  }

  /** Filtering with `p` and then with `q` is filtering with both at once. */
  lemma {:induction false} FilterFilter<T>(s: seq<T>, p: T -> bool, q: T -> bool)
    ensures Filter(Filter(s, p), q) == Filter(s, Both(p, q))
  {
    if |s| > 0 {
      var s' := s[..|s| - 1];
      FilterFilter(s', p, q);
      var f := Filter(s', p);
      if p(s[|s| - 1]) {
        assert (f + [s[|s| - 1]])[..|f|] == f;
      }
    }
  }

  /** Filtering by two tests that agree on every element gives the same result. */
  lemma {:induction false} FilterSame<T>(s: seq<T>, p: T -> bool, q: T -> bool)
    requires forall k :: 0 <= k < |s| ==> p(s[k]) == q(s[k])
    ensures Filter(s, p) == Filter(s, q)
  {
    if |s| > 0 {
      FilterSame(s[..|s| - 1], p, q);
    }
  }

  /** Keeping everything keeps the whole sequence. */
  lemma {:induction false} FilterAll<T>(s: seq<T>, p: T -> bool)
    requires forall k :: 0 <= k < |s| ==> p(s[k])
    ensures Filter(s, p) == s
  {
    if |s| > 0 {
      FilterAll(s[..|s| - 1], p);
      assert s == s[..|s| - 1] + [s[|s| - 1]];
    }
  }

  /** Concatenation of a sequence of strings (`parts.join('')`). */
  function Concat(parts: seq<string>): string {
    if |parts| == 0 then "" else Concat(parts[..|parts| - 1]) + parts[|parts| - 1]
  }

  lemma {:induction false} ConcatAppend(a: seq<string>, b: seq<string>)
    ensures Concat(a + b) == Concat(a) + Concat(b)
    decreases |b|
  {
    if |b| > 0 {
      assert (a + b)[..|a + b| - 1] == a + b[..|b| - 1];
      ConcatAppend(a, b[..|b| - 1]);
    } else {
      assert a + b == a;
    }
  }

  lemma ConcatSingle(s: string)
    ensures Concat([s]) == s
  {
    assert [s][..0] == [];
  }

  /** A non-empty sequence is its initial part followed by its last element. */
  lemma InitLast<T>(s: seq<T>)
    requires |s| > 0
    ensures Init(s) + [Last(s)] == s
  {
  }

  /** The last element of a non-empty sequence. */
  function Last<T>(s: seq<T>): T
    requires |s| > 0
  {
    s[|s| - 1]
  }

  /** All but the last element of a non-empty sequence. */
  function Init<T>(s: seq<T>): seq<T>
    requires |s| > 0
  {
    s[..|s| - 1]
  }
}

=== FILE: server_api.dfy ===
/**
 * The server side of the adjudicator API: the criteria lookup by visa type,
 * the 200-character cutting of the agent's reasoning text, and the event
 * stream `analyze_case_stream` emits: a first `form_validation` stage, the
 * tool calls, tool results and reasoning chunks of every agent event, and a
 * closing `complete` (or `error` when the agent run raises), each sent as a
 * `data: <json>` frame followed by a blank line.
 */
module ServerApi {
  import opened Wrappers
  import opened Text
  import opened Seqs
  import opened Json
  import opened Events
  import opened Framing

  // ---------------------------------------------------------------------------
  // Criteria lookup
  // ---------------------------------------------------------------------------

  /** One entry of a criteria list. */
  datatype CriterionDef = CriterionDef(id: string, name: string, description: string)

  const H1bCriteria: seq<CriterionDef> := [
    CriterionDef("1", "Specialty Occupation",
                 "Position requires theoretical and practical application of specialized knowledge"),
    CriterionDef("2", "Beneficiary Qualifications", "Beneficiary has required degree or equivalent"),
    CriterionDef("3", "Employer-Employee Relationship", "Valid employer-employee relationship exists"),
    CriterionDef("4", "Prevailing Wage Compliance", "Offered wage meets or exceeds prevailing wage"),
    CriterionDef("5", "LCA Compliance", "Labor Condition Application is certified and compliant"),
    CriterionDef("6", "Itinerary Requirements", "Work itinerary provided if applicable")]

  const O1Criteria: seq<CriterionDef> := [
    CriterionDef("1", "Extraordinary Ability", "Sustained national or international acclaim"),
    CriterionDef("2", "Evidence of Recognition", "Documentation of achievements and recognition"),
    CriterionDef("3", "Continued Work in Field", "Coming to US to continue work in area of expertise")]

  const Eb2NiwCriteria: seq<CriterionDef> := [
    CriterionDef("1", "Advanced Degree", "Holds advanced degree or exceptional ability"),
    CriterionDef("2", "National Interest", "Work is in the national interest of the United States"),
    CriterionDef("3", "Substantial Merit", "Proposed endeavor has substantial merit and national importance")]

  /** The keys of `criteria_map`, in the order it lists them. */
  const VisaKeys: seq<string> := ["H-1B", "O-1", "EB-2 NIW"]

  /** `criteria_map.get(key)` */
  function CriteriaMap(key: string): (r: Option<seq<CriterionDef>>)
    ensures r.Some? <==> key in VisaKeys
    ensures r.Some? ==> IdsRunFromOne(r.value) && |r.value| >= 3
  {
    CriteriaListsSequential();
    if key == "H-1B" then Some(H1bCriteria)
    else if key == "O-1" then Some(O1Criteria)
    else if key == "EB-2 NIW" then Some(Eb2NiwCriteria)
    else None
  }

  /** The ids of a list run '1', '2', … in order. */
  predicate IdsRunFromOne(cs: seq<CriterionDef>) {
    forall i :: 0 <= i < |cs| ==> cs[i].id == NatToString(i + 1)
  }

  /** The response of `get_evaluation_criteria`: the upper-cased key with its list, or an HTTP error. */
  datatype CriteriaReply =
    | CriteriaFound(visaType: string, criteria: seq<CriterionDef>)
    | HttpException(status: int, detail: string)

  /**
   * `get_evaluation_criteria`: the visa type is matched upper-cased against
   * the three keys; the reply names the matched key and carries a list whose
   * ids run '1'..n. Any other visa type is a 404 naming the type as given.
   */
  function GetEvaluationCriteria(visaType: string): (r: CriteriaReply)
    ensures r.CriteriaFound? <==> Upper(visaType) in VisaKeys
    ensures r.CriteriaFound? ==>
              && r.visaType == Upper(visaType)
              && r.criteria == CriteriaMap(Upper(visaType)).value
              && IdsRunFromOne(r.criteria) && |r.criteria| >= 3
              && forall i, j :: 0 <= i < j < |r.criteria| ==> r.criteria[i].id != r.criteria[j].id
    ensures r.HttpException? ==>
              r.status == 404 && r.detail == "Criteria not found for visa type: " + visaType
  {
    var key := Upper(visaType);
    match CriteriaMap(key)
    case Some(cs) =>
      CriteriaListsSequential();
      CriteriaFound(key, cs)
    case None => HttpException(404, "Criteria not found for visa type: " + visaType)
  }

  /** Every list of the map has sequential ids. */
  lemma CriteriaListsSequential()
    ensures IdsRunFromOne(H1bCriteria) && IdsRunFromOne(O1Criteria) && IdsRunFromOne(Eb2NiwCriteria)
  {
    SmallNumerals();
    assert IdsRunFromOne(O1Criteria);
    assert IdsRunFromOne(Eb2NiwCriteria);
    assert IdsRunFromOne(H1bCriteria);
  }

  lemma SmallNumerals()
    ensures NatToString(1) == "1" && NatToString(2) == "2" && NatToString(3) == "3"
    ensures NatToString(4) == "4" && NatToString(5) == "5" && NatToString(6) == "6"
  {
  }

  /** Two spellings that upper-case alike get the same criteria. */
  lemma LookupIgnoresCase(a: string, b: string)
    requires Upper(a) == Upper(b)
    ensures GetEvaluationCriteria(a).CriteriaFound? == GetEvaluationCriteria(b).CriteriaFound?
    ensures GetEvaluationCriteria(a).CriteriaFound? ==> GetEvaluationCriteria(a) == GetEvaluationCriteria(b)
  {
  }

  /** Looking up the reply's own key finds the same reply. */
  lemma LookupOfReturnedKey(visaType: string)
    requires GetEvaluationCriteria(visaType).CriteriaFound?
    ensures GetEvaluationCriteria(GetEvaluationCriteria(visaType).visaType) == GetEvaluationCriteria(visaType)
  {
    UpperIdempotent(visaType);
  }

  /** `h-1b` finds the six H-1B criteria; `H1B` is not a key. */
  lemma LookupExamples()
    ensures GetEvaluationCriteria("h-1b") == CriteriaFound("H-1B", H1bCriteria)
    ensures GetEvaluationCriteria("H1B") == HttpException(404, "Criteria not found for visa type: H1B")
  {
    assert Upper("h-1b") == "H-1B";
    assert Upper("H1B") == "H1B";
  }

  // ---------------------------------------------------------------------------
  // Reasoning chunks
  // ---------------------------------------------------------------------------

  const ChunkSize: nat := 200

  function Min(a: int, b: int): int {
    if a <= b then a else b
  }

  /** `[text[i:i + 200] for i in range(0, len(text), 200)]` */
  function ChunkText(text: string): (r: seq<string>)
    ensures |r| == 0 <==> |text| == 0
    ensures |r| > 0 ==> (|r| - 1) * ChunkSize < |text| <= |r| * ChunkSize
    ensures forall k :: 0 <= k < |r| ==> 0 < |r[k]| <= ChunkSize
    ensures forall k :: 0 <= k < |r| - 1 ==> |r[k]| == ChunkSize
  {
    var n := (|text| + ChunkSize - 1) / ChunkSize;
    seq(n, k requires 0 <= k < n => text[k * ChunkSize .. Min((k + 1) * ChunkSize, |text|)])
  }

  /** The first `m` chunks spell the first `min(200 m, |text|)` characters. */
  lemma {:induction false} ChunkPrefix(text: string, m: nat)
    requires m <= |ChunkText(text)|
    ensures Concat(ChunkText(text)[..m]) == text[..Min(m * ChunkSize, |text|)]
  {
    var r := ChunkText(text);
    if m == 0 {
      assert r[..0] == [];
    } else {
      ChunkPrefix(text, m - 1);
      assert r[..m][..m - 1] == r[..m - 1];
      var lo, hi := (m - 1) * ChunkSize, Min(m * ChunkSize, |text|);
      assert Min(lo, |text|) == lo;
      assert r[m - 1] == text[lo..hi];
      assert text[..lo] + text[lo..hi] == text[..hi];
    }
  }

  /** Concatenating the chunks restores the text. */
  lemma ChunksConcat(text: string)
    ensures Concat(ChunkText(text)) == text
  {
    var r := ChunkText(text);
    ChunkPrefix(text, |r|);
    assert r[..|r|] == r;
    assert text[..|text|] == text;
  }

  // ---------------------------------------------------------------------------
  // The event stream
  // ---------------------------------------------------------------------------

  /** `fr.response`: absent (replaced by `{}`), `None`, or a dictionary. */
  datatype ResponseValue = Missing | NoneValue | Dict(fields: seq<Field>)

  /** A function response of the agent; a missing `name` reads as `unknown`. */
  datatype FunctionResponse = FunctionResponse(name: Option<string>, response: ResponseValue)

  /**
   * What `generate_events` reads from one agent event: the names of its
   * function calls, its function responses, and, when it is a final response
   * with content, the texts of its parts.
   */
  datatype AgentEvent = AgentEvent(calls: seq<string>, responses: seq<FunctionResponse>, finalTexts: seq<string>)

  /** An `AdjudicationEvent` with its defaults; `now` is the clock reading its constructor takes. */
  function Emit(t: EventType, stage: Option<string>, content: Option<string>, tool: Option<string>,
                result: Option<Json>, confidence: Option<int>, now: string): Event {
    Event(t, stage, content, tool, result, confidence, now)
  }

  function SentStart(now: string): Event {
    Emit(Stage, Some("form_validation"), Some("Starting petition form analysis..."), None, None, None, now)
  }

  function SentCall(name: string, now: string): Event {
    Emit(ToolCall, None, Some("Executing: " + name), Some(name), None, None, now)
  }

  /** `tool_result=result_data`: `{}` when the response is missing, `null` for `None`. */
  function ResultJson(v: ResponseValue): (r: Option<Json>)
    ensures r.Some? ==> r.value.JObj?
    ensures r.None? <==> v.NoneValue?
  {
    match v
    case Missing => Some(JObj([]))
    case NoneValue => None
    case Dict(fields) => Some(JObj(fields))
  }

  function SentResult(fr: FunctionResponse, now: string): Event {
    Emit(ToolResult, None, None, Some(fr.name.GetOr("unknown")), ResultJson(fr.response), None, now)
  }

  function SentReasoning(chunk: string, now: string): Event {
    Emit(Reasoning, None, Some(chunk), None, None, None, now)
  }

  function SentComplete(now: string): Event {
    Emit(Complete, None, Some("Analysis complete"), None, None, Some(89), now)
  }

  function SentError(message: string, now: string): Event {
    Emit(Error, None, Some(message), None, None, None, now)
  }

  /**
   * The clock reading an event carries before `Stamp` gives it its own:
   * every `AdjudicationEvent` reads the clock when it is built, so the
   * builders below leave the reading open and the generator fills it in.
   */
  const Unread: string := ""

  /** One reasoning event per 200-character chunk of a non-empty text; an empty text sends nothing. */
  function TextEvents(texts: seq<string>): (r: seq<Event>)
    ensures forall i :: 0 <= i < |r| ==> r[i].eventType == Reasoning && r[i].content.Some? && r[i].content.value != ""
    ensures forall i :: 0 <= i < |r| ==> WellFormed(r[i])
  {
    if |texts| == 0 then []
    else
      var chunks := ChunkText(Last(texts));
      TextEvents(Init(texts)) + seq(|chunks|, k requires 0 <= k < |chunks| => SentReasoning(chunks[k], Unread))
  }

  /** The events sent for one agent event: its calls, then its results, then its reasoning chunks. */
  function AgentEvents(a: AgentEvent): (r: seq<Event>)
    ensures forall i :: 0 <= i < |r| ==> r[i].eventType in {ToolCall, ToolResult, Reasoning}
    ensures forall i :: 0 <= i < |r| ==> WellFormed(r[i])
  {
    seq(|a.calls|, i requires 0 <= i < |a.calls| => SentCall(a.calls[i], Unread))
    + seq(|a.responses|, i requires 0 <= i < |a.responses| => SentResult(a.responses[i], Unread))
    + TextEvents(a.finalTexts)
  }

  /** The events sent for a run of agent events, in order. */
  function RunEvents(agent: seq<AgentEvent>): (r: seq<Event>)
    ensures forall i :: 0 <= i < |r| ==> r[i].eventType in {ToolCall, ToolResult, Reasoning}
    ensures forall i :: 0 <= i < |r| ==> WellFormed(r[i])
  {
    if |agent| == 0 then [] else RunEvents(Init(agent)) + AgentEvents(Last(agent))
  }

  /** The events of `generate_events` in order, each still to read the clock. */
  function UnstampedEvents(agent: seq<AgentEvent>, failure: Option<string>): (r: seq<Event>)
    ensures |r| >= 2
    ensures r[0] == SentStart(Unread)
    ensures Last(r) == if failure.Some? then SentError(failure.value, Unread) else SentComplete(Unread)
    ensures forall i :: 0 < i < |r| - 1 ==> r[i].eventType in {ToolCall, ToolResult, Reasoning}
    ensures forall i :: 0 <= i < |r| ==> WellFormed(r[i])
  {
    var run := RunEvents(agent);
    var r := [SentStart(Unread)] + run
             + [if failure.Some? then SentError(failure.value, Unread) else SentComplete(Unread)];
    assert forall i :: 0 < i < |r| - 1 ==> r[i] == run[i - 1];
    r
  }

  /**
   * Each event takes its own clock reading when it is built: `clock(i)` is
   * the reading of the `i`-th event sent, and nothing but the timestamp
   * changes.
   */
  function Stamp(events: seq<Event>, clock: nat -> string): (r: seq<Event>)
    ensures |r| == |events|
    ensures forall i :: 0 <= i < |r| ==> r[i].timestamp == clock(i)
    ensures forall i :: 0 <= i < |r| ==> r[i].(timestamp := events[i].timestamp) == events[i]
  {
    seq(|events|, i requires 0 <= i < |events| => events[i].(timestamp := clock(i)))
  }

  /**
   * `generate_events`: the opening stage, the events of every agent event
   * delivered, then `complete` — or, when the run raised with message
   * `failure` after those agent events, a single `error` carrying it. The
   * `i`-th event sent carries the clock reading `clock(i)`.
   */
  function GenerateEvents(agent: seq<AgentEvent>, failure: Option<string>, clock: nat -> string): (r: seq<Event>)
    ensures |r| >= 2
    ensures r[0] == SentStart(clock(0))
    ensures failure.None? ==> Last(r) == SentComplete(clock(|r| - 1))
    ensures failure.Some? ==> Last(r) == SentError(failure.value, clock(|r| - 1))
    ensures forall i :: 0 < i < |r| - 1 ==> r[i].eventType in {ToolCall, ToolResult, Reasoning}
    ensures forall i :: 0 <= i < |r| ==> WellFormed(r[i]) && r[i].timestamp == clock(i)
  {
    var u := UnstampedEvents(agent, failure);
    StampedEnds(u, clock);
    StampedEvents(u, clock);
    Stamp(u, clock)
  }

  /** Stamping keeps the first and the last event but for their readings. */
  lemma StampedEnds(u: seq<Event>, clock: nat -> string)
    requires |u| >= 2
    ensures var r := Stamp(u, clock);
            && r[0] == u[0].(timestamp := clock(0))
            && Last(r) == Last(u).(timestamp := clock(|r| - 1))
  {
    StampKeeps(u, clock, 0);
    StampKeeps(u, clock, |u| - 1);
  }

  /** Stamping keeps each event's type and well-formedness. */
  lemma StampedEvents(u: seq<Event>, clock: nat -> string)
    ensures var r := Stamp(u, clock);
            forall i :: 0 <= i < |r| ==> r[i].eventType == u[i].eventType && (WellFormed(u[i]) ==> WellFormed(r[i]))
  {
    forall i | 0 <= i < |u| {
      StampKeeps(u, clock, i);
    }
  }

  /** The `i`-th stamped event is the `i`-th event with the `i`-th reading. */
  lemma StampKeeps(events: seq<Event>, clock: nat -> string, i: int)
    requires 0 <= i < |events|
    ensures |Stamp(events, clock)| == |events|
    ensures Stamp(events, clock)[i] == events[i].(timestamp := clock(i))
  {
    var r := Stamp(events, clock);
    assert r[i].(timestamp := events[i].timestamp) == events[i];
  }

  // ---------------------------------------------------------------------------
  // Exact read-back
  // ---------------------------------------------------------------------------

  /** A function response whose dictionary `JSON.parse` gives back exactly. */
  predicate ExactResponse(fr: FunctionResponse) {
    fr.response.Dict? ==> Exact(JObj(fr.response.fields))
  }

  /**
   * Every tool result of the run can be read back exactly: a Python dict
   * never repeats a key, so this asks only that its integers be safe.
   */
  predicate ExactResponses(agent: seq<AgentEvent>) {
    forall k, m :: 0 <= k < |agent| && 0 <= m < |agent[k].responses| ==> ExactResponse(agent[k].responses[m])
  }

  lemma {:induction false} TextEventsExact(texts: seq<string>)
    ensures forall i :: 0 <= i < |TextEvents(texts)| ==> ExactParts(TextEvents(texts)[i])
  {
    if |texts| > 0 {
      TextEventsExact(Init(texts));
    }
  }

  lemma AgentEventsExact(a: AgentEvent)
    requires forall m :: 0 <= m < |a.responses| ==> ExactResponse(a.responses[m])
    ensures forall i :: 0 <= i < |AgentEvents(a)| ==> ExactParts(AgentEvents(a)[i])
  {
    TextEventsExact(a.finalTexts);
  }

  lemma {:induction false} RunEventsExact(agent: seq<AgentEvent>)
    requires ExactResponses(agent)
    ensures forall i :: 0 <= i < |RunEvents(agent)| ==> ExactParts(RunEvents(agent)[i])
  {
    if |agent| > 0 {
      RunEventsExact(Init(agent));
      AgentEventsExact(Last(agent));
    }
  }

  /** With exact tool results, every event the server sends can be read back exactly. */
  lemma GeneratedExact(agent: seq<AgentEvent>, failure: Option<string>, clock: nat -> string)
    requires ExactResponses(agent)
    ensures var r := GenerateEvents(agent, failure, clock);
            forall i :: 0 <= i < |r| ==> ExactParts(r[i])
  {
    var u := UnstampedEvents(agent, failure);
    var run := RunEvents(agent);
    RunEventsExact(agent);
    assert forall i :: 0 < i < |u| - 1 ==> u[i] == run[i - 1];
    forall i | 0 <= i < |u|
      ensures ExactParts(Stamp(u, clock)[i])
    {
      StampKeeps(u, clock, i);
    }
  }

  /** The JSON text of an event, as `model_dump_json` writes it. */
  function EventText(e: Event): (r: string)
    ensures Framable(r)
  {
    var t := Stringify(EventJson(e));
    assert !IsSpace(t[0]);
    t
  }

  /** The payloads of the frames sent for a run of events. */
  function EventTexts(events: seq<Event>): (r: seq<string>)
    ensures |r| == |events|
    ensures forall i :: 0 <= i < |r| ==> r[i] == EventText(events[i])
  {
    seq(|events|, i requires 0 <= i < |events| => EventText(events[i]))
  }

  /** The text of the response body: one `data: <json>\n\n` frame per event. */
  function StreamText(agent: seq<AgentEvent>, failure: Option<string>, clock: nat -> string): string {
    FrameText(EventTexts(GenerateEvents(agent, failure, clock)))
  }
}

=== FILE: session.dfy ===
/**
 * One analysis run as the service drives it (`analyzeCase`): reset, mark
 * processing, start the timer, load the criteria checklist, post the case
 * and feed every decoded event of the response stream to the handlers;
 * any failure of the request or of the stream ends the run with an error.
 * Also the timer controls `pause` and `resume`, and a one-second tick.
 */
module Session {
  import opened Wrappers
  import opened Text
  import opened Seqs
  import opened Json
  import opened Events
  import opened Timer
  import opened Framing
  import opened Reducer

  // ---------------------------------------------------------------------------
  // Criteria loading
  // ---------------------------------------------------------------------------

  /** A criterion as the criteria endpoint lists it. */
  datatype CriterionInfo = CriterionInfo(id: string, name: string, description: Option<string>)

  /**
   * How the criteria request ended: a 2xx response whose body has a
   * `criteria` list, a non-2xx status, or an exception (network failure, or
   * a body without a `criteria` list).
   */
  datatype CriteriaResponse =
    | CriteriaOk(items: seq<CriterionInfo>)
    | CriteriaNotOk(status: int)
    | CriteriaThrew

  function Pending(id: string, name: string): Criterion {
    Criterion(id, name, None, Reducer.Pending, None)
  }

  /** The H-1B checklist the client falls back to. */
  const DefaultCriteria: seq<Criterion> := [
    Pending("1", "Specialty Occupation"),
    Pending("2", "Beneficiary Qualifications"),
    Pending("3", "Employer-Employee Relationship"),
    Pending("4", "LCA Compliance"),
    Pending("5", "Prevailing Wage"),
    Pending("6", "Draft Generation")]

  /** `loadCriteria`: the listed criteria, all pending, in order; the default checklist on any failure. */
  function LoadCriteria(resp: CriteriaResponse): (r: seq<Criterion>)
    ensures forall i :: 0 <= i < |r| ==> r[i].status == Reducer.Pending && r[i].confidence.None?
    ensures resp.CriteriaOk? ==>
              && |r| == |resp.items|
              && forall i :: 0 <= i < |r| ==>
                   r[i].id == resp.items[i].id && r[i].name == resp.items[i].name
                   && r[i].description == resp.items[i].description
    ensures !resp.CriteriaOk? ==> r == DefaultCriteria
  {
    match resp
    case CriteriaOk(items) =>
      seq(|items|, i requires 0 <= i < |items| =>
        Criterion(items[i].id, items[i].name, items[i].description, Reducer.Pending, None))
    case _ => DefaultCriteria
  }

  /** The fallback checklist has six criteria with ids '1' to '6', in order. */
  lemma DefaultCriteriaIds()
    ensures |DefaultCriteria| == 6
    ensures forall i :: 0 <= i < 6 ==> DefaultCriteria[i].id == NatToString(i + 1)
  {
    assert NatToString(1) == "1" && NatToString(2) == "2" && NatToString(3) == "3";
    assert NatToString(4) == "4" && NatToString(5) == "5" && NatToString(6) == "6";
  }

  // ---------------------------------------------------------------------------
  // Decoding and the read loop
  // ---------------------------------------------------------------------------

  /**
   * `JSON.parse` followed by the handler's reading of the value; `parse`
   * returns `None` where `JSON.parse` throws. A payload that does not parse,
   * or that parses to a value other than an object, yields no event.
   */
  function Decode(parse: string -> Option<Json>, payload: string): (r: Option<Event>)
    ensures r.Some? <==> parse(payload).Some? && parse(payload).value.JObj?
  {
    match parse(payload)
    case None => None
    case Some(j) => ToEvent(j)
  }

  /** The events a run of payloads decodes to, in order; undecodable payloads are skipped. */
  function DecodeAll(parse: string -> Option<Json>, payloads: seq<string>): (r: seq<Event>)
    ensures |r| <= |payloads|
  {
    if |payloads| == 0 then []
    else
      var init := DecodeAll(parse, Init(payloads));
      match Decode(parse, Last(payloads))
      case Some(e) => init + [e]
      case None => init
  }

  /** Handling each payload in turn: a payload that does not decode changes nothing. */
  function Consume(parse: string -> Option<Json>, s: State, payloads: seq<string>): State {
    if |payloads| == 0 then s
    else
      var mid := Consume(parse, s, Init(payloads));
      match Decode(parse, Last(payloads))
      case Some(e) => Handle(mid, e)
      case None => mid
  }

  /** Consuming payloads is reducing the events they decode to. */
  lemma {:induction false} ConsumeIsReduce(parse: string -> Option<Json>, s: State, payloads: seq<string>)
    ensures Consume(parse, s, payloads) == Reduce(s, DecodeAll(parse, payloads))
  {
    if |payloads| > 0 {
      ConsumeIsReduce(parse, s, Init(payloads));
      var init := DecodeAll(parse, Init(payloads));
      match Decode(parse, Last(payloads))
      case Some(e) =>
        assert Init(init + [e]) == init;
      case None =>
    }
  }

  lemma {:induction false} ConsumeAppend(parse: string -> Option<Json>, s: State, a: seq<string>, b: seq<string>)
    ensures Consume(parse, s, a + b) == Consume(parse, Consume(parse, s, a), b)
    decreases |b|
  {
    if |b| == 0 {
      assert a + b == a;
    } else {
      assert Init(a + b) == a + Init(b);
      assert Last(a + b) == Last(b);
      ConsumeAppend(parse, s, a, Init(b));
    }
  }

  /**
   * The read loop of `analyzeCase`: each chunk is appended to the buffer, the
   * complete lines are taken off, and every `data:` payload among them is
   * decoded and handled at once. The resulting state is the one obtained by
   * handling, in order, the payloads of the complete lines of the whole text,
   * however it was cut into chunks.
   */
  method ReadLoop(parse: string -> Option<Json>, s0: State, chunks: seq<string>) returns (s: State, buffer: string)
    ensures buffer == ReadAll(chunks).1
    ensures s == Consume(parse, s0, ReadAll(chunks).0)
    ensures s == Consume(parse, s0, Payloads(Init(Split(Concat(chunks)))))
  {
    s, buffer := s0, "";
    var i := 0;
    while i < |chunks|
      invariant 0 <= i <= |chunks|
      invariant buffer == ReadAll(chunks[..i]).1
      invariant s == Consume(parse, s0, ReadAll(chunks[..i]).0)
    {
      var fed := Feed(buffer, chunks[i]);
      var lines := fed.0;
      var before := s;
      var j := 0;
      while j < |lines|
        invariant 0 <= j <= |lines|
        invariant s == Consume(parse, before, Payloads(lines[..j]))
      {
        assert Init(lines[..j + 1]) == lines[..j];
        match Payload(lines[j]) {
          case Some(p) =>
            PayloadsSnoc(lines[..j], lines[j], p);
            match Decode(parse, p) {
              case Some(e) =>
                ConsumeSnoc(parse, before, Payloads(lines[..j]), p, e);
                s := Handle(s, e);
              case None =>
                ConsumeSkip(parse, before, Payloads(lines[..j]), p);
            }
          case None =>
            assert Payloads(lines[..j + 1]) == Payloads(lines[..j]);
        }
        j := j + 1;
      }
      assert lines[..|lines|] == lines;
      var done := ReadAll(chunks[..i]);
      assert Init(chunks[..i + 1]) == chunks[..i] && Last(chunks[..i + 1]) == chunks[i];
      ConsumeAppend(parse, s0, done.0, Payloads(lines));
      buffer := fed.1;
      i := i + 1;
    }
    assert chunks[..|chunks|] == chunks;
    ReadAllIsChunkingInvariant(chunks);
  }

  lemma PayloadsSnoc(lines: seq<string>, line: string, p: string)
    requires Payload(line) == Some(p)
    ensures Payloads(lines + [line]) == Payloads(lines) + [p]
  {
    assert Init(lines + [line]) == lines;
  }

  lemma ConsumeSnoc(parse: string -> Option<Json>, s: State, ps: seq<string>, p: string, e: Event)
    requires Decode(parse, p) == Some(e)
    ensures Consume(parse, s, ps + [p]) == Handle(Consume(parse, s, ps), e)
  {
    assert Init(ps + [p]) == ps;
  }

  lemma ConsumeSkip(parse: string -> Option<Json>, s: State, ps: seq<string>, p: string)
    requires Decode(parse, p).None?
    ensures Consume(parse, s, ps + [p]) == Consume(parse, s, ps)
  {
    assert Init(ps + [p]) == ps;
  }

  // ---------------------------------------------------------------------------
  // The run
  // ---------------------------------------------------------------------------

  /**
   * How the analysis request went: a non-2xx status, a response without a
   * body, a stream of chunks (possibly broken off by a read error), or a
   * `fetch` that threw. A thrown value that is not an `Error` has no message.
   */
  datatype Transport =
    | HttpError(status: int)
    | NoBody
    | Streamed(chunks: seq<string>, failure: Option<Option<string>>)
    | FetchFailed(message: Option<string>)

  /** The `catch` of `analyzeCase`: record the message, stop processing, disarm the timer. */
  function Fail(s: State, message: Option<string>): (r: State)
    ensures r.error == Some(message.GetOr("Unknown error"))
    ensures !r.processing && !r.clock.armed && r.clock.elapsed == s.clock.elapsed
    ensures r.(error := s.error, processing := s.processing, clock := s.clock) == s
  {
    s.(error := Some(message.GetOr("Unknown error")), processing := false, clock := Stop(s.clock))
  }

  /** The state once `analyzeCase` has reset, started the timer and loaded the criteria. */
  function Started(s: State, criteria: CriteriaResponse): (r: State)
    ensures r == Initial.(processing := true, criteria := LoadCriteria(criteria),
                          clock := Clock(true, Live(Stop(s.clock)), 0))
  {
    var reset := Reset(s);
    reset.(processing := true, clock := Start(reset.clock)).(criteria := LoadCriteria(criteria))
  }

  /** `analyzeCase` */
  method AnalyzeCase(parse: string -> Option<Json>, s0: State, criteria: CriteriaResponse, transport: Transport)
    returns (r: State)
    ensures transport.HttpError? ==>
              r == Fail(Started(s0, criteria), Some("HTTP error! status: " + IntToString(transport.status)))
    ensures transport.NoBody? ==> r == Fail(Started(s0, criteria), Some("No response body"))
    ensures transport.FetchFailed? ==> r == Fail(Started(s0, criteria), transport.message)
    ensures transport.Streamed? ==>
              var handled := Reduce(Started(s0, criteria), DecodeAll(parse, ReadAll(transport.chunks).0));
              r == (if transport.failure.Some? then Fail(handled, transport.failure.value) else handled)
  {
    var s := Started(s0, criteria);
    match transport {
      case HttpError(status) =>
        r := Fail(s, Some("HTTP error! status: " + IntToString(status)));
      case NoBody =>
        r := Fail(s, Some("No response body"));
      case FetchFailed(message) =>
        r := Fail(s, message);
      case Streamed(chunks, failure) =>
        var handled, _ := ReadLoop(parse, s, chunks);
        ConsumeIsReduce(parse, s, ReadAll(chunks).0);
        r := if failure.Some? then Fail(handled, failure.value) else handled;
    }
  }

  /** A run that fails before the stream starts keeps the loaded checklist and logs nothing. */
  lemma FailedRequestKeepsChecklist(s0: State, criteria: CriteriaResponse, message: Option<string>)
    ensures var r := Fail(Started(s0, criteria), message);
            && r.criteria == LoadCriteria(criteria) && r.steps == [] && r.counter == 0
            && !r.processing && !r.clock.armed && r.error.Some?
  {
  }

  /**
   * A stream that ends without `complete` or `error` leaves the run
   * processing and its timer armed: nothing in the loop's exit stops them.
   */
  lemma {:induction false} UnfinishedStreamKeepsProcessing(s: State, events: seq<Event>)
    requires s.processing && s.clock.armed
    requires forall i :: 0 <= i < |events| ==> events[i].eventType != Complete && events[i].eventType != Error
    ensures Reduce(s, events).processing && Reduce(s, events).clock.armed
  {
    if |events| > 0 {
      UnfinishedStreamKeepsProcessing(s, Init(events));
    }
  }

  // ---------------------------------------------------------------------------
  // Timer controls
  // ---------------------------------------------------------------------------

  /** `pause`: the timer is disarmed and the count kept; nothing else changes. */
  function Pause(s: State): (r: State)
    ensures !r.clock.armed && r.clock.elapsed == s.clock.elapsed
    ensures r.(clock := s.clock) == s
  {
    s.(clock := Stop(s.clock))
  }

  /** `resume` as written: when processing, `startTimer` is called without stopping the held interval. */
  function ResumeAsWritten(s: State): (r: State)
    ensures r.(clock := s.clock) == s
    ensures s.processing ==> r.clock.armed && r.clock.elapsed == 0
    ensures !s.processing ==> r == s
  {
    if s.processing then s.(clock := Start(s.clock)) else s
  }

  /** `resume` with the held interval cleared before a new one is armed. */
  function Resume(s: State): (r: State)
    ensures r.(clock := s.clock) == s
    ensures s.processing ==> r.clock.armed && r.clock.elapsed == 0 && r.clock.leaked == s.clock.leaked
    ensures !s.processing ==> r == s
  {
    if s.processing then s.(clock := Start(Stop(s.clock))) else s
  }

  /** One second of wall-clock time. */
  function Second(s: State): (r: State)
    ensures r.(clock := s.clock) == s
    ensures r.clock.elapsed == s.clock.elapsed + Live(s.clock)
  {
    s.(clock := Tick(s.clock))
  }

  /** `formattedElapsedTime` */
  function ElapsedText(s: State): string {
    FormatElapsed(s.clock.elapsed)
  }

  /** What can happen to the service between two renders. */
  datatype Input =
    | Run(parse: string -> Option<Json>, criteria: CriteriaResponse, transport: Transport)
    | Deliver(e: Event)
    | PauseInput
    | ResumeInput
    | ResetInput
    | SecondInput

  /** The service's response to one input, with the corrected `resume`. */
  function Step(s: State, i: Input): State {
    match i
    case Run(parse, criteria, transport) => RunResult(parse, s, criteria, transport)
    case Deliver(e) => Handle(s, e)
    case PauseInput => Pause(s)
    case ResumeInput => Resume(s)
    case ResetInput => Reset(s)
    case SecondInput => Second(s)
  }

  /** The state `AnalyzeCase` ends in. */
  function RunResult(parse: string -> Option<Json>, s0: State, criteria: CriteriaResponse, transport: Transport)
    : (r: State)
    ensures !transport.Streamed? ==>
              && !r.processing && !r.clock.armed && r.error.Some?
              && r.steps == [] && r.analysis == "" && r.criteria == LoadCriteria(criteria)
    ensures transport.Streamed? && transport.failure.Some? ==>
              !r.processing && !r.clock.armed && r.error == Some(transport.failure.value.GetOr("Unknown error"))
  {
    var s := Started(s0, criteria);
    match transport
    case HttpError(status) => Fail(s, Some("HTTP error! status: " + IntToString(status)))
    case NoBody => Fail(s, Some("No response body"))
    case FetchFailed(message) => Fail(s, message)
    case Streamed(chunks, failure) =>
      var handled := Reduce(s, DecodeAll(parse, ReadAll(chunks).0));
      if failure.Some? then Fail(handled, failure.value) else handled
  }

  lemma {:induction false} ReduceKeepsLeaked(s: State, events: seq<Event>)
    ensures Reduce(s, events).clock.leaked == s.clock.leaked
  {
    if |events| > 0 {
      ReduceKeepsLeaked(s, Init(events));
      HandleKeepsClock(Reduce(s, Init(events)), Last(events));
    }
  }

  /**
   * With the corrected `resume`, no interval is ever leaked: whatever the
   * inputs, at most one interval runs, so a tick adds one while armed and
   * nothing while paused.
   */
  lemma StepKeepsClockSound(s: State, i: Input)
    requires Sound(s.clock)
    ensures Sound(Step(s, i).clock)
  {
    match i
    case Run(parse, criteria, transport) =>
      RunKeepsClockSound(parse, s, criteria, transport);
    case Deliver(e) =>
      HandleKeepsClock(s, e);
    case PauseInput =>
    case ResumeInput =>
    case ResetInput =>
    case SecondInput =>
  }

  lemma RunKeepsClockSound(parse: string -> Option<Json>, s: State, criteria: CriteriaResponse, transport: Transport)
    requires Sound(s.clock)
    ensures Sound(RunResult(parse, s, criteria, transport).clock)
  {
    var st := Started(s, criteria);
    if transport.Streamed? {
      ReduceKeepsLeaked(st, DecodeAll(parse, ReadAll(transport.chunks).0));
    }
  }

  function Steps(s: State, inputs: seq<Input>): State {
    if |inputs| == 0 then s else Step(Steps(s, Init(inputs)), Last(inputs))
  }

  lemma {:induction false} StepsKeepClockSound(s: State, inputs: seq<Input>)
    requires Sound(s.clock)
    ensures Sound(Steps(s, inputs).clock)
    ensures Live(Steps(s, inputs).clock) <= 1
  {
    if |inputs| > 0 {
      StepsKeepClockSound(s, Init(inputs));
      StepKeepsClockSound(Steps(s, Init(inputs)), Last(inputs));
    }
  }

  /**
   * As written, `resume` during a run leaks the running interval: after
   * `resume` and then `pause`, the timer is disarmed yet the count still
   * advances every second.
   */
  lemma ResumeAsWrittenLeaks()
    ensures var running := Started(Initial, CriteriaThrew);
            var paused := Pause(ResumeAsWritten(running));
            && Sound(running.clock) && running.processing && running.clock.armed
            && !paused.clock.armed
            && paused.clock.leaked == 1
            && Second(paused).clock.elapsed == paused.clock.elapsed + 1
  {
  }

  /** With the corrected `resume`, the same inputs leave the count frozen while paused. */
  lemma ResumeThenPauseFreezes()
    ensures var running := Started(Initial, CriteriaThrew);
            var paused := Pause(Resume(running));
            && !paused.clock.armed && Second(paused).clock.elapsed == paused.clock.elapsed
  {
  }

  // ---------------------------------------------------------------------------
  // Runs of the documented scenarios
  // ---------------------------------------------------------------------------

  /** A 404 from the criteria endpoint yields the six default criteria, all pending. */
  lemma CriteriaNotFoundFallsBack(s0: State)
    ensures Started(s0, CriteriaNotOk(404)).criteria == DefaultCriteria
    ensures forall i :: 0 <= i < |DefaultCriteria| ==> DefaultCriteria[i].status == Reducer.Pending
  {
  }

  function Ev(t: EventType, stage: Option<string>, content: Option<string>, tool: Option<string>,
              result: Option<Json>): Event {
    Event(t, stage, content, tool, result, None, "")
  }

  /**
   * Stage `evidence_review`, then a call and a result of
   * `check_beneficiary_qualifications` with score 89 and a qualification:
   * criterion '2' ends completed with confidence 89, and four steps are
   * logged (evaluating, tool, evidence, assessment).
   */
  lemma QualificationsScenario(s0: State)
    ensures var result := JObj([Field("confidence_score", JNum(89)),
                                Field("overall_qualification", JStr("QUALIFIED"))]);
            var events := [
              Ev(Stage, Some("evidence_review"), None, None, None),
              Ev(ToolCall, None, None, Some("check_beneficiary_qualifications"), None),
              Ev(ToolResult, None, None, Some("check_beneficiary_qualifications"), Some(result))];
            var r := Reduce(Started(s0, CriteriaNotOk(404)), events);
            && |r.criteria| == 6
            && r.criteria[1].id == "2" && r.criteria[1].status == Completed
            && r.criteria[1].confidence == Some(JNum(89))
            && |r.steps| == 4
            && r.steps[0].draft.kind == Evaluating && r.steps[1].draft.kind == ToolStep
            && r.steps[2].draft.kind == Evidence && r.steps[3].draft.kind == Assessment
  {
    var result := JObj([Field("confidence_score", JNum(89)), Field("overall_qualification", JStr("QUALIFIED"))]);
    var e0 := Ev(Stage, Some("evidence_review"), None, None, None);
    var e1 := Ev(ToolCall, None, None, Some("check_beneficiary_qualifications"), None);
    var e2 := Ev(ToolResult, None, None, Some("check_beneficiary_qualifications"), Some(result));
    var events := [e0, e1, e2];
    var s := Started(s0, CriteriaNotOk(404));
    StartedFallback(s0);
    ReduceThree(s, e0, e1, e2);
    var b := Handle(Handle(s, e0), e1);
    ScenarioPrefix(s, e0, e1);
    ScenarioResultFields(result);
    QualificationsCriterion(e2);
    ScenarioResult(b, e2, result);
  }

  lemma StartedFallback(s0: State)
    ensures var s := Started(s0, CriteriaNotOk(404));
            s.steps == [] && |s.criteria| == 6 && s.criteria[1].id == "2"
  {
  }

  lemma ReduceThree(s: State, e0: Event, e1: Event, e2: Event)
    ensures Reduce(s, [e0, e1, e2]) == Handle(Handle(Handle(s, e0), e1), e2)
  {
    assert Init([e0, e1, e2]) == [e0, e1] && Last([e0, e1, e2]) == e2;
    assert Init([e0, e1]) == [e0] && Last([e0, e1]) == e1;
    assert Init([e0]) == [] && Last([e0]) == e0;
    assert Reduce(s, []) == s;
    assert Reduce(s, [e0]) == Handle(s, e0);
    assert Reduce(s, [e0, e1]) == Handle(Handle(s, e0), e1);
  }

  lemma ScenarioPrefix(s: State, e0: Event, e1: Event)
    requires s.steps == [] && |s.criteria| == 6 && s.criteria[1].id == "2"
    requires e0.eventType == Stage && e0.stage.Some? && e0.stage.value != ""
    requires e1.eventType == ToolCall
    ensures var b := Handle(Handle(s, e0), e1);
            && |b.steps| == 2 && b.steps[0].draft.kind == Evaluating && b.steps[1].draft.kind == ToolStep
            && |b.criteria| == 6 && b.criteria[1].id == "2"
  {
    var a := Handle(s, e0);
    StageEvent(s, e0);
    ToolEventCriteria(a, e1, 1);
    HandleAppends(a, e1);
  }

  lemma ScenarioResult(b: State, e2: Event, result: Json)
    requires e2.eventType == ToolResult && e2.toolResult == Some(result)
    requires CriterionFor(ToolOf(e2)) == Some("2")
    requires ScoreOf(Some(result)) == Some(JNum(89))
    requires !Truthy(PolicyOf(result)) && Truthy(DeterminationOf(result))
    requires |b.steps| == 2 && b.steps[0].draft.kind == Evaluating && b.steps[1].draft.kind == ToolStep
    requires |b.criteria| == 6 && b.criteria[1].id == "2"
    ensures var r := Handle(b, e2);
            && |r.criteria| == 6
            && r.criteria[1].id == "2" && r.criteria[1].status == Completed
            && r.criteria[1].confidence == Some(JNum(89))
            && |r.steps| == 4
            && r.steps[0].draft.kind == Evaluating && r.steps[1].draft.kind == ToolStep
            && r.steps[2].draft.kind == Evidence && r.steps[3].draft.kind == Assessment
  {
    ToolEventCriteria(b, e2, 1);
    ToolResultEvent(b, e2);
    HandleAppends(b, e2);
    var r := Handle(b, e2);
    assert r.steps[..2] == b.steps;
    assert r.steps[0] == b.steps[0] && r.steps[1] == b.steps[1];
  }

  lemma QualificationsCriterion(e: Event)
    requires e.toolName == Some("check_beneficiary_qualifications")
    ensures CriterionFor(ToolOf(e)) == Some("2")
  {
    assert ToolOf(e) == "check_beneficiary_qualifications";
  }

  lemma ScenarioResultFields(result: Json)
    requires result == JObj([Field("confidence_score", JNum(89)), Field("overall_qualification", JStr("QUALIFIED"))])
    ensures ScoreOf(Some(result)) == Some(JNum(89))
    ensures !Truthy(PolicyOf(result)) && Truthy(DeterminationOf(result))
  {
    LookupAt(result.fields, 0, "confidence_score");
    LookupAt(result.fields, 1, "overall_qualification");
  }

  /** An `error` event reading `rate limited` ends the run with that message and a disarmed timer. */
  lemma RateLimitedScenario(s: State)
    ensures var r := Handle(s, Ev(Error, None, Some("rate limited"), None, None));
            r.error == Some("rate limited") && !r.processing && !r.clock.armed
  {
  }
}

=== FILE: sidebar.dfy ===
/**
 * The navigation sidebar: collapsing it, which the parent layout is told
 * about, and expanding the menus that have children.
 */
module Sidebar {
  import opened Widgets

  datatype SidebarState = SidebarState(isCollapsed: bool, expandedMenus: set<string>)

  /** The sidebar opens expanded with every menu folded. */
  const Initial: SidebarState := SidebarState(false, {})

  /**
   * `toggleCollapse`: flip the collapsed flag and emit the new value on
   * `collapsedChange`.
   */
  function ToggleCollapse(s: SidebarState): (r: (SidebarState, bool))
    ensures r.0.isCollapsed == !s.isCollapsed
    ensures r.1 == r.0.isCollapsed
    ensures r.0.expandedMenus == s.expandedMenus
  {
    var next := s.(isCollapsed := !s.isCollapsed);
    (next, next.isCollapsed)
  }

  /** Collapsing twice restores the sidebar, and the two emitted values differ. */
  lemma ToggleCollapseTwice(s: SidebarState)
    ensures ToggleCollapse(ToggleCollapse(s).0).0 == s
    ensures ToggleCollapse(ToggleCollapse(s).0).1 == s.isCollapsed != ToggleCollapse(s).1
  {
  }

  /** `isMenuExpanded` */
  predicate IsMenuExpanded(s: SidebarState, menu: string) {
    menu in s.expandedMenus
  }

  /** `toggleMenu`: fold the menu when expanded, expand it otherwise. */
  function ToggleMenu(s: SidebarState, menu: string): (r: SidebarState)
    ensures IsMenuExpanded(r, menu) == !IsMenuExpanded(s, menu)
    ensures forall other :: other != menu ==> IsMenuExpanded(r, other) == IsMenuExpanded(s, other)
    ensures r.isCollapsed == s.isCollapsed
  {
    s.(expandedMenus := Toggled(s.expandedMenus, menu))
  }

  /** Toggling a menu twice restores the sidebar. */
  lemma ToggleMenuTwice(s: SidebarState, menu: string)
    ensures ToggleMenu(ToggleMenu(s, menu), menu) == s
  {
    ToggledTwice(s.expandedMenus, menu);
  }

  /** Toggling two different menus in either order gives the same sidebar. */
  lemma ToggleMenuCommutes(s: SidebarState, a: string, b: string)
    ensures ToggleMenu(ToggleMenu(s, a), b) == ToggleMenu(ToggleMenu(s, b), a)
  {
    var ab, ba := ToggleMenu(ToggleMenu(s, a), b).expandedMenus, ToggleMenu(ToggleMenu(s, b), a).expandedMenus;
    assert forall x :: x in ab <==> x in ba;
  }

  /** How often `menu` occurs among the clicks. */
  function Clicks(clicks: seq<string>, menu: string): nat {
    if |clicks| == 0 then 0
    else Clicks(clicks[..|clicks| - 1], menu) + (if clicks[|clicks| - 1] == menu then 1 else 0)
  }

  /** The sidebar after the given menu clicks, from the opening state. */
  function RunMenus(clicks: seq<string>): SidebarState {
    if |clicks| == 0 then Initial else ToggleMenu(RunMenus(clicks[..|clicks| - 1]), clicks[|clicks| - 1])
  }

  /**
   * `isMenuExpanded` after any sequence of menu clicks: a menu is expanded
   * exactly when it was clicked an odd number of times; the sidebar stays
   * uncollapsed.
   */
  lemma {:induction false} ExpandedIffClickedOddly(clicks: seq<string>, menu: string)
    ensures IsMenuExpanded(RunMenus(clicks), menu) <==> Clicks(clicks, menu) % 2 == 1
    ensures !RunMenus(clicks).isCollapsed
  {
    if |clicks| > 0 {
      ExpandedIffClickedOddly(clicks[..|clicks| - 1], menu);
    }
  }
}

=== FILE: text.dfy ===
/**
 * String primitives the source uses through JavaScript's and Python's
 * standard library: prefix and substring tests, ASCII case mapping,
 * whitespace trimming, first-occurrence replacement, repetition,
 * padding and decimal rendering of integers.
 */
module Text {

  /** `s.startsWith(p)` */
  predicate StartsWith(s: string, p: string) {
    |p| <= |s| && s[..|p|] == p
  }

  /** `q` occurs in `s` at position `i`. */
  ghost predicate OccursAt(s: string, q: string, i: int) {
    0 <= i && i + |q| <= |s| && s[i..i + |q|] == q
  }

  /** `q` is a substring of `s` (JavaScript `s.includes(q)`, Python `q in s`). */
  ghost predicate IsSubstring(q: string, s: string) {
    exists i :: OccursAt(s, q, i)
  }

  lemma OccursAtShift(s: string, q: string, i: int)
    requires |s| > 0 && i >= 0
    ensures OccursAt(s[1..], q, i) <==> OccursAt(s, q, i + 1)
  {
    if 0 <= i && i + |q| <= |s| - 1 {
      assert s[1..][i..i + |q|] == s[i + 1..i + 1 + |q|];
    }
  }

  /** Substring search, scanning the start positions left to right. */
  function Includes(s: string, q: string): (r: bool)
    ensures r <==> IsSubstring(q, s)
    decreases |s|
  {
    if |q| > |s| then
      assert forall i :: !OccursAt(s, q, i);
      false
    else if s[..|q|] == q then
      assert OccursAt(s, q, 0);
      true
    else
      var rest := Includes(s[1..], q);
      assert rest ==> IsSubstring(q, s) by {
        if rest {
          var i :| OccursAt(s[1..], q, i);
          OccursAtShift(s, q, i);
        }
      }
      assert IsSubstring(q, s) ==> rest by {
        if IsSubstring(q, s) {
          var i :| OccursAt(s, q, i);
          assert i != 0;
          OccursAtShift(s, q, i - 1);
        }
      }
      rest
  }

  /** The empty string occurs in every string. */
  lemma EmptyIsSubstring(s: string)
    ensures Includes(s, "")
  {
    assert OccursAt(s, "", 0);
  }

  // ---------------------------------------------------------------------------
  // Case mapping (ASCII letters only)
  // ---------------------------------------------------------------------------

  function LowerChar(c: char): char {
    if 'A' <= c <= 'Z' then (c as int + 32) as char else c
  }

  function UpperChar(c: char): char {
    if 'a' <= c <= 'z' then (c as int - 32) as char else c
  }

  /** `s.toLowerCase()` restricted to ASCII letters. */
  function Lower(s: string): (r: string)
    ensures |r| == |s|
    ensures forall i :: 0 <= i < |s| ==> r[i] == LowerChar(s[i])
  {
    seq(|s|, i requires 0 <= i < |s| => LowerChar(s[i]))
  }

  /** `s.toUpperCase()` / Python `s.upper()` restricted to ASCII letters. */
  function Upper(s: string): (r: string)
    ensures |r| == |s|
    ensures forall i :: 0 <= i < |s| ==> r[i] == UpperChar(s[i])
  {
    seq(|s|, i requires 0 <= i < |s| => UpperChar(s[i]))
  }

  /** Upper-casing twice is upper-casing once. */
  lemma UpperIdempotent(s: string)
    ensures Upper(Upper(s)) == Upper(s)
  {
  }

  // ---------------------------------------------------------------------------
  // Whitespace and trimming
  // ---------------------------------------------------------------------------

  /** ECMAScript WhiteSpace and LineTerminator code points, which `trim` removes. */
  predicate IsSpace(c: char) {
    || c == '\t' || c == '\n' || c == '\U{000B}' || c == '\U{000C}' || c == '\r'
    || c == ' ' || c == '\U{00A0}' || c == '\U{1680}'
    || ('\U{2000}' <= c <= '\U{200A}')
    || c == '\U{2028}' || c == '\U{2029}' || c == '\U{202F}' || c == '\U{205F}'
    || c == '\U{3000}' || c == '\U{FEFF}'
  }

  /** Every character of `s` is whitespace. */
  predicate IsBlank(s: string) {
    forall i :: 0 <= i < |s| ==> IsSpace(s[i])
  }

  function TrimStart(s: string): (r: string)
    ensures |r| <= |s| && r == s[|s| - |r|..]
    ensures IsBlank(s[..|s| - |r|])
    ensures |r| > 0 ==> !IsSpace(r[0])
  {
    if |s| > 0 && IsSpace(s[0]) then
      var r := TrimStart(s[1..]);
      assert s[1..][..|s| - 1 - |r|] == s[1..|s| - |r|];
      r
    else s
  }

  function TrimEnd(s: string): (r: string)
    ensures |r| <= |s| && r == s[..|r|]
    ensures IsBlank(s[|r|..])
    ensures |r| > 0 ==> !IsSpace(r[|r| - 1])
  {
    if |s| > 0 && IsSpace(s[|s| - 1]) then
      var r := TrimEnd(s[..|s| - 1]);
      assert s[|r|..] == s[..|s| - 1][|r|..] + [s[|s| - 1]];
      r
    else s
  }

  /** `s.trim()` */
  function Trim(s: string): string {
    TrimEnd(TrimStart(s))
  }

  /** `s.trim()` is the empty string exactly when `s` is blank. */
  lemma TrimEmptyIffBlank(s: string)
    ensures Trim(s) == "" <==> IsBlank(s)
  {
    var t := TrimStart(s);
    if Trim(s) == "" {
      assert IsBlank(t[0..]);
      assert s == s[..|s| - |t|] + t;
    } else {
      var u := TrimEnd(t);
      assert !IsSpace(t[|u| - 1]);
    }
  }

  // ---------------------------------------------------------------------------
  // Editing
  // ---------------------------------------------------------------------------

  /** Index of the first occurrence of `c` in `s`, if any. */
  function IndexOf(s: string, c: char): (r: int)
    ensures -1 <= r < |s|
    ensures r == -1 <==> c !in s
    ensures r >= 0 ==> s[r] == c && c !in s[..r]
  {
    if |s| == 0 then -1
    else if s[0] == c then 0
    else
      var k := IndexOf(s[1..], c);
      assert s == [s[0]] + s[1..];
      if k == -1 then -1
      else
        assert s[..k + 1] == [s[0]] + s[1..][..k];
        k + 1
  }

  /** `s.replace(c, d)` with a one-character string pattern: only the first occurrence. */
  function ReplaceFirst(s: string, c: char, d: char): (r: string)
    ensures c !in s ==> r == s
    ensures c in s ==> exists i :: 0 <= i < |s| && s[i] == c && c !in s[..i]
                                   && r == s[..i] + [d] + s[i + 1..]
  {
    var i := IndexOf(s, c);
    if i < 0 then s else s[..i] + [d] + s[i + 1..]
  }

  /** `t.repeat(n)` */
  function Repeat(t: string, n: nat): (r: string)
    ensures |r| == n * |t|
  {
    if n == 0 then "" else t + Repeat(t, n - 1)
  }

  /** Repeating a one-character string gives that character at every position. */
  lemma {:induction false} RepeatOne(c: char, n: nat)
    ensures forall i :: 0 <= i < |Repeat([c], n)| ==> Repeat([c], n)[i] == c
  {
    if n > 0 {
      RepeatOne(c, n - 1);
      assert Repeat([c], n) == [c] + Repeat([c], n - 1);
    }
  }

  /** `s.padStart(w, fill)` with a one-character fill. */
  function PadStart(s: string, w: nat, fill: char): (r: string)
    ensures |s| >= w ==> r == s
    ensures |s| < w ==> |r| == w && r[w - |s|..] == s
                        && forall i :: 0 <= i < w - |s| ==> r[i] == fill
  {
    if |s| >= w then s else seq(w - |s|, _ => fill) + s
  }

  // ---------------------------------------------------------------------------
  // Decimal rendering of integers
  // ---------------------------------------------------------------------------

  predicate IsDigit(c: char) {
    '0' <= c <= '9'
  }

  predicate AllDigits(s: string) {
    forall i :: 0 <= i < |s| ==> IsDigit(s[i])
  }

  function DigitChar(d: nat): (c: char)
    requires d < 10
    ensures IsDigit(c) && c as int - '0' as int == d
  {
    ('0' as int + d) as char
  }

  /** The number a string of decimal digits denotes. */
  function DigitsValue(s: string): nat
    requires AllDigits(s)
  {
    if |s| == 0 then 0
    else DigitsValue(s[..|s| - 1]) * 10 + (s[|s| - 1] as int - '0' as int)
  }

  /** `String(n)` for a natural number: its shortest decimal spelling. */
  function NatToString(n: nat): (r: string)
    ensures |r| >= 1 && AllDigits(r)
    ensures DigitsValue(r) == n
    ensures |r| > 1 ==> r[0] != '0'
    decreases n
  {
    if n < 10 then [DigitChar(n)]
    else
      var p := NatToString(n / 10);
      var r := p + [DigitChar(n % 10)];
      assert r[..|r| - 1] == p;
      r
  }

  /** Distinct numbers are spelled differently. */
  lemma NatToStringInjective(a: nat, b: nat)
    requires NatToString(a) == NatToString(b)
    ensures a == b
  {
  }

  /** `String(i)` for an integer. */
  function IntToString(i: int): (r: string)
    ensures i >= 0 ==> r == NatToString(i)
    ensures i < 0 ==> r == "-" + NatToString(-i)
  {
    if i < 0 then "-" + NatToString(-i) else NatToString(i)
  }
}

=== FILE: timer.dfy ===
/**
 * The elapsed-time counter of an analysis run. `startTimer` zeroes the count
 * and arms a one-second interval whose handle the service keeps;
 * `stopTimer` clears the interval whose handle it holds, if any. An interval
 * armed while another one is held is never cleared: its handle is lost, and
 * it keeps adding to the count.
 */
module Timer {
  import opened Wrappers
  import opened Text

  /**
   * `armed`: the service holds an interval handle; `leaked`: intervals still
   * running whose handles were overwritten; `elapsed`: the count in seconds.
   */
  datatype Clock = Clock(armed: bool, leaked: nat, elapsed: nat)

  /** The clock of a fresh service: nothing running, count zero. */
  const Idle: Clock := Clock(false, 0, 0)

  /** The number of intervals that fire every second. */
  function Live(c: Clock): (n: nat)
    ensures n == 0 <==> !c.armed && c.leaked == 0
  {
    c.leaked + (if c.armed then 1 else 0)
  }

  /** No interval runs without the service holding its handle. */
  predicate Sound(c: Clock) {
    c.leaked == 0
  }

  /** `startTimer`: the count restarts at zero and a new interval is armed. */
  function Start(c: Clock): (r: Clock)
    ensures r.armed && r.elapsed == 0
    ensures Live(r) == Live(c) + 1
  {
    Clock(true, Live(c), 0)
  }

  /** `stopTimer`: the held interval, if any, is cleared; the count is kept. */
  function Stop(c: Clock): (r: Clock)
    ensures !r.armed && r.elapsed == c.elapsed
    ensures Live(r) == c.leaked
  {
    Clock(false, c.leaked, c.elapsed)
  }

  /** One second passes: every running interval adds one to the count. */
  function Tick(c: Clock): (r: Clock)
    ensures r.elapsed == c.elapsed + Live(c)
    ensures r.armed == c.armed && r.leaked == c.leaked
  {
    c.(elapsed := c.elapsed + Live(c))
  }

  /** With no interval leaked, a tick adds exactly one while armed and nothing otherwise. */
  lemma TickOfSoundClock(c: Clock)
    requires Sound(c)
    ensures Tick(c).elapsed == c.elapsed + (if c.armed then 1 else 0)
    ensures Sound(Tick(c))
  {
  }

  /** A sound clock stays sound under stopping, and under starting once stopped. */
  lemma StopStartSound(c: Clock)
    requires Sound(c)
    ensures Sound(Stop(c)) && Sound(Start(Stop(c)))
  {
  }

  /** `n` ticks in a row. */
  function Ticks(c: Clock, n: nat): (r: Clock)
    ensures r.armed == c.armed && r.leaked == c.leaked
  {
    if n == 0 then c else Tick(Ticks(c, n - 1))
  }

  /** Once stopped with nothing leaked, the count is frozen however long one waits. */
  lemma {:induction false} StoppedClockFrozen(c: Clock, n: nat)
    requires Sound(c)
    ensures Ticks(Stop(c), n).elapsed == c.elapsed
  {
    if n > 0 {
      StoppedClockFrozen(c, n - 1);
    }
  }

  /** A freshly started sound clock shows exactly the seconds that have passed. */
  lemma {:induction false} StartedClockCounts(c: Clock, n: nat)
    requires Sound(c) && !c.armed
    ensures Ticks(Start(c), n).elapsed == n
  {
    if n > 0 {
      StartedClockCounts(c, n - 1);
    }
  }

  // ---------------------------------------------------------------------------
  // `m:ss` display
  // ---------------------------------------------------------------------------

  /** `${Math.floor(s / 60)}:${(s % 60).toString().padStart(2, '0')}` */
  function FormatElapsed(seconds: nat): (r: string)
    ensures |r| >= 4 && r[|r| - 3] == ':'
    ensures AllDigits(r[..|r| - 3]) && AllDigits(r[|r| - 2..])
  {
    var secs := NatToString(seconds % 60);
    var padded := PadStart(secs, 2, '0');
    PaddedSeconds(seconds % 60);
    NatToString(seconds / 60) + ":" + padded
  }

  /** Reads `m:ss` back: minutes in decimal, a colon, exactly two digits below 60. */
  function ParseElapsed(t: string): (r: Option<nat>)
    ensures r.Some? ==> ':' in t
  {
    var i := IndexOf(t, ':');
    if i < 0 then None
    else
      var mins, secs := t[..i], t[i + 1..];
      if |mins| >= 1 && AllDigits(mins) && |secs| == 2 && AllDigits(secs) && DigitsValue(secs) < 60
      then Some(DigitsValue(mins) * 60 + DigitsValue(secs))
      else None
  }

  /** A one-digit number is padded with a single leading zero. */
  lemma PaddedSeconds(s: nat)
    requires s < 60
    ensures var p := PadStart(NatToString(s), 2, '0');
            |p| == 2 && AllDigits(p) && DigitsValue(p) == s
  {
    var n := NatToString(s);
    var p := PadStart(n, 2, '0');
    if s < 10 {
      assert p == ['0'] + n;
      assert p[..1] == ['0'];
    } else {
      assert n == NatToString(s / 10) + [DigitChar(s % 10)];
    }
  }

  /** The display is read back to the count it shows. */
  lemma ParseFormat(seconds: nat)
    ensures ParseElapsed(FormatElapsed(seconds)) == Some(seconds)
  {
    var m := NatToString(seconds / 60);
    var p := PadStart(NatToString(seconds % 60), 2, '0');
    PaddedSeconds(seconds % 60);
    var t := FormatElapsed(seconds);
    assert t == m + ":" + p;
    assert ':' !in m;
    assert t[|m|] == ':';
    assert t[..|m|] == m;
    assert IndexOf(t, ':') == |m|;
    assert t[|m| + 1..] == p;
  }

  /** Different counts are displayed differently. */
  lemma FormatInjective(a: nat, b: nat)
    requires FormatElapsed(a) == FormatElapsed(b)
    ensures a == b
  {
    ParseFormat(a);
    ParseFormat(b);
  }

  /** Two minutes and five seconds show as `2:05`; fifty-nine seconds as `0:59`. */
  lemma FormatExamples()
    ensures FormatElapsed(125) == "2:05"
    ensures FormatElapsed(59) == "0:59"
  {
    assert 125 / 60 == 2 && 125 % 60 == 5 && 59 / 60 == 0 && 59 % 60 == 59;
    assert NatToString(2) == "2" && NatToString(5) == "5" && NatToString(0) == "0";
    assert NatToString(59) == NatToString(5) + "9";
    assert PadStart("5", 2, '0') == "05";
    assert PadStart("59", 2, '0') == "59";
  }
}

=== FILE: widgets.dfy ===
/**
 * Building blocks the page components share: JavaScript's `slice` and
 * `substring` index clamping, membership toggling on a `Set`, and the
 * confidence colour scale.
 */
module Widgets {

  /** `Math.min(Math.max(i, lo), hi)` */
  function Clamp(i: int, lo: int, hi: int): (r: int)
    requires lo <= hi
    ensures lo <= r <= hi
    ensures lo <= i <= hi ==> r == i
  {
    if i < lo then lo else if i > hi then hi else i
  }

  /** An index argument of `Array.prototype.slice`: negative counts from the end, then clamped to the length. */
  function SliceIndex(i: int, len: nat): (r: nat)
    ensures r <= len
    ensures 0 <= i <= len ==> r == i
    ensures i > len ==> r == len
    ensures i < 0 && 0 <= len + i ==> r == len + i
    ensures len + i < 0 ==> r == 0
  {
    if i < 0 then Clamp(len + i, 0, len) else Clamp(i, 0, len)
  }

  /** `s.slice(start, end)` */
  function Slice<T>(s: seq<T>, start: int, end: int): (r: seq<T>)
    ensures var a, b := SliceIndex(start, |s|), SliceIndex(end, |s|);
            r == if a <= b then s[a..b] else []
  {
    var a, b := SliceIndex(start, |s|), SliceIndex(end, |s|);
    if a <= b then s[a..b] else []
  }

  /** For non-negative bounds the slice holds at most `end - start` elements, taken in order from `start`. */
  lemma SliceWindow<T>(s: seq<T>, start: int, end: int)
    requires 0 <= start <= end
    ensures |Slice(s, start, end)| <= end - start
    ensures forall k :: 0 <= k < |Slice(s, start, end)| ==> start + k < |s| && Slice(s, start, end)[k] == s[start + k]
    ensures start + (end - start) <= |s| ==> |Slice(s, start, end)| == end - start
  {
  }

  /** `s.substring(0, n)`: the first `n` characters, with `n` clamped to `[0, |s|]`. */
  function Prefix(s: string, n: int): (r: string)
    ensures r == s[..Clamp(n, 0, |s|)]
  {
    s[..Clamp(n, 0, |s|)]
  }

  // ---------------------------------------------------------------------------
  // Sets
  // ---------------------------------------------------------------------------

  /**
   * The `Set` update both the case selection and the expanded menus use:
   * delete `x` when present, add it otherwise.
   */
  function Toggled(s: set<string>, x: string): (r: set<string>)
    ensures x in r <==> x !in s
    ensures forall y :: y != x ==> (y in r <==> y in s)
  {
    if x in s then s - {x} else s + {x}
  }

  /** Toggling the same element twice restores the set; toggling changes only that element. */
  lemma ToggledTwice(s: set<string>, x: string)
    ensures Toggled(Toggled(s, x), x) == s
    ensures Toggled(s, x) != s
  {
  }

  // ---------------------------------------------------------------------------
  // Confidence colours
  // ---------------------------------------------------------------------------

  const Success: string := "var(--color-success)"
  const Warning: string := "var(--color-warning)"
  const Danger: string := "var(--color-danger)"

  /** `getConfidenceColor`: success from 80, warning from 60, danger below. */
  function ConfidenceColor(confidence: int): (r: string)
    ensures r in {Success, Warning, Danger}
    ensures r == Success <==> confidence >= 80
    ensures r == Danger <==> confidence < 60
  {
    if confidence >= 80 then Success
    else if confidence >= 60 then Warning
    else Danger
  }

  /** How alarming a colour is: 0 for success, 1 for warning, 2 for danger. */
  function Severity(color: string): nat {
    if color == Success then 0 else if color == Warning then 1 else 2
  }

  /** A higher confidence never gets a more alarming colour. */
  lemma ConfidenceColorMonotone(a: int, b: int)
    requires a <= b
    ensures Severity(ConfidenceColor(b)) <= Severity(ConfidenceColor(a))
  {
  }
}

=== FILE: wrappers.dfy ===
/** Failure-compatible wrappers shared by the whole model. */
module Wrappers {

  /** An optional value: JavaScript's `undefined`/absent key, Python's `None`. */
  datatype Option<+T> = None | Some(value: T) {

    /** The wrapped value, or `default` when there is none. */
    function GetOr(default: T): T {
      match this
      case Some(v) => v
      case None => default
    }
  }

  /** The outcome of an operation that can raise: the value, or the error it raises. */
  datatype Result<+R, +E> = Success(value: R) | Failure(error: E) {

    predicate IsFailure() {
      Failure?
    }
  }
}
